=== FILE: README.md ===
# mcp-server-python-venv, modelled in Dafny

This project models the pure logic inside an MCP server that inspects Python
virtual environments. The server is written in TypeScript. The model covers
the computation that sits between its shell calls:

- the dependency-graph engine of the `analyze_dependencies` tool. It parses the
  `Requires:` field of `pip show`, builds a lower-cased adjacency map, detects
  cycles by depth-first search, finds unused packages and root packages, and
  builds depth-bounded trees;
- the version matcher (`compareVersions`, `checkVersionMatch`,
  `checkCompatibleVersion`) and the requirements reconciler, which classifies
  requirements as missing, mismatched or extra and renders an install command;
- the requirement-line parser and the `[section]` scanners over
  `requirements.txt`, `pyproject.toml`, `Pipfile` and `environment.yml`,
  including the scanners in the Poetry, Pipenv and Conda managers;
- the small classifiers and serialisers: license extraction and
  categorisation, the three export formats, the major/minor/patch upgrade
  classifier, and the requirements status line of the environment summary;
- the time-to-live `Cache<T>` and `generateCacheKey`.

Shell output (`pip list`, `pip show`, `conda info`, …) and file contents enter
the model as parameters. A parsed listing is a sequence. A per-package
`pip show` is a lookup function `string -> Option<string>`, where `None`
stands for a command that failed. A file that does not exist is `None`.

The version matcher appears three times in the source, in `requirements.ts`,
`package-check.ts` and `package-list.ts`. The first two copies are textually
identical and are the one definition in module `Versions`. The third copy is
written with a loop. It is modelled as the method
`PackageList.CompareVersionsLoop`, which is proved equal to
`Versions.CompareVersions`.

JavaScript semantics are written out wherever they matter:

- `Number(piece)` is `Versions.ToNumber`. The result is `NaN` unless the piece
  is all ASCII digits, and the empty piece gives 0.
- `x || 0` maps `NaN` and a missing segment to 0.
- `!==` treats `NaN` as different from everything.
- `trim()` uses the ECMAScript whitespace and line-terminator set.
- `x || default` on strings is `Wrappers.OrElse`.
- `Array.prototype.sort()` with no comparator is code-unit order. The model
  uses character order.
- A JavaScript `Map` is an ordered key list plus a map in which the last write
  wins.

Module layout:

| file | module | models |
|---|---|---|
| wrappers.dfy | Wrappers | `Option`, and `x \|\| default` on strings |
| strings.dfy | Strings | `trim`, `split`, `join`, `startsWith`, `includes`, `toLowerCase`, quote stripping |
| sequences.dfy | Sequences | `[...new Set(s)]` |
| sorting.dfy | Sorting | a stable sort under a total preorder |
| line_scan.dfy | LineScan | the line-by-line state machine that every scanner is an instance of |
| stdlib.dfy | Stdlib | the standard-library name list and its two lookups |
| versions.dfy | Versions | the version matcher |
| dependency_graph.dfy | DependencyGraph | `parseDependenciesFromShow`, `buildDependencyMap`, `findRootPackages`, `findUnusedDependencies` |
| cycles.dfy | Cycles | `findCircularDependencies` and `findCycle` |
| dependency_tree.dfy | DependencyTree | `buildTreeForPackage` and `buildFullTree` |
| requirements.dfy | Requirements | `compareRequirements`, `generateInstallCommand`, `parseAllRequirementsFiles` |
| package_check.dfy | PackageCheck | `checkPackage` |
| package_list.dfy | PackageList | the loop copy of `compareVersions` and the sort step of `listPackages` |
| file_parsers.dfy | FileParsers | `parseRequirementLine`, `extractNameFromUrl` and the three file scanners |
| outdated.dfy | Outdated | `determineUpgradeType`, `generateUpgradeCommand` and the mapping in `checkOutdated` |
| licenses.dfy | Licenses | `extractLicenseFromShow`, `categorizeLicense`, `extractLicenseInfo`, `generateLicenseWarnings` |
| export.dfy | Export | `exportEnvironment` and its three formatters |
| venv_summary.dfy | VenvSummary | `getRequirementsStatus` |
| cache.dfy | Cache | `Cache<T>` and `generateCacheKey` |
| poetry.dfy | Poetry | `parsePyprojectToml` and the result of `getPoetryInfo` |
| pipenv.dfy | Pipenv | `parsePipfile` and the result of `getPipenvInfo` |
| conda.dfy | Conda | `parseEnvironmentYaml` and the result of `getCondaInfo` |

## Model

| member | source | states |
|---|---|---|
| DependencyGraph.ParseDependenciesFromShow | src/tools/dependency-tree.ts:72-99 | every dependency parsed from `pip show` text is trimmed and lower-cased; what each kind of line adds is stated by the lemmas below |
| DependencyGraph.RequiresLineAdds | src/tools/dependency-tree.ts:80-87 | wherever it appears before the loop stops, a non-empty `Requires:` field adds its comma-separated names, trimmed and lower-cased, and opens the field |
| DependencyGraph.ContinuationLineAdds | src/tools/dependency-tree.ts:93-95 | inside the field, a non-empty line without a colon adds its comma-separated names and keeps the field open |
| DependencyGraph.OtherLineSkipped | src/tools/dependency-tree.ts:93-95 | any other plain line (outside the field, empty, or with a colon) adds nothing and leaves the flag unchanged |
| DependencyGraph.RequiredByOutsideSkipped | src/tools/dependency-tree.ts:89-91 | `Required-by:` before any `Requires:` field does not stop the loop and adds nothing |
| DependencyGraph.StopsAtRequiredBy | src/tools/dependency-tree.ts:89-91 | a `Required-by:` line inside the `Requires:` field ends the scan, and nothing after it is read |
| DependencyGraph.NoRequiresNoDependencies | src/tools/dependency-tree.ts:72-99 | output without a `Requires:` line gives no dependencies |
| DependencyGraph.EmptyRequiresAddsNothing | src/tools/dependency-tree.ts:80-86 | an empty `Requires:` field adds nothing but still opens the field for the following lines |
| DependencyGraph.ShowExample | src/tools/dependency-tree.ts:72-99 | `Requires: a, B` followed by `Required-by: c` gives `[a, b]` |
| DependencyGraph.BuildDependencyMap | src/tools/dependency-tree.ts:56-70 | the map has exactly one key per installed package, its lower-cased name |
| DependencyGraph.DependencyMapKeys | src/tools/dependency-tree.ts:56-70 | the keys are the lower-cased names in order of first occurrence |
| DependencyGraph.DependencyMapLastWriteWins | src/tools/dependency-tree.ts:60-67 | a key holds the dependencies of the last package with that name, and a failed lookup gives `[]` without aborting the build |
| DependencyGraph.FindRootPackages | src/tools/dependency-tree.ts:233-244 | the roots are the map keys that appear in no dependency list, in key order: the key sequence filtered by "not a dependent"; they are distinct |
| DependencyGraph.KeepOutside | src/tools/dependency-tree.ts:243 | the `keys.filter(...)` loop equals the reference filter, so order and every kept key are preserved |
| DependencyGraph.FindUnusedDependencies | src/tools/dependency-tree.ts:144-159 | the lower-cased installed names filtered, in input order and with repeats, by "in no dependency list and not a standard-library name under the case-sensitive lookup" |
| DependencyGraph.KeepUnused | src/tools/dependency-tree.ts:156-158 | the `names.filter(...)` loop equals the reference filter |
| DependencyGraph.UnusedAreRoots | src/tools/dependency-tree.ts:144-159 | every unused package is a root package |
| Cycles.FindCycle | src/tools/dependency-tree.ts:118-142 | each start emits nothing or one pair `[u, v]` with `v` a dependency of `u` and both on the recursion stack; every name is visited at most once; an emitted pair reached from the stack proves a cycle; an empty result leaves the search sound |
| Cycles.FindCircularDependencies | src/tools/dependency-tree.ts:101-116 | the reported names have no duplicates |
| Cycles.CircularEmptyIffAcyclic | src/tools/dependency-tree.ts:101-142 | the result is empty exactly when the dependency graph has no cycle |
| Cycles.SelfLoopExample | src/tools/dependency-tree.ts:101-142 | the self-loop `{a: [a]}` gives `[a]` |
| Cycles.StaleStackExample | src/tools/dependency-tree.ts:124-140 | the early returns leave stale names on the recursion stack, so `{a: [b], b: [a], c: [a]}` gives `[b, a, c]`, with `c` on no cycle |
| DependencyTree.BuildTree | src/tools/dependency-tree.ts:180-208 | no node when the depth reaches `maxDepth` or the lower-cased name is already on the path; otherwise the name as given, version `unknown`, and the admitted dependencies in order; the tree is no deeper than `maxDepth` and no name repeats on a path |
| DependencyTree.Children | src/tools/dependency-tree.ts:191-201 | the children are the admitted dependencies in order, and each is the whole tree built for its name one level deeper from the same ancestors, so siblings do not share what they visit |
| DependencyTree.BuildFullTree | src/tools/dependency-tree.ts:210-231 | no roots gives no tree; a single non-empty root gives exactly that root's tree; otherwise a `root` node, version `1.0.0`, whose children are the root children below, in key order |
| DependencyTree.RootChildren | src/tools/dependency-tree.ts:224-229 | one child per root, in order: the root's tree when the depth limit is positive, and a bare `unknown` leaf when every tree is cut off |
| DependencyTree.DepthOneIsLeaf | src/tools/dependency-tree.ts:180-208 | at `maxDepth` 1 every package is a leaf |
| DependencyTree.AdmitNone | src/tools/dependency-tree.ts:187-189 | at or past `maxDepth` no dependency is admitted |
| DependencyTree.SelfDependencyIsCut | src/tools/dependency-tree.ts:187-201 | a package that depends on itself gets no children |
| Versions.ToNumber | src/tools/requirements.ts:121-122 | `Number(piece)` is a number exactly when the piece is all digits, and the empty piece is 0 |
| Versions.Parts | src/tools/requirements.ts:121-122 | one numeric value per dot-separated piece |
| Versions.CompareFrom | src/tools/requirements.ts:124-134 | the segment-wise comparison returns only -1, 0 or 1 |
| Versions.CompareVersions | src/tools/requirements.ts:120-135 | the result is -1, 0 or 1, and -1 exactly when the first differing zero-padded segment is smaller in the first version |
| Versions.CompareZeroIffPaddedEqual | src/tools/requirements.ts:120-135 | `compareVersions` is 0 exactly when the versions agree once padded with zeros and `NaN` is read as 0 |
| Versions.CompareOneIffFirstDifferenceGreater | src/tools/requirements.ts:120-135 | `compareVersions` is 1 exactly when the first differing segment is greater |
| Versions.CompareReflexive | src/tools/requirements.ts:120-135 | every version compares equal to itself |
| Versions.CompareAntisymmetric | src/tools/requirements.ts:120-135 | swapping the arguments negates the result |
| Versions.CompareTransitive | src/tools/requirements.ts:120-135 | at-most is transitive |
| Versions.ComparePadsWithZeros | src/tools/requirements.ts:124-128 | `1.0` and `1` compare equal |
| Versions.CompareNaNIsZero | src/tools/requirements.ts:127-128 | a `NaN` segment counts as 0: `2.x` equals `2.0` |
| Versions.CompareEmptySegmentIsZero | src/tools/requirements.ts:121-128 | an empty segment counts as 0: `1..2` equals `1.0.2` |
| Versions.CompareNumerically | src/tools/requirements.ts:124-134 | segments compare as numbers: `1.10` is above `1.9` |
| Versions.MatchEquals | src/tools/requirements.ts:93-95 | `==v` is string equality with `v` |
| Versions.CheckVersionMatch | src/tools/requirements.ts:92-118 | `==v` is string equality, `>=v` accepts exactly the versions with no smaller first differing segment, and a text with no operator prefix is compared as a whole |
| Versions.MatchAtLeastAtMost | src/tools/requirements.ts:97-103 | `>=v` and `<=v` compare with `compareVersions` |
| Versions.MatchGreaterLess | src/tools/requirements.ts:105-111 | `>v` and `<v` compare strictly, and are only reached when `v` does not start with `=` |
| Versions.MatchCompatible | src/tools/requirements.ts:113-115 | `~=v` delegates to `checkCompatibleVersion` |
| Versions.MatchNotEqualIsLiteral | src/tools/requirements.ts:92-118 | `!=v` falls through to whole-string equality with `!=v` |
| Versions.MatchEqualsItself | src/tools/requirements.ts:93-95 | every version matches `==` itself |
| Versions.CompatibleIsNeverOlder | src/tools/requirements.ts:137-158 | a compatible version is never older than the required one |
| Versions.CheckCompatibleVersion | src/tools/requirements.ts:137-158 | with fewer than two segments on either side, acceptance is "not older"; with two or more, a different major under `!==` rejects, a smaller numeric minor rejects, a larger one accepts, and any other minor falls back to "not older" |
| Versions.CompatibleRejectsNaNMajor | src/tools/requirements.ts:145-147 | a `NaN` major differs from itself under `!==`, so `x.1` is not compatible with `x.1` |
| Versions.CompatibleReleaseAccepted | src/tools/requirements.ts:137-158 | every numeric version that the compatible-release clause of PEP 440 accepts is accepted |
| Versions.CompatibleLooserThanPep440 | src/tools/requirements.ts:149-155 | the rule is looser than PEP 440: `1.9.0` is accepted for `~=1.4.2` |
| Versions.CompatibleAcceptsSameMinor | src/tools/requirements.ts:149-157 | `1.4.0` matches `~=1.4` |
| Versions.CompatibleRejectsOtherMajor | src/tools/requirements.ts:145-147 | `2.0.0` does not match `~=1.4` |
| Versions.CompatibleAcceptsLargerMinor | src/tools/requirements.ts:153-155 | `1.5.0` matches `~=1.4` |
| Requirements.FindInstalled | src/tools/requirements.ts:27-29 | the case-insensitive lookup finds an installed package exactly when one has the requirement's name |
| Requirements.Classify | src/tools/requirements.ts:26-40 | a requirement is missing exactly when no installed package has its name; it is mismatched only when it has a version and is installed |
| Requirements.MissingOf | src/tools/requirements.ts:26-33 | the missing list is the requirements filtered by "not installed" and mapped to their name and version or `any`: one entry per such requirement, in requirement order |
| Requirements.MismatchedOf | src/tools/requirements.ts:34-40 | the mismatched list is the requirements filtered by "installed with a version that does not match" and mapped to name, required and installed version, in requirement order |
| Requirements.ExtraOf | src/tools/requirements.ts:43-51 | the extras are the installed packages filtered by "no requirement names it" and mapped to name and version, in installed order |
| Requirements.InMissing | src/tools/requirements.ts:26-33 | an entry is missing exactly when it comes from a requirement that is not installed |
| Requirements.InMismatched | src/tools/requirements.ts:34-40 | an entry is mismatched exactly when it comes from an installed requirement whose version does not match |
| Requirements.InExtra | src/tools/requirements.ts:43-51 | an entry is extra exactly when it comes from an installed package that no requirement names |
| Requirements.ExtrasAreDisjoint | src/tools/requirements.ts:26-51 | no extra shares a name with a missing or mismatched entry |
| Requirements.GenerateInstallCommand | src/tools/requirements.ts:160-181 | `All requirements satisfied` exactly when nothing is missing or mismatched; otherwise `pip install ` and the specs of the missing, then the mismatched, space-joined |
| Requirements.Spec | src/tools/requirements.ts:161-174 | a spec is the name alone for `any` or no version, else name and version |
| Requirements.InstallCommandWords | src/tools/requirements.ts:160-181 | the words after `pip install` give back the specs in order |
| Requirements.CompareRequirements | src/tools/requirements.ts:19-60 | the three lists are the missing, extra and mismatched lists defined above, the command is rendered from the first two, and it says everything is satisfied exactly when every requirement is satisfied |
| Requirements.AllSatisfiedIff | src/tools/requirements.ts:26-40 | nothing missing and nothing mismatched exactly when every requirement is satisfied |
| Requirements.SatisfiedListsNothing | src/tools/requirements.ts:26-40 | when every requirement is satisfied nothing is missing or mismatched |
| Requirements.UnsatisfiedIsListed | src/tools/requirements.ts:26-40 | an unsatisfied requirement puts an entry in the missing or the mismatched list |
| Requirements.ParseRequirementsFile | src/tools/requirements.ts:66-78 | a file that does not exist, or whose name ends in none of the three suffixes, contributes nothing; otherwise the first matching suffix, in the order `requirements.txt`, `pyproject.toml`, `Pipfile`, picks the parser |
| Requirements.ParseAllRequirementsFiles | src/tools/requirements.ts:63-81 | no files give no requirements, and one file gives exactly what that file contributes; with the append law this is each file's requirements, concatenated in file order |
| Requirements.ParseAllAppend | src/tools/requirements.ts:63-81 | the requirements of several files are concatenated in file order |
| Requirements.DevRequirementsIgnored | src/tools/requirements.ts:66-78 | `requirements-dev.txt` contributes nothing |
| Requirements.TestRequirementsIgnored | src/tools/requirements.ts:66-78 | `requirements-test.txt` contributes nothing |
| Requirements.SetupPyIgnored | src/tools/requirements.ts:66-78 | `setup.py` contributes nothing |
| PackageCheck.FindVersion | src/tools/package-check.ts:21-22 | the version is the rest of the line after the leftmost `Version: ` anywhere in the text (which may sit inside `Metadata-Version: `), and is absent exactly when there is no non-empty one |
| PackageCheck.CheckPackage | src/tools/package-check.ts:5-42 | no result without an environment; not installed when the output is missing or holds the not-found warning or has no version line; otherwise installed with the first version, and `matches` is true when no version is asked for |
| PackageCheck.VersionLineFirst | src/tools/package-check.ts:21-35 | a leading `Version: v` line gives version `v` |
| PackageCheck.EmptyVersionLineSkipped | src/tools/package-check.ts:21-22 | a `Version: ` line with nothing after it does not match |
| PackageCheck.NoVersionAlwaysMatches | src/tools/package-check.ts:30 | with no version argument an installed package always matches |
| PackageList.CompareVersionsLoop | src/tools/package-list.ts:52-67 | the loop copy of `compareVersions` equals the one definition and returns -1, 0 or 1 |
| PackageList.VersionLeTotalPreorder | src/tools/package-list.ts:37-40 | ordering by `compareVersions` is a total preorder |
| PackageList.NameLe | src/tools/package-list.ts:41 | packages are ordered by the name order |
| PackageList.NameLeTotalPreorder | src/tools/package-list.ts:41 | a total name order gives a total package order |
| PackageList.SortPackages | src/tools/package-list.ts:35-46 | the result is a permutation, non-decreasing under `compareVersions` for the version sort and under the name order otherwise |
| PackageList.SortKeepsPackages | src/tools/package-list.ts:35-46 | sorting neither adds nor drops a package |
| PackageList.VersionSortStable | src/tools/package-list.ts:37-40 | packages with equal versions keep their listed order |
| FileParsers.LeadingName | src/utils/file-parsers.ts:146 | the name is the longest leading run without `=`, `<`, `>` or `!` |
| FileParsers.MatchNameSpec | src/utils/file-parsers.ts:146-149 | a match splits the requirement into a non-empty name and the rest |
| FileParsers.ExtractNameFromUrl | src/utils/file-parsers.ts:165-173 | an empty last path segment gives `unknown`; otherwise the name holds only letters, digits, `_` and `-` |
| FileParsers.UrlNameOfGitRepo | src/utils/file-parsers.ts:165-173 | `…/name.git` gives `name` |
| FileParsers.UrlNameExample | src/utils/file-parsers.ts:165-173 | `git+https://github.com/psf/requests.git` gives `requests` |
| FileParsers.TrailingSlashIsUnknown | src/utils/file-parsers.ts:166-170 | a URL ending in `/` gives `unknown` |
| FileParsers.BareSuffixGivesEmptyName | src/utils/file-parsers.ts:171-172 | a last segment of just `.git` gives the empty name, not `unknown` |
| FileParsers.ParseNameSpec | src/utils/file-parsers.ts:146-162 | a name-and-spec requirement has no URL, the given editable flag, and the trimmed name and version |
| FileParsers.ParseRequirementLine | src/utils/file-parsers.ts:128-163 | blank and comment lines give nothing; `editable` follows the `-e`/`--editable` prefix, which drops the text up to the first space; a URL requirement keeps that text as its URL, takes its name from the URL and has no version; any other text goes to the name/version split |
| FileParsers.RequirementText | src/utils/file-parsers.ts:135-136 | after `-e ` or `--editable ` the requirement is the text after the first space; otherwise the whole cleaned line |
| FileParsers.ParseRenderedRequirement | src/utils/file-parsers.ts:128-163 | a project name followed by a specifier parses back into that name and version |
| FileParsers.BareNameExample | tests/unit/file-parsers.test.ts:5-12 | `requests` gives name `requests`, no version, not editable |
| FileParsers.PinnedVersionExample | tests/unit/file-parsers.test.ts:14-21 | `requests==2.28.0` gives version `==2.28.0` |
| FileParsers.EditableExample | tests/unit/file-parsers.test.ts:23-30 | `-e ./local-package` gives the editable name `./local-package` |
| FileParsers.EmptyLineExample | tests/unit/file-parsers.test.ts:32-35 | the empty line gives nothing |
| FileParsers.CommentExample | tests/unit/file-parsers.test.ts:37-40 | a comment line gives nothing |
| FileParsers.OperatorFirstIsDropped | src/utils/file-parsers.ts:146-149 | `==1.0` gives nothing |
| FileParsers.ExtrasStayInName | src/utils/file-parsers.ts:146-162 | `requests[security]>=2.0` keeps the brackets in the name, since extras are never split off |
| FileParsers.ParseRequirementsTxt | src/utils/file-parsers.ts:12-35 | every parsed requirement without a URL has a non-empty name; a URL requirement may have an empty one |
| FileParsers.RequirementsTxtAppend | src/utils/file-parsers.ts:21-32 | the requirements of joined lines are the requirements of each part, in line order |
| FileParsers.RequirementsTxtLine | src/utils/file-parsers.ts:22-31 | one line gives the requirement parsed from its trimmed text |
| FileParsers.TxtLine | src/utils/file-parsers.ts:22-31 | a blank or `#` line is skipped, and a line that does not parse is dropped |
| FileParsers.PipfilePackages | src/utils/file-parsers.ts:100-118 | inside `[packages]` exactly the lines containing `=` are parsed, in order |
| FileParsers.PipfileOutside | src/utils/file-parsers.ts:100-118 | without a `[packages]` header nothing is parsed |
| FileParsers.PipfileHeaderCloses | src/utils/file-parsers.ts:108-111 | any other header closes the section |
| FileParsers.ParsePipfile | src/utils/file-parsers.ts:89-126 | a Pipfile with no `[packages]` line gives no requirements |
| FileParsers.PoetryDependencies | src/utils/file-parsers.ts:58-79 | inside `[tool.poetry.dependencies]` the lines with `=` that do not start with `python` are parsed |
| FileParsers.ProjectDependencies | src/utils/file-parsers.ts:52-79 | inside `[project]` only lines starting with `dependencies` are parsed |
| FileParsers.PyprojectOutside | src/utils/file-parsers.ts:49-80 | without either header nothing is parsed |
| FileParsers.PyprojectHeaderCloses | src/utils/file-parsers.ts:64-68 | any other header closes both sections |
| FileParsers.ParsePyprojectToml | src/utils/file-parsers.ts:37-87 | a `pyproject.toml` with neither a `[project]` nor a `[tool.poetry.dependencies]` line gives no requirements |
| FileParsers.ProjectDependenciesArrayIsOneRequirement | src/utils/file-parsers.ts:74-78 | a `dependencies = …` line is read as one requirement named `dependencies` |
| Outdated.DetermineUpgradeType | src/tools/outdated.ts:34-47 | major exactly when the first segments differ under `!==`, minor exactly when only the second segments differ, patch exactly when both agree |
| Outdated.UpgradeTypeOfNumeric | src/tools/outdated.ts:34-47 | on numeric versions: major when the majors differ, minor when only the minors do, patch otherwise |
| Outdated.PatchKeepsMajorMinor | src/tools/outdated.ts:34-47 | a patch upgrade keeps the first two segments |
| Outdated.MajorWhenFirstSegmentsDiffer | src/tools/outdated.ts:38-40 | different first segments always make a major upgrade |
| Outdated.NaNMajorIsMajor | src/tools/outdated.ts:38-40 | a non-numeric first segment is major even for the same version |
| Outdated.MissingMinorIsMinor | src/tools/outdated.ts:42 | `1` to `1.0` is minor although the two compare equal |
| Outdated.GenerateUpgradeCommand | src/tools/outdated.ts:49-56 | the fixed message exactly for the empty list; otherwise `pip install --upgrade ` and the names in order |
| Outdated.UpgradeCommandWords | src/tools/outdated.ts:49-56 | the names joined by spaces, which the command puts after `pip install --upgrade `, split at spaces back into the names in order when none holds a space |
| Outdated.Classified | src/tools/outdated.ts:16-21 | one classified entry per input entry, in order, with its name and versions |
| Outdated.CheckOutdated | src/tools/outdated.ts:16-25 | each entry keeps its name, current and latest version, in order, with the upgrade type of its two versions; the command is the fixed message exactly when the list is empty, and names every entry otherwise |
| Licenses.FirstLicense | src/tools/licenses.ts:64-75 | the license of some `License:` line, or `Unknown` when there is none |
| Licenses.FirstLicenseIsLeftmost | src/tools/licenses.ts:67-72 | the first `License:` line wins |
| Licenses.ExtractLicenseFromShow | src/tools/licenses.ts:64-75 | the license is the trimmed text after `License:` on the first line that starts with it, and `Unknown` when no line does |
| Licenses.FirstLicenseIsFirst | src/tools/licenses.ts:67-72 | the first license line decides, whatever follows it |
| Licenses.CategorizeLicense | src/tools/licenses.ts:77-97 | case-insensitive substring rules in priority order: permissive, copyleft, proprietary, public domain, else unknown |
| Licenses.CategoryIgnoresCase | src/tools/licenses.ts:78 | the category ignores case |
| Licenses.PermissiveKeywordWins | src/tools/licenses.ts:80-82 | any text containing `MIT` is permissive |
| Licenses.DualLicenseIsPermissive | src/tools/licenses.ts:80-86 | `MIT OR GPL` is permissive |
| Licenses.UnknownIsUnknown | src/tools/licenses.ts:77-97 | the fallback `Unknown` falls in the unknown category |
| Licenses.PackageLicense | src/tools/licenses.ts:38-58 | name and version kept; a failed lookup gives `Unknown` and the unknown category |
| Licenses.ExtractLicenseInfo | src/tools/licenses.ts:35-62 | one entry per package, in order |
| Licenses.LicenseInfoConsistent | src/tools/licenses.ts:35-62 | every entry's category is the category of its license |
| Licenses.FailureLikeMissingLicenseLine | src/tools/licenses.ts:50-57 | a failed lookup gives the same entry as output without a license line |
| Licenses.NamesIn | src/tools/licenses.ts:102-114 | the names of one category come from entries of that category |
| Licenses.NamesInAppend | src/tools/licenses.ts:102-114 | the names of a category follow package order: the names of a concatenation are the names of each part in turn |
| Licenses.NamesInEmpty | src/tools/licenses.ts:102-114 | no names exactly when no entry has the category |
| Licenses.WarningFor | src/tools/licenses.ts:103-105 | a warning exactly when the names are non-empty, with the exact count and the names |
| Licenses.GenerateLicenseWarnings | src/tools/licenses.ts:99-118 | one warning for each of copyleft, proprietary and unknown that has packages, in that order, each giving the count and the comma-separated names |
| Licenses.NoWarningsIff | src/tools/licenses.ts:99-118 | no warnings exactly when no package is copyleft, proprietary or unknown |
| Licenses.QuietCategoriesDoNotWarn | src/tools/licenses.ts:99-118 | permissive and public-domain packages never change the warnings |
| Licenses.CopyleftPackageReported | src/tools/licenses.ts:102-105 | a copyleft package always produces the copyleft warning |
| Licenses.CheckLicenses | src/tools/licenses.ts:5-24 | one entry per package, in order, each the license entry of that package's `pip show` result, with the warnings computed from them |
| Stdlib.LookupsDisagreeOnCase | src/tools/export.ts:92-109 | `JSON` is a standard-library name to the exporter, whose lookup lower-cases, but not to the case-sensitive lookup of the dependency tree |
| Stdlib.NamesRepeat | src/tools/dependency-tree.ts:161-178 | the list has 65 entries, and `logging` and `platform` each appear twice |
| Export.NonStdlib | src/tools/export.ts:50 | the packages filtered by "not a standard-library name, ignoring case", in input order with repeats kept |
| Export.SortedEntries | src/tools/export.ts:48-90 | the entries are sorted, one per kept package, duplicates kept |
| Export.ExportToRequirements | src/tools/export.ts:48-55 | the lines are the sorted `name==version` entries followed by an empty line |
| Export.RequirementLinesSplit | src/tools/export.ts:48-55 | splitting the text on newlines gives the sorted entries and a final empty piece |
| Export.ExportToPyproject | src/tools/export.ts:57-75 | the fixed header, the sorted quoted entries indented and comma-separated, then the fixed footer; with no entries, one empty line between header and footer |
| Export.PyprojectLinesSplit | src/tools/export.ts:57-75 | the lines of the text are the header, the indented entries with commas, and the footer |
| Export.ExportToConda | src/tools/export.ts:77-90 | the fixed header then one sorted `  - name=version` line per kept package; with no entries, an empty line after the header |
| Export.CondaEmptyLines | src/tools/export.ts:83-89 | the conda template with no entries splits into the header lines and two empty lines |
| Export.PyprojectEmptyLines | src/tools/export.ts:63-74 | the pyproject template with no entries splits into header, one empty line, footer |
| Export.EmptyTemplateLines | src/tools/export.ts:63-74 | a header and footer joined by one newline split back into the header lines, an empty line and the footer lines |
| Export.CondaLinesSplit | src/tools/export.ts:77-90 | the lines of the text are the header lines and then the entries |
| Export.ExportEnvironment | src/tools/export.ts:16-28 | the three formats each select their formatter, and any other format throws |
| Export.FilterIgnoresCase | src/tools/export.ts:108 | `JSON` is left out of an export |
| Export.DuplicatesKept | src/tools/export.ts:48-55 | a package listed twice gives two entries |
| VenvSummary.GetRequirementsStatus | src/tools/venv-summary.ts:65-84 | `All requirements satisfied` exactly when the missing, extra and mismatched counts sum to 0; otherwise the total, then the non-zero parts |
| VenvSummary.IssueParts | src/tools/venv-summary.ts:72-81 | one part per non-zero count, `<count> missing` first, then `<count> extra`, then `<count> mismatched` |
| VenvSummary.StatusStartsWithTotal | src/tools/venv-summary.ts:72-83 | the first word of a status with issues is the total, and reads back as it |
| VenvSummary.ExtrasOnlyDisagree | src/tools/venv-summary.ts:66-70 | with only extras the summary reports issues while the install command says everything is satisfied |
| Cache.New | src/utils/cache.ts:11-13 | a new cache is empty |
| Cache.EffectiveTtl | src/utils/cache.ts:19 | an absent or zero time to live falls back to the default |
| Cache.Set | src/utils/cache.ts:15-22 | the key's entry is replaced, stamped `now`, and every other entry is kept |
| Cache.Get | src/utils/cache.ts:24-38 | an absent key gives nothing; an expired entry gives nothing and is removed; a live one gives its data |
| Cache.Has | src/utils/cache.ts:40-42 | `has` is `get` returning something, with the same eviction |
| Cache.Delete | src/utils/cache.ts:44-46 | only the deleted key changes, and the default TTL is kept |
| Cache.Clear | src/utils/cache.ts:48-50 | the cache is empty afterwards |
| Cache.SetThenGet | src/utils/cache.ts:15-38 | a value reads back until its time to live has passed, the last millisecond included |
| Cache.SetThenExpire | src/utils/cache.ts:31-35 | past its time to live the value is gone and so is its entry |
| Cache.OtherKeysUntouched | src/utils/cache.ts:15-38 | setting one key does not change what another key holds |
| Cache.ExpiredGetShrinks | src/utils/cache.ts:32-35 | reading an expired entry makes the size drop by one |
| Cache.ExpiredStillCounted | src/utils/cache.ts:52-54 | the size counts entries until they are read, expired ones included |
| Cache.GetWithoutEvictionKeepsCache | src/utils/cache.ts:24-38 | reading a live entry or a missing key changes nothing |
| Cache.GenerateCacheKey | src/utils/cache.ts:66-68 | the key starts with the prefix and a colon |
| Cache.CacheKeyParts | src/utils/cache.ts:66-68 | splitting a key of colon-free parts on colons gives back the prefix and the arguments |
| Cache.CacheKeyInjective | src/utils/cache.ts:66-68 | keys of colon-free parts are equal only when the parts are |
| Poetry.AssignmentLine | src/managers/poetry.ts:94-105 | the trimmed key before the first `=` and the quote-stripped value; only `name`, `version` and `description` with a non-empty value count |
| Poetry.LastValue | src/managers/poetry.ts:96-104 | absent exactly when no field has the key; otherwise the value of the last field that has it |
| Poetry.LaterOverrides | src/managers/poetry.ts:96-104 | a later assignment overrides an earlier one |
| Poetry.LastValueAppend | src/managers/poetry.ts:96-104 | over two runs of fields, the later run decides whenever it assigns the key, and the earlier run otherwise |
| Poetry.ParsePyprojectToml | src/managers/poetry.ts:76-111 | each field is the last assignment to it in the section |
| Poetry.OutsideAssignsNothing | src/managers/poetry.ts:84-92 | without a `[tool.poetry]` header nothing is assigned |
| Poetry.SectionOpens | src/managers/poetry.ts:84-87 | the `[tool.poetry]` header opens the section |
| Poetry.HeaderCloses | src/managers/poetry.ts:89-92 | any other header closes it |
| Poetry.ValueStopsAtEquals | src/managers/poetry.ts:95 | a value containing `=` is cut at it |
| Poetry.KnownAssignment | src/managers/poetry.ts:94-105 | `key = value` assigns the value |
| Poetry.QuotedValue | src/managers/poetry.ts:97 | one leading and one trailing quote are stripped |
| Poetry.EmptyValueIgnored | src/managers/poetry.ts:96 | an empty value is ignored |
| Poetry.GetPoetryInfo | src/managers/poetry.ts:16-75 | no result without `pyproject.toml`; otherwise the file's name, version and description with defaults `unknown`, `0.0.0` and `""`, the environment path and Python version reported by `poetry env info` (`""` where absent or when it failed), the `poetry show` packages, and no dev dependencies |
| Poetry.NoSectionDefaults | src/managers/poetry.ts:61-66 | a file without the section gives all the defaults |
| Pipenv.PipfileName | src/managers/pipenv.ts:85-96 | the name of the first line that gives one, and none exactly when no line does |
| Pipenv.ParsePipfile | src/managers/pipenv.ts:81-99 | the file gives no name exactly when none of its lines gives one |
| Pipenv.HeaderGivesNoName | src/managers/pipenv.ts:88 | a header line gives no name |
| Pipenv.HeadersIgnored | src/managers/pipenv.ts:85-96 | headers are skipped; there is no section tracking |
| Pipenv.KeyStartingWithName | src/managers/pipenv.ts:88-91 | any key starting with `name`, such as `names`, sets the name to the quote-stripped value |
| Pipenv.EmptyQuotedNameStops | src/managers/pipenv.ts:89-93 | a quoted empty value stops the search and then falls back to `unknown` |
| Pipenv.EmptyValueGivesNoName | src/managers/pipenv.ts:90-94 | an empty value sets no name |
| Pipenv.EmptyValueDoesNotStop | src/managers/pipenv.ts:90-94 | an empty value does not stop the search |
| Pipenv.GetPipenvInfo | src/managers/pipenv.ts:14-79 | no result without a `Pipfile`; otherwise the name or `unknown`, the virtualenv path as the trimmed output of `pipenv --venv` and the Python version as the trimmed output of `pipenv --python` (`""` when a command failed), the `pipenv graph` packages, and no dev dependencies |
| Conda.NameField | src/managers/conda.ts:100-104 | a line counts exactly when its trimmed text starts with `name:`; a value is trimmed and non-empty |
| Conda.EnvironmentName | src/managers/conda.ts:97-107 | the first `name:` line decides: its value when it has one, no name when it has none, and no name without any `name:` line |
| Conda.ParseEnvironmentYaml | src/managers/conda.ts:93-109 | the first `name:` line of the content decides the name, which is non-empty and trimmed; there is none without a `name:` line |
| Conda.EmptyNameEndsLoop | src/managers/conda.ts:102-105 | an empty first `name:` line ends the search without a name |
| Conda.OtherLinesSkipped | src/managers/conda.ts:100 | lines not starting with `name:` are skipped |
| Conda.NameLineFound | src/managers/conda.ts:97-107 | `name: value` after lines without `name:` gives the value, whatever follows |
| Conda.NameOfLine | src/managers/conda.ts:101 | `name: value` gives the value |
| Conda.ColonCutsName | src/managers/conda.ts:101 | the value stops at the next colon |
| Conda.Find | src/managers/conda.ts:42 | the env list is searched for the exact path |
| Conda.IndexOf | src/managers/conda.ts:44 | the leftmost position of the path, or -1 |
| Conda.ListedEnvironment | src/managers/conda.ts:18-49 | the active prefix when it is non-empty and listed, else `base` |
| Conda.Packages | src/managers/conda.ts:57-61 | one package per entry, in order, with channel `defaults` when it has none |
| Conda.PythonVersion | src/managers/conda.ts:63-66 | the version of the first package named exactly `python`, else `""` |
| Conda.GetCondaInfo | src/managers/conda.ts:14-91 | the name read from `environment.yml` overrides the env-list name; an unreadable file still counts as existing; packages and Python version as above |
| Conda.UnreadableFileExists | src/managers/conda.ts:71-88 | an `environment.yml` that cannot be read changes only the existence flag, which is true |
| Conda.NameIsBaseOrPath | src/managers/conda.ts:42-46 | without `environment.yml` the name is `base` or the active prefix |
| Conda.NoInfoIsBase | src/managers/conda.ts:18 | without `conda info` the name is `base` |
| Conda.ListedPrefixNames | src/managers/conda.ts:42-46 | a listed active prefix becomes the name |
| Sorting.SortBy | src/tools/export.ts:52 | a sorted permutation |
| Sorting.SortByStable | src/tools/package-list.ts:37-40 | tied elements keep their input order |
| Sorting.SortedPermutationUnique | src/tools/export.ts:52 | under an antisymmetric order there is only one sorted permutation, so any sort agrees |
| Sequences.Dedup | src/tools/dependency-tree.ts:115 | the distinct elements, each element of the input once, in order of first occurrence, as the keys of a JavaScript `Map` |
| Strings.SplitJoin | src/utils/cache.ts:66-68 | splitting on the separator undoes joining parts that lack it |

## Left out

- Shell and filesystem access (`execSync`, `existsSync`, `readFileSync`), JSON parsing, finding the environment, and the MCP dispatch in `src/index.ts`. The parsed results of these calls are parameters.
- `src/tools/search.ts` (network access and HTML scraping) and `src/tools/security.ts` (external scanners).
- `formatBytes` and `calculateVenvSize` in `src/tools/venv-summary.ts`: floating point and shell.
- `Date.now()`: every cache operation that reads the clock takes `now` as an argument.
- `findRequirementsFiles`: the file names are a parameter of `Requirements.ParseAllRequirementsFiles`, and reading is a lookup function.
- The use of the cache by `listPackages`: it changes when `pip list` runs, not what the result is.
- `localeCompare`: `PackageList.SortPackages` takes the name order as a parameter that must be a total preorder.
- Versions.ToNumber: models `Number()` on ASCII decimal digits only. Signs, surrounding whitespace, the `0b`/`0o`/`0x` prefixes, exponents, `Infinity` and precision loss above 2^53 are left out; so `Outdated.DetermineUpgradeType` calls `Infinity` against `Infinity` a major upgrade where the source, which compares two equal numbers, calls it a patch.
- Strings.ToLower: lower-cases ASCII letters only, not the rest of Unicode.
- Sorting.SortBy: `Array.prototype.sort()` orders by UTF-16 code units, and the model orders by code points. The two differ only between characters above U+FFFF and characters in U+E000..U+FFFF.
- Cache.Has: a stored `null` would read as absent in the source; the model stores any value and does not single out `null`.
- Cache.GenerateCacheKey: the source also accepts numeric arguments, which it renders with `String()`; the model takes the arguments already rendered.
- `keys()` of the cache: it lists keys in insertion order, which the model's map does not keep.
- `extras` of a requirement: the parser never sets it, so the model's requirement has no such field.
- Conda.GetCondaInfo: the thrown-and-caught parse errors of `conda info`, `conda env list` and `conda list` are modelled as absent inputs.
- Requirements.ParseRequirementsFile: a `requirements.txt` that exists but cannot be read makes the source throw; the model's file content is absent only when the file does not exist, so it does not promise that case.

=== FILE: cache.dfy ===
/**
 * The time-to-live cache `Cache<T>` and `generateCacheKey`. The cache is a
 * state machine over a map from keys to entries; every operation that reads
 * the clock takes the current time `now` (milliseconds) as an argument, and
 * every operation that changes the cache returns the new cache.
 */
module Cache {
  import opened Wrappers
  import opened Strings

  /** `CacheEntry<T>`. */
  datatype Entry<T> = Entry(data: T, timestamp: int, ttl: int)

  /** A `Cache<T>`: its entries and the time to live used when `set` gets none. */
  datatype Cache<T> = Cache(entries: map<string, Entry<T>>, defaultTtl: int)

  /** The constructor's default time to live, five minutes. */
  const DefaultTtl := 300000

  /** `new Cache(defaultTtl)`: empty. */
  function New<T>(defaultTtl: int): (c: Cache<T>)
    ensures Size(c) == 0 && c.defaultTtl == defaultTtl
  {
    Cache(map[], defaultTtl)
  }

  /** The four caches the server keeps, by their time to live. */
  const PackageListTtl := 300000
  const VenvInfoTtl := 600000
  const OutdatedTtl := 600000
  const RequirementsTtl := 300000

  /** `ttl || this.defaultTtl`: an absent or zero time to live falls back to the default. */
  function EffectiveTtl<T>(c: Cache<T>, ttl: Option<int>): (r: int)
    ensures ttl.None? || ttl == Some(0) ==> r == c.defaultTtl
    ensures ttl.Some? && ttl.value != 0 ==> r == ttl.value
  {
    match ttl
    case Some(t) => if t != 0 then t else c.defaultTtl
    case None => c.defaultTtl
  }

  /** `set(key, data, ttl)` at time `now`: the key's entry is replaced, every other entry kept. */
  function Set<T>(c: Cache<T>, key: string, data: T, ttl: Option<int>, now: int): (r: Cache<T>)
    ensures key in r.entries && r.entries[key] == Entry(data, now, EffectiveTtl(c, ttl))
    ensures r.entries.Keys == c.entries.Keys + {key}
    ensures forall k :: k in c.entries && k != key ==> r.entries[k] == c.entries[k]
    ensures r.defaultTtl == c.defaultTtl
  {
    Cache(c.entries[key := Entry(data, now, EffectiveTtl(c, ttl))], c.defaultTtl)
  }

  /** An entry read at `now` has outlived its time to live. */
  predicate Expired<T>(e: Entry<T>, now: int) {
    now - e.timestamp > e.ttl
  }

  /**
   * `get(key)` at time `now`: the cache afterwards and the result. An absent
   * key gives nothing; an expired entry gives nothing and is removed; a live
   * entry gives its data.
   */
  function Get<T>(c: Cache<T>, key: string, now: int): (r: (Cache<T>, Option<T>))
    ensures key !in c.entries ==> r == (c, None)
    ensures key in c.entries && !Expired(c.entries[key], now) ==> r == (c, Some(c.entries[key].data))
    ensures key in c.entries && Expired(c.entries[key], now) ==>
              r.1.None? && r.0.entries == c.entries - {key} && r.0.defaultTtl == c.defaultTtl
  {
    if key !in c.entries then (c, None)
    else
      var entry := c.entries[key];
      if Expired(entry, now) then (Cache(c.entries - {key}, c.defaultTtl), None)
      else (c, Some(entry.data))
  }

  /** `has(key)`: `get(key) !== null`, with `get`'s eviction. */
  function Has<T>(c: Cache<T>, key: string, now: int): (r: (Cache<T>, bool))
    ensures r.0 == Get(c, key, now).0
    ensures r.1 <==> Get(c, key, now).1.Some?
  {
    var (next, value) := Get(c, key, now);
    (next, value.Some?)
  }

  /** `delete(key)`. */
  function Delete<T>(c: Cache<T>, key: string): (r: Cache<T>)
    ensures r.defaultTtl == c.defaultTtl
    ensures key !in r.entries
    ensures forall k :: k != key ==> (k in r.entries <==> k in c.entries)
    ensures forall k :: k in r.entries ==> r.entries[k] == c.entries[k]
  {
    Cache(c.entries - {key}, c.defaultTtl)
  }

  /** `clear()`. */
  function Clear<T>(c: Cache<T>): (r: Cache<T>)
    ensures Size(r) == 0 && r.defaultTtl == c.defaultTtl
  {
    Cache(map[], c.defaultTtl)
  }

  /** `size()`: the stored entries, expired ones not yet evicted included. */
  function Size<T>(c: Cache<T>): nat {
    |c.entries.Keys|
  }

  /** A stored value can be read back until its time to live has passed, the last millisecond included. */
  lemma SetThenGet<T>(c: Cache<T>, key: string, data: T, ttl: Option<int>, now: int, later: int)
    requires later - now <= EffectiveTtl(c, ttl)
    ensures Get(Set(c, key, data, ttl, now), key, later).1 == Some(data)
  {
  }

  /** Past its time to live the value is gone, and so is its entry. */
  lemma SetThenExpire<T>(c: Cache<T>, key: string, data: T, ttl: Option<int>, now: int, later: int)
    requires later - now > EffectiveTtl(c, ttl)
    ensures var (after, value) := Get(Set(c, key, data, ttl, now), key, later);
            value.None? && key !in after.entries
  {
  }

  /** Setting or getting one key does not change what another key holds. */
  lemma OtherKeysUntouched<T>(c: Cache<T>, key: string, other: string, data: T, ttl: Option<int>, now: int)
    requires other != key
    ensures Get(Set(c, key, data, ttl, now), other, now).1 == Get(c, other, now).1
  {
  }

  /** Eviction on read makes the size drop by exactly one. */
  lemma ExpiredGetShrinks<T>(c: Cache<T>, key: string, now: int)
    requires key in c.entries && Expired(c.entries[key], now)
    ensures Size(Get(c, key, now).0) == Size(c) - 1
  {
    assert Get(c, key, now).0.entries.Keys == c.entries.Keys - {key};
  }

  /** An expired entry still counts towards the size until something reads it. */
  lemma ExpiredStillCounted<T>(c: Cache<T>, key: string, data: T, ttl: Option<int>, now: int)
    requires key !in c.entries
    ensures Size(Set(c, key, data, ttl, now)) == Size(c) + 1
  {
    assert Set(c, key, data, ttl, now).entries.Keys == c.entries.Keys + {key};
  }

  /** Reading a live entry or a missing key changes nothing. */
  lemma GetWithoutEvictionKeepsCache<T>(c: Cache<T>, key: string, now: int)
    requires key !in c.entries || !Expired(c.entries[key], now)
    ensures Get(c, key, now).0 == c
  {
  }

  // ---------------------------------------------------------------------------
  // `generateCacheKey`

  /** `generateCacheKey(prefix, ...args)`: the prefix, a colon, then the arguments joined by colons. */
  function GenerateCacheKey(prefix: string, args: seq<string>): (r: string)
    ensures args == [] ==> r == prefix + ":"
    ensures StartsWith(r, prefix + ":")
  {
    var r := prefix + ":" + Join(args, ":");
    assert r[..|prefix| + 1] == prefix + ":";
    r
  }

  /** When no part holds a colon, a key splits back into its prefix and arguments, so distinct inputs get distinct keys. */
  lemma CacheKeyParts(prefix: string, args: seq<string>)
    requires |args| >= 1
    requires ':' !in prefix && forall i :: 0 <= i < |args| ==> ':' !in args[i]
    ensures Split(GenerateCacheKey(prefix, args), ':') == [prefix] + args
  {
    assert GenerateCacheKey(prefix, args) == prefix + [':'] + Join(args, [':']);
    SplitAppend(prefix, Join(args, [':']), ':');
    SplitNoSeparator(prefix, ':');
    SplitJoin(args, ':');
  }

  /** Keys built from colon-free parts are equal only when the parts are. */
  lemma CacheKeyInjective(prefix: string, args: seq<string>, prefix': string, args': seq<string>)
    requires |args| >= 1 && |args'| >= 1
    requires ':' !in prefix && forall i :: 0 <= i < |args| ==> ':' !in args[i]
    requires ':' !in prefix' && forall i :: 0 <= i < |args'| ==> ':' !in args'[i]
    requires GenerateCacheKey(prefix, args) == GenerateCacheKey(prefix', args')
    ensures prefix == prefix' && args == args'
  {
    CacheKeyParts(prefix, args);
    CacheKeyParts(prefix', args');
    assert ([prefix] + args)[0] == prefix && ([prefix] + args)[1..] == args;
    assert ([prefix'] + args')[0] == prefix' && ([prefix'] + args')[1..] == args';
  }
}

=== FILE: conda.dfy ===
/**
 * The Conda manager: `parseEnvironmentYaml` (the environment name of an
 * `environment.yml`) and how `getCondaInfo` combines the outputs of the
 * `conda` commands with it. Each command's parsed JSON arrives as an
 * argument, absent when the command failed.
 */
module Conda {
  import opened Wrappers
  import opened Strings
  import Sequences
  import opened LineScan

  /** The fields of `conda info --json` the manager reads. */
  datatype CondaInfoJson = CondaInfoJson(condaVersion: Option<string>, activePrefix: Option<string>)

  /** An entry of `conda list --json`. */
  datatype ListEntry = ListEntry(name: string, version: string, channel: Option<string>)

  /** A package of `CondaInfo`. */
  datatype CondaPackage = CondaPackage(name: string, version: string, channel: string)

  /** `CondaInfo`. */
  datatype CondaInfo = CondaInfo(
    environmentName: string, pythonVersion: string, condaVersion: string,
    packages: seq<CondaPackage>, environmentFileExists: bool, environmentPath: string)

  const DefaultEnvironment := "base"
  const DefaultChannel := "defaults"

  // ---------------------------------------------------------------------------
  // `parseEnvironmentYaml`

  /**
   * What one line of `parseEnvironmentYaml` reads. A trimmed line starting
   * with "name:" ends the loop: it gives the trimmed piece between the first
   * and the second colon when that is not empty, and no name otherwise.
   * Other lines read nothing.
   */
  function NameField(line: string): (r: Option<Option<string>>)
    ensures r.Some? <==> StartsWith(Trim(line), "name:")
    ensures r.Some? && r.value.Some? ==> r.value.value != "" && Trimmed(r.value.value)
  {
    var t := Trim(line);
    if StartsWith(t, "name:") then
      assert t[4] == ':';
      var value := KeyValue(t, ':').1;
      Some(if value != "" then Some(value) else None)
    else None
  }

  /** The loop over the lines: the first `name:` line decides, whether or not it has a value. */
  function EnvironmentName(lines: seq<string>): (r: Option<string>)
    ensures r.Some? ==> exists i :: 0 <= i < |lines| && NameField(lines[i]) == Some(r)
                                   && forall j :: 0 <= j < i ==> NameField(lines[j]).None?
    ensures (forall i :: 0 <= i < |lines| ==> NameField(lines[i]).None?) ==> r.None?
    ensures forall i :: FirstSomeAt(NameField, lines, i) ==> r == NameField(lines[i]).value
  {
    FirstSomeFound(NameField, lines);
    match FirstSome(NameField, lines)
    case Some(name) => name
    case None => None
  }

  /** `parseEnvironmentYaml(content)`. */
  function ParseEnvironmentYaml(content: string): (r: Option<string>)
    ensures r.Some? ==> r.value != "" && Trimmed(r.value)
    ensures (forall i :: 0 <= i < |Split(content, '\n')| ==> !StartsWith(Trim(Split(content, '\n')[i]), "name:")) ==> r.None?
    ensures forall i :: FirstSomeAt(NameField, Split(content, '\n'), i) ==> r == NameField(Split(content, '\n')[i]).value
  {
    EnvironmentName(Split(content, '\n'))
  }

  /** A `name:` line without a value still ends the loop: a later `name:` line is never read. */
  lemma EmptyNameEndsLoop(line: string, rest: seq<string>)
    requires NameField(line) == Some(None)
    ensures EnvironmentName([line] + rest) == None
  {
    FirstSomeStops(NameField, line, rest);
  }

  /** Lines that are not `name:` lines are skipped. */
  lemma OtherLinesSkipped(skipped: seq<string>, rest: seq<string>)
    requires forall i :: 0 <= i < |skipped| ==> !StartsWith(Trim(skipped[i]), "name:")
    ensures EnvironmentName(skipped + rest) == EnvironmentName(rest)
  {
    FirstSomeSkips(NameField, skipped, rest);
  }

  /** The first `name:` line with a value gives that value, whatever precedes it without a `name:` line and whatever follows. */
  lemma NameLineFound(skipped: seq<string>, value: string, rest: seq<string>)
    requires forall i :: 0 <= i < |skipped| ==> !StartsWith(Trim(skipped[i]), "name:")
    requires value != "" && Trimmed(value) && ':' !in value
    ensures EnvironmentName(skipped + ["name: " + value] + rest) == Some(value)
  {
    var line := "name: " + value;
    NameOfLine(value);
    Sequences.AppendAssoc(skipped, [line], rest);
    OtherLinesSkipped(skipped, [line] + rest);
    FirstSomeStops(NameField, line, rest);
    assert FirstSome(NameField, [line] + rest) == Some(Some(value));
  }

  /** A line `name:...` that ends in a non-space is its own trimmed form and a `name:` line. */
  lemma NamePrefixedLine(rest: string)
    requires rest == "" || !IsSpace(rest[|rest| - 1])
    ensures Trim("name:" + rest) == "name:" + rest
    ensures StartsWith(Trim("name:" + rest), "name:")
  {
    var line := "name:" + rest;
    assert line[0] == 'n';
    assert line[|line| - 1] == if rest == "" then ':' else rest[|rest| - 1];
    TrimOfTrimmed(line);
    assert line[..5] == "name:";
  }

  /** The value of a `name:` line is what the key-value split of its own text gives. */
  lemma NamePrefixedValue(rest: string)
    requires rest == "" || !IsSpace(rest[|rest| - 1])
    requires KeyValue("name:" + rest, ':').1 != ""
    ensures NameField("name:" + rest) == Some(Some(KeyValue("name:" + rest, ':').1))
  {
    NamePrefixedLine(rest);
  }

  /** `name: value` gives the value when it holds no colon. */
  lemma NameOfLine(value: string)
    requires value != "" && Trimmed(value) && ':' !in value
    ensures NameField("name: " + value) == Some(Some(value))
  {
    var rest := " " + value;
    NameValueAfterSpace(value);
    NameSpacePrefix(value);
    NamePrefixedValue(rest);
  }

  lemma NameSpacePrefix(value: string)
    ensures "name: " + value == "name:" + (" " + value)
  {
    Sequences.AppendAssoc("name:", " ", value);
  }

  lemma NameValueAfterSpace(value: string)
    requires value != "" && Trimmed(value) && ':' !in value
    ensures ':' in "name:" + (" " + value) && KeyValue("name:" + (" " + value), ':').1 == value
  {
    var rest := " " + value;
    assert "name:" + rest == "name" + [':'] + rest;
    KeyValueOfSingle("name", ':', rest);
    TrimSpaceBefore(value);
  }

  /** A value holding a colon is cut at it: `name: a:b` names the environment a. */
  lemma ColonCutsName(a: string, b: string)
    requires a != "" && Trimmed(a) && ':' !in a && Trimmed(b)
    ensures NameField("name: " + a + ":" + b) == Some(Some(a))
  {
    var rest := " " + a + ":" + b;
    assert "name: " + a + ":" + b == "name:" + rest;
    ColonCutsValue(a, b);
    assert rest[|rest| - 1] == if b == "" then ':' else b[|b| - 1];
    NamePrefixedValue(rest);
  }

  lemma ColonCutsValue(a: string, b: string)
    requires Trimmed(a) && ':' !in a
    ensures KeyValue("name:" + (" " + a + ":" + b), ':').1 == a
  {
    assert "name:" + (" " + a + ":" + b) == "name" + [':'] + (" " + a) + [':'] + b;
    KeyValueDropsRest("name", ':', " " + a, b);
    TrimSpaceBefore(a);
  }

  // ---------------------------------------------------------------------------
  // `getCondaInfo`

  /** `xs.find(x => x === v)`: the first element equal to `v`. */
  function Find(xs: seq<string>, v: string): (r: Option<string>)
    ensures r.Some? <==> v in xs
    ensures r.Some? ==> r.value == v
  {
    if |xs| == 0 then None
    else if xs[0] == v then Some(xs[0])
    else Find(xs[1..], v)
  }

  /** `xs.indexOf(v)`: the first position holding `v`, or -1. */
  function IndexOf(xs: seq<string>, v: string): (r: int)
    ensures -1 <= r < |xs|
    ensures r == -1 <==> v !in xs
    ensures r >= 0 ==> xs[r] == v && forall j :: 0 <= j < r ==> xs[j] != v
  {
    if |xs| == 0 then -1
    else if xs[0] == v then 0
    else
      var r := IndexOf(xs[1..], v);
      if r == -1 then -1 else r + 1
  }

  /**
   * The environment name `getCondaInfo` derives from the environment list:
   * the active prefix itself, a full path, when it is not empty and listed,
   * and "base" otherwise.
   */
  function ListedEnvironment(environmentPath: string, envs: Option<seq<string>>): (r: string)
    ensures environmentPath != "" && envs.Some? && environmentPath in envs.value ==> r == environmentPath
    ensures !(environmentPath != "" && envs.Some? && environmentPath in envs.value) ==> r == DefaultEnvironment
  {
    match envs
    case None => DefaultEnvironment
    case Some(list) =>
      match Find(list, environmentPath)
      case Some(active) =>
        if active != "" then
          var index := IndexOf(list, active);
          OrElse(Some(list[index]), DefaultEnvironment)
        else DefaultEnvironment
      case None => DefaultEnvironment
  }

  /** The `condaPackages.map(...)` step: a missing or empty channel becomes "defaults". */
  function Packages(entries: seq<ListEntry>): (r: seq<CondaPackage>)
    ensures |r| == |entries|
    ensures forall i :: 0 <= i < |entries| ==>
              && r[i].name == entries[i].name && r[i].version == entries[i].version
              && r[i].channel == OrElse(entries[i].channel, DefaultChannel)
              && r[i].channel != ""
  {
    if |entries| == 0 then []
    else
      var e := entries[0];
      [CondaPackage(e.name, e.version, OrElse(e.channel, DefaultChannel))] + Packages(entries[1..])
  }

  /** The version of the first package named exactly "python", or "" when there is none. */
  function PythonVersion(packages: seq<CondaPackage>): (r: string)
    ensures (forall i :: 0 <= i < |packages| ==> packages[i].name != "python") ==> r == ""
    ensures forall i :: 0 <= i < |packages| && packages[i].name == "python" && (forall j :: 0 <= j < i ==> packages[j].name != "python")
              ==> r == packages[i].version
  {
    if |packages| == 0 then ""
    else if packages[0].name == "python" then packages[0].version
    else
      var r := PythonVersion(packages[1..]);
      FirstPythonInTail(packages, r);
      r
  }

  /** The first "python" of a list that does not start with one is the first "python" of its tail. */
  lemma FirstPythonInTail(packages: seq<CondaPackage>, r: string)
    requires |packages| > 0 && packages[0].name != "python"
    requires forall i :: 0 <= i < |packages[1..]| && packages[1..][i].name == "python"
                         && (forall j :: 0 <= j < i ==> packages[1..][j].name != "python")
                         ==> r == packages[1..][i].version
    ensures forall i :: 0 <= i < |packages| && packages[i].name == "python"
                        && (forall j :: 0 <= j < i ==> packages[j].name != "python")
                        ==> r == packages[i].version
  {
    forall i | 0 <= i < |packages| && packages[i].name == "python"
               && (forall j :: 0 <= j < i ==> packages[j].name != "python")
      ensures r == packages[i].version
    {
      assert i > 0;
      assert packages[1..][i - 1] == packages[i];
      assert forall j :: 0 <= j < i - 1 ==> packages[1..][j] == packages[j + 1];
    }
  }

  /** `environment.yml` as `getCondaInfo` finds it: missing, present but not readable, or read. */
  datatype EnvironmentFile = Absent | Unreadable | Readable(content: string)

  /**
   * `getCondaInfo`. `info`, `envs` and `listing` are the parsed outputs of
   * `conda info`, `conda env list` and `conda list`, absent when the command
   * failed. A name read from `environment.yml` overrides the one derived from
   * the environment list; a file that exists but cannot be read still counts
   * as existing.
   */
  function GetCondaInfo(info: Option<CondaInfoJson>, envs: Option<seq<string>>, listing: Option<seq<ListEntry>>,
                        environmentFile: EnvironmentFile): (r: CondaInfo)
    ensures r.environmentPath == (match info case Some(j) => OrElse(j.activePrefix, "") case None => "")
    ensures r.condaVersion == (match info case Some(j) => OrElse(j.condaVersion, "") case None => "")
    ensures environmentFile.Readable? && ParseEnvironmentYaml(environmentFile.content).Some? ==>
              r.environmentName == ParseEnvironmentYaml(environmentFile.content).value
    ensures !environmentFile.Readable? || ParseEnvironmentYaml(environmentFile.content).None? ==>
              r.environmentName == ListedEnvironment(r.environmentPath, envs)
    ensures r.packages == Packages(listing.GetOr([]))
    ensures r.pythonVersion == PythonVersion(r.packages)
    ensures r.environmentFileExists <==> !environmentFile.Absent?
  {
    var (condaVersion, environmentPath) := match info
      case Some(j) => (OrElse(j.condaVersion, ""), OrElse(j.activePrefix, ""))
      case None => ("", "");
    var listed := ListedEnvironment(environmentPath, envs);
    var packages := Packages(listing.GetOr([]));
    var fileName := match environmentFile case Readable(content) => ParseEnvironmentYaml(content) case _ => None;
    var name := match fileName case Some(n) => n case None => listed;
    CondaInfo(name, PythonVersion(packages), condaVersion, packages, !environmentFile.Absent?, environmentPath)
  }

  /** Without an `environment.yml` name the environment is called "base" or by its full path, never by a short name. */
  lemma NameIsBaseOrPath(info: Option<CondaInfoJson>, envs: Option<seq<string>>, listing: Option<seq<ListEntry>>)
    ensures var r := GetCondaInfo(info, envs, listing, Absent);
            r.environmentName == DefaultEnvironment || r.environmentName == r.environmentPath
  {
  }

  /** An unreadable `environment.yml` is reported as existing, and the name comes from the environment list. */
  lemma UnreadableFileExists(info: Option<CondaInfoJson>, envs: Option<seq<string>>, listing: Option<seq<ListEntry>>)
    ensures var r := GetCondaInfo(info, envs, listing, Unreadable);
            r.environmentFileExists && r == GetCondaInfo(info, envs, listing, Absent).(environmentFileExists := true)
  {
  }

  /** When `conda info` fails nothing is active, so the environment list cannot name it. */
  lemma NoInfoIsBase(envs: Option<seq<string>>, listing: Option<seq<ListEntry>>)
    ensures GetCondaInfo(None, envs, listing, Absent).environmentName == DefaultEnvironment
  {
  }

  /** A listed active prefix names the environment. */
  lemma ListedPrefixNames(prefix: string, version: Option<string>, envs: seq<string>, listing: Option<seq<ListEntry>>)
    requires prefix != "" && prefix in envs
    ensures GetCondaInfo(Some(CondaInfoJson(version, Some(prefix))), Some(envs), listing, Absent).environmentName == prefix
  {
  }
}

=== FILE: cycles.dfy ===
/**
 * `findCircularDependencies` and `findCycle`: a depth-first search over the
 * dependency map that shares one `visited` set and one recursion stack across
 * all start nodes. When a cycle is found the search returns early and skips
 * the `delete` that would pop the stack, so entries of abandoned searches stay
 * on the stack; the model keeps that behaviour.
 */
module Cycles {
  import opened Sequences
  import opened DependencyGraph

  /** The two sets the search threads through every call. */
  datatype Search = Search(visited: set<string>, stack: set<string>)

  /** Every name the search can reach: the keys and every listed dependency. */
  function Universe(m: DepMap): (u: set<string>)
    ensures forall k :: k in m.deps ==> k in u
    ensures forall k, d :: k in m.deps && d in m.deps[k] ==> d in u
  {
    m.deps.Keys + Dependents(m)
  }

  /** Dependencies of a name in the universe are in the universe. */
  lemma GetInUniverse(m: DepMap, node: string)
    ensures forall d :: d in Get(m, node) ==> d in Universe(m)
  {
  }

  ghost predicate Wf(m: DepMap, s: Search) {
    s.stack <= s.visited <= Universe(m)
  }

  // ---------------------------------------------------------------------------
  // Paths and cycles

  ghost predicate IsPath(m: DepMap, p: seq<string>) {
    |p| >= 1 && forall i :: 0 <= i < |p| - 1 ==> p[i + 1] in Get(m, p[i])
  }

  ghost predicate IsCycle(m: DepMap, p: seq<string>) {
    IsPath(m, p) && |p| >= 2 && p[0] == p[|p| - 1]
  }

  ghost predicate HasCycle(m: DepMap) {
    exists p :: IsCycle(m, p)
  }

  ghost predicate Reaches(m: DepMap, x: string, y: string) {
    exists p :: IsPath(m, p) && p[0] == x && p[|p| - 1] == y
  }

  ghost predicate Within(p: seq<string>, f: set<string>) {
    forall i :: 0 <= i < |p| ==> p[i] in f
  }

  /** No cycle runs entirely inside `f`. */
  ghost predicate AcyclicIn(m: DepMap, f: set<string>) {
    forall p :: IsCycle(m, p) ==> !Within(p, f)
  }

  /** Every dependency of a member of `f` is in `f`. */
  ghost predicate Closed(m: DepMap, f: set<string>) {
    forall x, d :: x in f && d in Get(m, x) ==> d in f
  }

  /** The names the search has finished with: visited and no longer on the stack. */
  function Finished(s: Search): set<string> {
    s.visited - s.stack
  }

  /** What the search knows when no cycle has been reported: its finished part is closed and acyclic. */
  ghost predicate Sound(m: DepMap, s: Search) {
    Closed(m, Finished(s)) && AcyclicIn(m, Finished(s))
  }

  /** Everything on the stack reaches `node`, unless a cycle is already known to exist. */
  ghost predicate StackReaches(m: DepMap, s: Search, node: string) {
    HasCycle(m) || forall x :: x in s.stack ==> Reaches(m, x, node)
  }

  lemma ReachesSelf(m: DepMap, x: string)
    ensures Reaches(m, x, x)
  {
    assert IsPath(m, [x]);
  }

  lemma ReachesStep(m: DepMap, x: string, y: string, z: string)
    requires Reaches(m, x, y) && z in Get(m, y)
    ensures Reaches(m, x, z)
  {
    var p :| IsPath(m, p) && p[0] == x && p[|p| - 1] == y;
    assert IsPath(m, p + [z]);
    assert (p + [z])[0] == x;
  }

  /** A path back to `x` from one of `x`'s dependencies closes a cycle. */
  lemma CycleFromBackEdge(m: DepMap, x: string, node: string)
    requires Reaches(m, x, node) && x in Get(m, node)
    ensures HasCycle(m)
  {
    var p :| IsPath(m, p) && p[0] == x && p[|p| - 1] == node;
    assert IsCycle(m, p + [x]);
  }

  /** A path that starts inside a closed set stays inside it. */
  lemma {:induction false} PathStaysInClosed(m: DepMap, f: set<string>, p: seq<string>)
    requires Closed(m, f) && IsPath(m, p) && p[0] in f
    ensures Within(p, f)
  {
    if |p| > 1 {
      assert p[1] in Get(m, p[0]);
      assert IsPath(m, p[1..]);
      PathStaysInClosed(m, f, p[1..]);
      assert forall i :: 1 <= i < |p| ==> p[i] == p[1..][i - 1];
    }
  }

  /**
   * Finishing a name whose dependencies are all finished keeps the finished
   * part closed and acyclic.
   */
  lemma FinishKeepsSound(m: DepMap, f: set<string>, node: string)
    requires Closed(m, f) && AcyclicIn(m, f)
    requires node !in f
    requires forall d :: d in Get(m, node) ==> d in f
    ensures Closed(m, f + {node}) && AcyclicIn(m, f + {node})
  {
    var g := f + {node};
    forall p | IsCycle(m, p) ensures !Within(p, g) {
      if Within(p, g) {
        if p[0] in f {
          PathStaysInClosed(m, f, p);
        } else {
          assert p[1] in Get(m, p[0]);
          assert IsPath(m, p[1..]);
          PathStaysInClosed(m, f, p[1..]);
        }
      }
    }
  }

  /** When `node` reaches `dep`, everything that reaches `node` reaches `dep`. */
  lemma StackReachesStep(m: DepMap, s: Search, node: string, dep: string)
    requires dep in Get(m, node)
    ensures StackReaches(m, s, node) ==> StackReaches(m, s, dep)
  {
    if StackReaches(m, s, node) && !HasCycle(m) {
      forall x | x in s.stack ensures Reaches(m, x, dep) {
        ReachesStep(m, x, node, dep);
      }
    }
  }

  /** A dependency found on a stack whose every entry reaches `node` closes a cycle. */
  lemma BackEdgeOnStack(m: DepMap, s: Search, node: string, dep: string)
    requires dep in Get(m, node) && dep in s.stack
    ensures StackReaches(m, s, node) ==> HasCycle(m)
  {
    if StackReaches(m, s, node) && !HasCycle(m) {
      CycleFromBackEdge(m, dep, node);
    }
  }

  /** Popping `node` once all its dependencies are finished keeps the search sound. */
  lemma PopKeepsSound(m: DepMap, s: Search, node: string)
    requires node in s.stack && s.stack <= s.visited
    ensures Sound(m, s) && DoneBefore(m, node, |Get(m, node)|, s)
      ==> Sound(m, Search(s.visited, s.stack - {node})) && node in Finished(Search(s.visited, s.stack - {node}))
  {
    var r := Search(s.visited, s.stack - {node});
    if Sound(m, s) && DoneBefore(m, node, |Get(m, node)|, s) {
      assert Finished(r) == Finished(s) + {node};
      FinishKeepsSound(m, Finished(s), node);
    }
  }

  /** The first `i` dependencies of `node` are finished. */
  ghost predicate DoneBefore(m: DepMap, node: string, i: nat, s: Search)
    requires i <= |Get(m, node)|
  {
    forall j :: 0 <= j < i ==> Get(m, node)[j] in Finished(s)
  }

  /** Finishing the `i`-th dependency, with nothing popped, extends `DoneBefore` by one. */
  lemma DoneStep(m: DepMap, node: string, i: nat, s: Search, s2: Search)
    requires i < |Get(m, node)|
    requires s.visited <= s2.visited && s2.stack == s.stack
    ensures DoneBefore(m, node, i, s) && Get(m, node)[i] in Finished(s2) ==> DoneBefore(m, node, i + 1, s2)
  {
  }

  lemma CardShrinks(u: set<string>, v: set<string>, w: set<string>, n: string)
    requires v <= w && n in w && n !in v && n in u
    ensures |u - w| < |u - v|
  {
    var a, b := u - w, (u - v) - (u - w);
    assert u - v == a + b;
    assert a * b == {};
    assert n in b;
  }

  // ---------------------------------------------------------------------------
  // The search

  /**
   * `findCycle(node)`: marks `node` visited and pushes it, then walks its
   * dependencies. The result is empty or one pair `[u, v]` where `v` is a
   * dependency of `u` found on the recursion stack.
   */
  function FindCycle(m: DepMap, node: string, s: Search): (r: (seq<string>, Search))
    requires Wf(m, s) && node in Universe(m) && node !in s.visited
    ensures Wf(m, r.1)
    ensures s.visited + {node} <= r.1.visited
    ensures |r.0| == 0 || |r.0| == 2
    ensures |r.0| == 0 ==> r.1.stack == s.stack
    ensures |r.0| == 2 ==> r.0[1] in Get(m, r.0[0]) && r.0[0] in r.1.stack && r.0[1] in r.1.stack
    ensures StackReaches(m, s, node) && |r.0| == 2 ==> HasCycle(m)
    ensures |r.0| == 0 && Sound(m, s) ==> Sound(m, r.1) && node in Finished(r.1)
    decreases |Universe(m) - s.visited|, 0, 0
  {
    var s1 := Search(s.visited + {node}, s.stack + {node});
    CardShrinks(Universe(m), s.visited, s1.visited, node);
    assert Finished(s1) == Finished(s);
    ReachesSelf(m, node);
    Loop(m, node, 0, s1)
  }

  /**
   * The `for (const dep of dependencies)` loop of `findCycle(node)` from the
   * `i`-th dependency on. A dependency not yet visited is searched; one that is
   * visited and on the stack is reported with `node`; after the last one
   * `node` is popped.
   */
  function Loop(m: DepMap, node: string, i: nat, s: Search): (r: (seq<string>, Search))
    requires Wf(m, s) && node in s.stack && i <= |Get(m, node)|
    ensures Wf(m, r.1)
    ensures s.visited <= r.1.visited
    ensures |r.0| == 0 || |r.0| == 2
    ensures |r.0| == 0 ==> r.1.stack == s.stack - {node}
    ensures |r.0| == 2 ==> r.0[1] in Get(m, r.0[0]) && r.0[0] in r.1.stack && r.0[1] in r.1.stack
    ensures StackReaches(m, s, node) && |r.0| == 2 ==> HasCycle(m)
    ensures |r.0| == 0 && Sound(m, s) && DoneBefore(m, node, i, s) ==> Sound(m, r.1) && node in Finished(r.1)
    decreases |Universe(m) - s.visited|, 1, |Get(m, node)| - i
  {
    var deps := Get(m, node);
    if i == |deps| then
      PopKeepsSound(m, s, node);
      ([], Search(s.visited, s.stack - {node}))
    else
      var dep := deps[i];
      GetInUniverse(m, node);
      if dep !in s.visited then
        StackReachesStep(m, s, node, dep);
        var (c, s2) := FindCycle(m, dep, s);
        if |c| > 0 then (c, s2)
        else
          CardShrinks(Universe(m), s.visited, s2.visited, dep);
          DoneStep(m, node, i, s, s2);
          Loop(m, node, i + 1, s2)
      else if dep in s.stack then
        BackEdgeOnStack(m, s, node, dep);
        ([node, dep], s)
      else
        DoneStep(m, node, i, s, s);
        Loop(m, node, i + 1, s)
  }

  /** The loop of `findCircularDependencies` over the keys from the `i`-th on. */
  function Outer(m: DepMap, i: nat, s: Search): (r: (seq<string>, Search))
    requires Valid(m) && Wf(m, s) && i <= |m.keys|
    ensures Wf(m, r.1) && s.visited <= r.1.visited
    ensures forall j :: i <= j < |m.keys| ==> m.keys[j] in r.1.visited
    ensures |r.0| == 0 ==> r.1.stack == s.stack
    ensures s.stack == {} && |r.0| > 0 ==> HasCycle(m)
    ensures |r.0| == 0 && Sound(m, s) ==> Sound(m, r.1)
    decreases |m.keys| - i
  {
    if i == |m.keys| then ([], s)
    else
      var key := m.keys[i];
      if key in s.visited then Outer(m, i + 1, s)
      else
        var (c, s2) := FindCycle(m, key, s);
        var (rest, s3) := Outer(m, i + 1, s2);
        (c + rest, s3)
  }

  /** `findCircularDependencies`: every reported name once, in order of first report. */
  function FindCircularDependencies(m: DepMap): (r: seq<string>)
    requires Valid(m)
    ensures Distinct(r)
  {
    Dedup(Outer(m, 0, Search({}, {})).0)
  }

  /** The search reports nothing exactly when the dependency map has no cycle. */
  lemma CircularEmptyIffAcyclic(m: DepMap)
    requires Valid(m)
    ensures FindCircularDependencies(m) == [] <==> !HasCycle(m)
  {
    var s0 := Search({}, {});
    var (c, s) := Outer(m, 0, s0);
    assert Sound(m, s0);
    if c == [] && HasCycle(m) {
      var p :| IsCycle(m, p);
      assert p[1] in Get(m, p[0]);
      assert p[0] in m.keys;
      PathStaysInClosed(m, Finished(s), p);
      assert false;
    }
    if c != [] {
      assert c[0] in Dedup(c);
    }
  }

  // ---------------------------------------------------------------------------
  // Examples

  /** A package that lists itself is reported once: `findCycle` returns `[a, a]`. */
  lemma SelfLoopExample()
    ensures FindCircularDependencies(DepMap(["a"], map["a" := ["a"]])) == ["a"]
  {
    var m := DepMap(["a"], map["a" := ["a"]]);
    var s1 := Search({"a"}, {"a"});
    assert Loop(m, "a", 0, s1) == (["a", "a"], s1);
    assert Outer(m, 0, Search({}, {})).0 == ["a", "a"];
  }

  function StaleStackMap(): DepMap {
    DepMap(["a", "b", "c"], map["a" := ["b"], "b" := ["a"], "c" := ["a"]])
  }

  lemma StaleStackB()
    ensures FindCycle(StaleStackMap(), "b", Search({"a"}, {"a"})) == (["b", "a"], Search({"a", "b"}, {"a", "b"}))
  {
    var ab := Search({"a", "b"}, {"a", "b"});
    assert {"a"} + {"b"} == {"a", "b"};
    assert Loop(StaleStackMap(), "b", 0, ab) == (["b", "a"], ab);
  }

  lemma StaleStackA()
    ensures FindCycle(StaleStackMap(), "a", Search({}, {})) == (["b", "a"], Search({"a", "b"}, {"a", "b"}))
  {
    var a := Search({"a"}, {"a"});
    assert {} + {"a"} == {"a"};
    StaleStackB();
    assert Loop(StaleStackMap(), "a", 0, a) == (["b", "a"], Search({"a", "b"}, {"a", "b"}));
  }

  lemma StaleStackC()
    ensures FindCycle(StaleStackMap(), "c", Search({"a", "b"}, {"a", "b"})) == (["c", "a"], Search({"a", "b", "c"}, {"a", "b", "c"}))
  {
    var abc := Search({"a", "b", "c"}, {"a", "b", "c"});
    assert {"a", "b"} + {"c"} == {"a", "b", "c"};
    assert Loop(StaleStackMap(), "c", 0, abc) == (["c", "a"], abc);
  }

  lemma StaleStackOuter()
    ensures Outer(StaleStackMap(), 0, Search({}, {})).0 == ["b", "a", "c", "a"]
  {
    var m := StaleStackMap();
    var ab := Search({"a", "b"}, {"a", "b"});
    StaleStackA();
    StaleStackC();
    assert Outer(m, 1, ab) == Outer(m, 2, ab);
    assert Outer(m, 2, ab).0 == ["c", "a"];
  }

  /**
   * After the cycle `a -> b -> a` is reported, `a` and `b` stay on the
   * recursion stack, so `c`, which only depends on `a` and lies on no cycle,
   * is reported as well.
   */
  lemma StaleStackExample()
    ensures FindCircularDependencies(StaleStackMap()) == ["b", "a", "c"]
  {
    StaleStackOuter();
    RepeatedCycleDeduplicated();
  }

  lemma RepeatedCycleDeduplicated()
    ensures Dedup(["b", "a", "c", "a"]) == ["b", "a", "c"]
  {
    var s: seq<string> := ["b", "a", "c"];
    assert s + ["a"] == ["b", "a", "c", "a"];
    DedupOfRepeatLast(s, "a");
  }
}

=== FILE: dependency_graph.dfy ===
/**
 * The dependency map of the dependency-tree tool: `pip show` output parsed
 * into lower-cased dependency names, one map entry per installed package,
 * and the two in-degree-zero queries (root packages, unused packages).
 * `pip show` itself is a lookup function passed in by the caller.
 */
module DependencyGraph {
  import opened Wrappers
  import opened Strings
  import opened Sequences
  import opened LineScan
  import Stdlib

  /** One entry of `pip list --format=json`. */
  datatype Package = Package(name: string, version: string)

  /**
   * A JavaScript `Map<string, string[]>`: `keys` in order of first insertion,
   * `deps` the value each key holds now.
   */
  datatype DepMap = DepMap(keys: seq<string>, deps: map<string, seq<string>>)

  ghost predicate Valid(m: DepMap) {
    && Distinct(m.keys)
    && (forall k :: k in m.deps <==> k in m.keys)
  }

  const EmptyMap := DepMap([], map[])

  /** `dependencyMap.get(k) || []`: an absent key has no dependencies. */
  function Get(m: DepMap, k: string): seq<string> {
    if k in m.deps then m.deps[k] else []
  }

  /** `dependencyMap.set(k, v)`: a new key goes last, an existing key keeps its place. */
  function Put(m: DepMap, k: string, v: seq<string>): (r: DepMap)
    requires Valid(m)
    ensures Valid(r)
    ensures Get(r, k) == v
    ensures forall k' :: k' != k ==> Get(r, k') == Get(m, k')
    ensures r.keys == if k in m.deps then m.keys else m.keys + [k]
  {
    if k in m.deps then DepMap(m.keys, m.deps[k := v])
    else DepMap(m.keys + [k], m.deps[k := v])
  }

  /** Every name that appears in some dependency list. */
  function Dependents(m: DepMap): (r: set<string>)
    ensures forall d :: d in r <==> exists k :: k in m.deps && d in m.deps[k]
  {
    set k, d | k in m.deps && d in m.deps[k] :: d
  }

  // ---------------------------------------------------------------------------
  // Parsing `pip show`

  /** A dependency name as the parser produces it: trimmed and lower case. */
  predicate Normalized(d: string) {
    Trimmed(d) && ToLower(d) == d
  }

  /** `dep.trim().toLowerCase()`. */
  function NormalizeName(dep: string): (r: string)
    ensures Normalized(r)
  {
    ToLowerKeepsTrimmed(Trim(dep));
    ToLowerIdempotent(Trim(dep));
    ToLower(Trim(dep))
  }

  function NormalizeAll(deps: seq<string>): (r: seq<string>)
    ensures |r| == |deps|
    ensures forall i :: 0 <= i < |r| ==> r[i] == NormalizeName(deps[i])
  {
    if |deps| == 0 then [] else [NormalizeName(deps[0])] + NormalizeAll(deps[1..])
  }

  /** `text.split(',').map(dep => dep.trim().toLowerCase())`. */
  function Pieces(text: string): (r: seq<string>)
    ensures |r| == |Split(text, ',')|
    ensures forall i :: 0 <= i < |r| ==> Normalized(r[i])
  {
    NormalizeAll(Split(text, ','))
  }

  /** How the loop of `parseDependenciesFromShow` sees one line, after `trim`. */
  datatype ShowLine =
    | RequiresField(text: string)   // starts with `Requires:`; `text` is the trimmed rest
    | RequiredBy                    // starts with `Required-by:`
    | Plain(trimmed: string)        // anything else

  function ClassifyShowLine(line: string): ShowLine {
    var t := Trim(line);
    if StartsWith(t, "Requires:") then RequiresField(Trim(t[9..]))
    else if StartsWith(t, "Required-by:") then RequiredBy
    else Plain(t)
  }

  /**
   * One iteration, the state being `inRequires`: a `Requires:` line sets the
   * flag and adds its names, `Required-by:` inside the field breaks, a
   * non-empty line without a colon inside the field adds its names.
   */
  function ShowStep(line: string, inRequires: bool): (r: Action<bool, string>)
    ensures forall i :: 0 <= i < |r.out| ==> Normalized(r.out[i])
  {
    match ClassifyShowLine(line)
    case RequiresField(text) => Emit(if text != "" then Pieces(text) else [], true)
    case RequiredBy => if inRequires then Stop([]) else Emit([], inRequires)
    case Plain(t) => Emit(if inRequires && t != "" && !Contains(t, ":") then Pieces(t) else [], inRequires)
  }

  /** `parseDependenciesFromShow(showOutput)`. */
  function ParseDependenciesFromShow(output: string): (r: seq<string>)
    ensures forall i :: 0 <= i < |r| ==> Normalized(r[i])
  {
    ScanKeeps(ShowStep, Normalized, Split(output, '\n'), false);
    Scan(ShowStep, Split(output, '\n'), false)
  }

  /** Scanning stops at `Required-by:` once inside the field: nothing after it is read. */
  lemma StopsAtRequiredBy(a: seq<string>, line: string, b: seq<string>)
    requires !Stops(ShowStep, a, false) && StateAfter(ShowStep, a, false)
    requires ClassifyShowLine(line) == RequiredBy
    ensures Scan(ShowStep, a + [line] + b, false) == Scan(ShowStep, a, false)
  {
    ScanStopsAt(ShowStep, a, line, b, false);
  }

  /** Wherever it appears, a non-empty `Requires:` field adds its names and opens the field. */
  lemma RequiresLineAdds(a: seq<string>, line: string, b: seq<string>, text: string)
    requires !Stops(ShowStep, a, false)
    requires ClassifyShowLine(line) == RequiresField(text) && text != ""
    ensures Scan(ShowStep, a + [line] + b, false) == Scan(ShowStep, a, false) + Pieces(text) + Scan(ShowStep, b, true)
  {
    ScanEmitsAt(ShowStep, a, line, b, false);
  }

  /** Inside the field, a non-empty line without a colon adds its comma-separated names. */
  lemma ContinuationLineAdds(a: seq<string>, line: string, b: seq<string>, t: string)
    requires !Stops(ShowStep, a, false) && StateAfter(ShowStep, a, false)
    requires ClassifyShowLine(line) == Plain(t) && t != "" && !Contains(t, ":")
    ensures Scan(ShowStep, a + [line] + b, false) == Scan(ShowStep, a, false) + Pieces(t) + Scan(ShowStep, b, true)
  {
    ScanEmitsAt(ShowStep, a, line, b, false);
  }

  /** Any other line (outside the field, empty, or holding a colon) adds nothing and leaves the flag as it was. */
  lemma OtherLineSkipped(a: seq<string>, line: string, b: seq<string>, t: string)
    requires !Stops(ShowStep, a, false)
    requires ClassifyShowLine(line) == Plain(t)
    requires !StateAfter(ShowStep, a, false) || t == "" || Contains(t, ":")
    ensures Scan(ShowStep, a + [line] + b, false) == Scan(ShowStep, a, false) + Scan(ShowStep, b, StateAfter(ShowStep, a, false))
  {
    ScanEmitsAt(ShowStep, a, line, b, false);
    assert Scan(ShowStep, a, false) + [] == Scan(ShowStep, a, false);
  }

  /** `Required-by:` before any `Requires:` field is an ordinary line. */
  lemma RequiredByOutsideSkipped(a: seq<string>, line: string, b: seq<string>)
    requires !Stops(ShowStep, a, false) && !StateAfter(ShowStep, a, false)
    requires ClassifyShowLine(line) == RequiredBy
    ensures Scan(ShowStep, a + [line] + b, false) == Scan(ShowStep, a, false) + Scan(ShowStep, b, false)
  {
    ScanEmitsAt(ShowStep, a, line, b, false);
    assert Scan(ShowStep, a, false) + [] == Scan(ShowStep, a, false);
  }

  /** Before a `Requires:` line nothing is added: without one there are no dependencies. */
  lemma {:induction false} NoRequiresNoDependencies(lines: seq<string>)
    requires forall i :: 0 <= i < |lines| ==> !ClassifyShowLine(lines[i]).RequiresField?
    ensures Scan(ShowStep, lines, false) == []
  {
    if |lines| > 0 {
      NoRequiresNoDependencies(lines[1..]);
    }
  }

  /** An empty `Requires:` field adds nothing but opens the field. */
  lemma EmptyRequiresAddsNothing(line: string, rest: seq<string>, inRequires: bool)
    requires ClassifyShowLine(line) == RequiresField("")
    ensures Scan(ShowStep, [line] + rest, inRequires) == Scan(ShowStep, rest, true)
  {
    assert ([line] + rest)[1..] == rest;
  }

  lemma ClassifyRequiresExample()
    ensures ClassifyShowLine("Requires: a, B") == RequiresField("a, B")
  {
    var l := "Requires: a, B";
    TrimOfTrimmed(l);
    assert l[..9] == "Requires:";
    assert l[9..] == " " + "a, B" + "";
    TrimOfPadded(" ", "a, B", "");
  }

  lemma ClassifyRequiredByExample()
    ensures ClassifyShowLine("Required-by: c") == RequiredBy
  {
    var l := "Required-by: c";
    TrimOfTrimmed(l);
    assert l[..9] != "Requires:" by { assert l[7] != "Requires:"[7]; }
    assert l[..12] == "Required-by:";
  }

  lemma SplitExample()
    ensures Split("a, B", ',') == ["a", " B"]
  {
    assert Join(["a", " B"], ",") == "a, B";
    SplitJoin(["a", " B"], ',');
  }

  /** Leading spaces are dropped and a single character lower-cased. */
  lemma NormalizeOfPaddedChar(pre: string, c: char)
    requires forall i :: 0 <= i < |pre| ==> IsSpace(pre[i])
    requires !IsSpace(c)
    ensures NormalizeName(pre + [c]) == [LowerChar(c)]
  {
    assert pre + [c] + "" == pre + [c];
    TrimOfPadded(pre, [c], "");
  }

  lemma NormalizeBareExample()
    ensures NormalizeName("a") == "a"
  {
    assert "" + ['a'] == "a";
    NormalizeOfPaddedChar("", 'a');
  }

  lemma NormalizePaddedExample()
    ensures NormalizeName(" B") == "b"
  {
    assert " " + ['B'] == " B";
    NormalizeOfPaddedChar(" ", 'B');
  }

  lemma PiecesOfTwo(text: string, p: string, q: string)
    requires Split(text, ',') == [p, q]
    ensures Pieces(text) == [NormalizeName(p), NormalizeName(q)]
  {
  }

  lemma PiecesExample()
    ensures Pieces("a, B") == ["a", "b"]
  {
    SplitExample();
    PiecesOfTwo("a, B", "a", " B");
    NormalizeBareExample();
    NormalizePaddedExample();
  }

  /** `Requires: a, B` followed by `Required-by: c` gives `a` and `b`. */
  lemma ShowExample()
    ensures ParseDependenciesFromShow("Requires: a, B\nRequired-by: c") == ["a", "b"]
  {
    ShowLinesExample();
    ScanExample();
  }

  lemma ShowLinesExample()
    ensures Split("Requires: a, B\nRequired-by: c", '\n') == ["Requires: a, B", "Required-by: c"]
  {
    var l0, l1 := "Requires: a, B", "Required-by: c";
    assert Join([l0, l1], "\n") == "Requires: a, B\nRequired-by: c";
    SplitJoin([l0, l1], '\n');
  }

  lemma ScanExample()
    ensures Scan(ShowStep, ["Requires: a, B", "Required-by: c"], false) == ["a", "b"]
  {
    var l0, l1 := "Requires: a, B", "Required-by: c";
    ClassifyRequiresExample();
    ClassifyRequiredByExample();
    PiecesExample();
    assert ShowStep(l0, false) == Emit(["a", "b"], true);
    assert ShowStep(l1, true) == Stop([]);
    assert [l0, l1][1..] == [l1];
  }

  // ---------------------------------------------------------------------------
  // Building the map

  /** `pip show <name>` parsed, or `[]` when the command fails. */
  function DepsOf(show: string -> Option<string>, p: Package): seq<string> {
    match show(p.name)
    case Some(output) => ParseDependenciesFromShow(output)
    case None => []
  }

  /** `packages.map(pkg => pkg.name.toLowerCase())`. */
  function LowerNames(packages: seq<Package>): (r: seq<string>)
    ensures |r| == |packages|
    ensures forall i :: 0 <= i < |packages| ==> r[i] == ToLower(packages[i].name)
  {
    if |packages| == 0 then []
    else LowerNames(packages[..|packages| - 1]) + [ToLower(packages[|packages| - 1].name)]
  }

  /** `buildDependencyMap`: one `set` per installed package, in order, under its lower-cased name. */
  function BuildDependencyMap(show: string -> Option<string>, packages: seq<Package>): (m: DepMap)
    ensures Valid(m)
    ensures forall k :: k in m.deps <==> k in LowerNames(packages)
  {
    if |packages| == 0 then EmptyMap
    else
      var last := packages[|packages| - 1];
      var m := BuildDependencyMap(show, packages[..|packages| - 1]);
      Put(m, ToLower(last.name), DepsOf(show, last))
  }

  /** The keys are the lower-cased names without repeats, in order of first appearance. */
  lemma {:induction false} DependencyMapKeys(show: string -> Option<string>, packages: seq<Package>)
    ensures BuildDependencyMap(show, packages).keys == Dedup(LowerNames(packages))
  {
    if |packages| > 0 {
      var init := packages[..|packages| - 1];
      DependencyMapKeys(show, init);
      var names := LowerNames(packages);
      assert names[..|packages| - 1] == LowerNames(init);
    }
  }

  /**
   * Each key holds the dependencies of the last package with that lower-cased
   * name, and `[]` when its lookup failed.
   */
  lemma {:induction false} DependencyMapLastWriteWins(show: string -> Option<string>, packages: seq<Package>, i: nat)
    requires i < |packages|
    requires forall j :: i < j < |packages| ==> ToLower(packages[j].name) != ToLower(packages[i].name)
    ensures Get(BuildDependencyMap(show, packages), ToLower(packages[i].name)) == DepsOf(show, packages[i])
    ensures show(packages[i].name) == None ==> Get(BuildDependencyMap(show, packages), ToLower(packages[i].name)) == []
  {
    if i < |packages| - 1 {
      DependencyMapLastWriteWins(show, packages[..|packages| - 1], i);
    }
  }

  // ---------------------------------------------------------------------------
  // Roots and unused packages

  /** The filter predicate `k => !dependents.has(k)`. */
  function OutsideOf(dependents: set<string>): string -> bool {
    (k: string) => k !in dependents
  }

  /** The filter predicate `name => !used.has(name) && !isStandardLibrary(name)`. */
  function UnusedIn(m: DepMap): string -> bool {
    (name: string) => name !in Dependents(m) && !Stdlib.IsStandardLibrary(name)
  }

  /** The loop behind `keys.filter(k => !dependents.has(k))`. */
  function KeepOutside(keys: seq<string>, dependents: set<string>): (r: seq<string>)
    ensures r == Filter(OutsideOf(dependents), keys)
  {
    if |keys| == 0 then []
    else (if keys[0] !in dependents then [keys[0]] else []) + KeepOutside(keys[1..], dependents)
  }

  /** `findRootPackages`: the keys that are nobody's dependency, in key order. */
  function FindRootPackages(m: DepMap): (r: seq<string>)
    requires Valid(m)
    ensures r == Filter(OutsideOf(Dependents(m)), m.keys)
    ensures Distinct(r)
    ensures forall x :: x in r <==> x in m.deps && x !in Dependents(m)
  {
    FilterDistinct(OutsideOf(Dependents(m)), m.keys);
    KeepOutside(m.keys, Dependents(m))
  }

  /** The loop behind `names.filter(name => !used.has(name) && !isStandardLibrary(name))`. */
  function KeepUnused(m: DepMap, names: seq<string>): (r: seq<string>)
    ensures r == Filter(UnusedIn(m), names)
  {
    if |names| == 0 then []
    else (if names[0] !in Dependents(m) && !Stdlib.IsStandardLibrary(names[0]) then [names[0]] else []) + KeepUnused(m, names[1..])
  }

  /**
   * `findUnusedDependencies`: the lower-cased installed names, in input order
   * and with repeats, that no dependency list mentions and that are not
   * standard library (looked up case-sensitively).
   */
  function FindUnusedDependencies(m: DepMap, packages: seq<Package>): (r: seq<string>)
    ensures r == Filter(UnusedIn(m), LowerNames(packages))
    ensures |r| <= |packages|
    ensures forall x :: x in r <==> x in LowerNames(packages) && x !in Dependents(m) && !Stdlib.IsStandardLibrary(x)
  {
    KeepUnused(m, LowerNames(packages))
  }

  /** An unused package is never a dependency, so on the map built from the same list it is a root. */
  lemma UnusedAreRoots(show: string -> Option<string>, packages: seq<Package>, x: string)
    requires x in FindUnusedDependencies(BuildDependencyMap(show, packages), packages)
    ensures x in FindRootPackages(BuildDependencyMap(show, packages))
  {
  }
}

=== FILE: dependency_tree.dfy ===
/**
 * `buildTreeForPackage` and `buildFullTree`: the dependency tree shown to the
 * user, cut off at a maximum depth and at names already on the path from the
 * root (each child gets its own copy of the `visited` set, so the cut is per
 * path, not global).
 */
module DependencyTree {
  import opened Wrappers
  import opened Strings
  import opened DependencyGraph

  /** `DependencyNode`. */
  datatype Node = Node(name: string, version: string, dependencies: seq<Node>)

  /** The names of a list of nodes, in order. */
  function Names(ns: seq<Node>): (r: seq<string>)
    ensures |r| == |ns|
    ensures forall i :: 0 <= i < |ns| ==> r[i] == ns[i].name
  {
    if |ns| == 0 then [] else [ns[0].name] + Names(ns[1..])
  }

  /** `buildTreeForPackage` admits `name` at `depth`: the depth limit is not reached and the name is not on the path. */
  predicate Admitted(name: string, maxDepth: int, depth: nat, visited: set<string>) {
    depth < maxDepth && ToLower(name) !in visited
  }

  /** The dependencies that get a child node: those admitted, in order. */
  function Admit(deps: seq<string>, maxDepth: int, depth: nat, visited: set<string>): (r: seq<string>)
    ensures |r| <= |deps|
    ensures forall x :: x in r ==> x in deps && Admitted(x, maxDepth, depth, visited)
  {
    if |deps| == 0 then []
    else
      var first := if Admitted(deps[0], maxDepth, depth, visited) then [deps[0]] else [];
      first + Admit(deps[1..], maxDepth, depth, visited)
  }

  /** Every path from `n` down has at most `k` nodes. */
  ghost predicate WithinDepth(n: Node, k: int)
    decreases n
  {
    k >= 1 && forall i :: 0 <= i < |n.dependencies| ==> WithinDepth(n.dependencies[i], k - 1)
  }

  /** No lower-cased name occurs twice on a path from `n` down, nor on one from `n` down that starts in `path`. */
  ghost predicate NoRepeat(n: Node, path: set<string>)
    decreases n
  {
    ToLower(n.name) !in path
    && forall i :: 0 <= i < |n.dependencies| ==> NoRepeat(n.dependencies[i], path + {ToLower(n.name)})
  }

  /**
   * `buildTreeForPackage(name, map, maxDepth, depth, visited)`: `null` past the
   * depth limit or for a name already on the path; otherwise a node with
   * version "unknown" whose children are built from the map entry of the
   * lower-cased name, one level deeper, with the name added to the path.
   */
  function BuildTree(m: DepMap, name: string, maxDepth: int, depth: nat, visited: set<string>): (r: Option<Node>)
    ensures r.None? <==> !Admitted(name, maxDepth, depth, visited)
    ensures r.Some? ==> r.value.name == name && r.value.version == "unknown"
    ensures r.Some? ==>
              Names(r.value.dependencies) == Admit(Get(m, ToLower(name)), maxDepth, depth + 1, visited + {ToLower(name)})
    ensures r.Some? ==> WithinDepth(r.value, maxDepth - depth)
    ensures r.Some? ==> NoRepeat(r.value, visited)
    decreases maxDepth - depth, 1, 0
  {
    if depth >= maxDepth || ToLower(name) in visited then None
    else
      var key := ToLower(name);
      var kids := Children(m, Get(m, key), maxDepth, depth + 1, visited + {key});
      Some(Node(name, "unknown", kids))
  }

  /** The `for (const dep of dependencies)` loop: the non-null results of `buildTreeForPackage`, in order. */
  function Children(m: DepMap, deps: seq<string>, maxDepth: int, depth: nat, visited: set<string>): (r: seq<Node>)
    requires depth <= maxDepth
    ensures Names(r) == Admit(deps, maxDepth, depth, visited)
    ensures forall i :: 0 <= i < |r| ==> WithinDepth(r[i], maxDepth - depth) && NoRepeat(r[i], visited)
    ensures forall i :: 0 <= i < |r| ==> Some(r[i]) == BuildTree(m, r[i].name, maxDepth, depth, visited)
    decreases maxDepth - depth + 1, 0, |deps|
  {
    if |deps| == 0 then []
    else
      var rest := Children(m, deps[1..], maxDepth, depth, visited);
      match BuildTree(m, deps[0], maxDepth, depth, visited)
      case Some(n) => [n] + rest
      case None => rest
  }

  /**
   * `buildFullTree`: nothing without a root package; the tree of the only root
   * package when there is exactly one and it is not the empty string (which
   * JavaScript treats as false); otherwise a synthetic "root" node with one
   * child per root package, a bare leaf standing in for any that is cut off.
   */
  function BuildFullTree(m: DepMap, maxDepth: int): (r: Option<Node>)
    requires Valid(m)
    ensures var roots := FindRootPackages(m);
            r.None? <==> |roots| == 0 || (|roots| == 1 && roots[0] != "" && maxDepth <= 0)
    ensures var roots := FindRootPackages(m);
            |roots| == 1 && roots[0] != "" && r.Some? ==> r.value.name == roots[0] && WithinDepth(r.value, maxDepth)
    ensures var roots := FindRootPackages(m);
            (|roots| > 1 || (|roots| == 1 && roots[0] == "")) ==>
              r.Some? && r.value.name == "root" && r.value.version == "1.0.0" && Names(r.value.dependencies) == roots
    ensures var roots := FindRootPackages(m);
            |roots| == 1 && roots[0] != "" ==> r == BuildTree(m, roots[0], maxDepth, 0, {})
    ensures var roots := FindRootPackages(m);
            (|roots| > 1 || (|roots| == 1 && roots[0] == "")) ==> r == Some(Node("root", "1.0.0", RootChildren(m, roots, maxDepth)))
  {
    var roots := FindRootPackages(m);
    if |roots| == 0 then None
    else if |roots| == 1 && roots[0] != "" then BuildTree(m, roots[0], maxDepth, 0, {})
    else Some(Node("root", "1.0.0", RootChildren(m, roots, maxDepth)))
  }

  /** The children of the synthetic root: the tree of each root package, or a bare leaf where it is cut off. */
  function RootChildren(m: DepMap, roots: seq<string>, maxDepth: int): (r: seq<Node>)
    ensures Names(r) == roots
    ensures maxDepth > 0 ==> forall i :: 0 <= i < |roots| ==> Some(r[i]) == BuildTree(m, roots[i], maxDepth, 0, {})
    ensures maxDepth <= 0 ==> forall i :: 0 <= i < |roots| ==> r[i] == Node(roots[i], "unknown", [])
  {
    var r := seq(|roots|, i requires 0 <= i < |roots| =>
      BuildTree(m, roots[i], maxDepth, 0, {}).GetOr(Node(roots[i], "unknown", [])));
    assert forall i :: 0 <= i < |r| ==> r[i].name == roots[i];
    r
  }

  /** With a depth limit of one every tree is a single node. */
  lemma DepthOneIsLeaf(m: DepMap, name: string)
    ensures BuildTree(m, name, 1, 0, {}) == Some(Node(name, "unknown", []))
  {
    var key := ToLower(name);
    var deps := Get(m, key);
    assert Admit(deps, 1, 1, {key}) == [] by {
      AdmitNone(deps, 1, 1, {key});
    }
  }

  /** Nothing is admitted at or past the depth limit. */
  lemma {:induction false} AdmitNone(deps: seq<string>, maxDepth: int, depth: nat, visited: set<string>)
    requires depth >= maxDepth
    ensures Admit(deps, maxDepth, depth, visited) == []
  {
    if |deps| > 0 {
      AdmitNone(deps[1..], maxDepth, depth, visited);
    }
  }

  /** A package that lists only itself is cut off below itself: its node has no children. */
  lemma SelfDependencyIsCut(m: DepMap, name: string, maxDepth: int)
    requires Get(m, ToLower(name)) == [ToLower(name)]
    requires maxDepth >= 1
    ensures BuildTree(m, name, maxDepth, 0, {}).value.dependencies == []
  {
    var key := ToLower(name);
    ToLowerIdempotent(name);
    assert !Admitted(key, maxDepth, 1, {key});
    assert Admit([key], maxDepth, 1, {key}) == [];
  }
}

=== FILE: export.dfy ===
/**
 * `exportEnvironment`: the installed packages, less the standard-library
 * names, rendered as a requirements file, a `pyproject.toml` or a conda
 * `environment.yml`. Each format sorts its entries in the code-unit order of
 * `Array.prototype.sort` without a comparator and fills a fixed template.
 */
module Export {
  import opened Wrappers
  import opened Strings
  import opened Sorting
  import opened Sequences
  import Stdlib
  import DependencyGraph

  type Package = DependencyGraph.Package

  /** `EnvironmentExport`. */
  datatype EnvironmentExport = EnvironmentExport(format: string, content: string)

  /** The filter predicate `pkg => !isStandardLibrary(pkg.name)`, with this file's case-insensitive lookup. */
  function Kept(p: Package): bool {
    !Stdlib.IsStandardLibraryIgnoringCase(p.name)
  }

  /** `.filter(pkg => !isStandardLibrary(pkg.name))`: the kept packages in input order, repeats included. */
  function NonStdlib(packages: seq<Package>): (r: seq<Package>)
    ensures r == Filter(Kept, packages)
    ensures forall p :: multiset(r)[p] == if Kept(p) then multiset(packages)[p] else 0
    ensures forall p :: p in r <==> p in packages && !Stdlib.IsStandardLibraryIgnoringCase(p.name)
  {
    if |packages| == 0 then []
    else (if Kept(packages[0]) then [packages[0]] else []) + NonStdlib(packages[1..])
  }

  /** `.map(render)`. */
  function Rendered(packages: seq<Package>, render: Package -> string): (r: seq<string>)
    ensures |r| == |packages|
    ensures forall i :: 0 <= i < |packages| ==> r[i] == render(packages[i])
  {
    if |packages| == 0 then [] else [render(packages[0])] + Rendered(packages[1..], render)
  }

  /** Code-unit order is a total preorder on strings. */
  lemma CodeUnitOrder()
    ensures TotalPreorder(LexLe)
  {
    forall a: string, b: string ensures LexLe(a, b) || LexLe(b, a) {
      LexLeTotal(a, b);
    }
    forall a: string, b: string, c: string | LexLe(a, b) && LexLe(b, c) ensures LexLe(a, c) {
      LexLeTransitive(a, b, c);
    }
  }

  /**
   * The entries of one format: the rendered non-standard-library packages,
   * sorted, one per package, duplicates kept.
   */
  function SortedEntries(packages: seq<Package>, render: Package -> string): (r: seq<string>)
    ensures SortedBy(LexLe, r)
    ensures multiset(r) == multiset(Rendered(NonStdlib(packages), render))
    ensures |r| == |NonStdlib(packages)|
  {
    CodeUnitOrder();
    var r := SortBy(LexLe, Rendered(NonStdlib(packages), render));
    assert |multiset(r)| == |multiset(Rendered(NonStdlib(packages), render))|;
    r
  }

  /** `${pkg.name}==${pkg.version}`. */
  function RequirementEntry(p: Package): string {
    p.name + "==" + p.version
  }

  /** `"${pkg.name}==${pkg.version}"`, quotes included. */
  function PyprojectEntry(p: Package): string {
    "\"" + p.name + "==" + p.version + "\""
  }


  /** `  - ${pkg.name}=${pkg.version}`. */
  function CondaEntry(p: Package): string {
    "  - " + p.name + "=" + p.version
  }

  /** Every format renders a package whose name and version are single lines as a single line. */
  lemma EntryIsLine(p: Package)
    requires '\n' !in p.name && '\n' !in p.version
    ensures '\n' !in RequirementEntry(p) && '\n' !in PyprojectEntry(p) && '\n' !in CondaEntry(p)
  {
    var q, e, d, s := "\"", "==", "  - ", "=";
    assert '\n' !in q && '\n' !in e && '\n' !in d && '\n' !in s;
    assert RequirementEntry(p) == p.name + e + p.version;
    assert PyprojectEntry(p) == q + p.name + e + p.version + q;
    assert CondaEntry(p) == d + p.name + s + p.version;
  }

  /** The renderings of every single-line package are single lines. */
  lemma EntriesOfLinesAreLines()
    ensures forall p: Package :: '\n' !in p.name && '\n' !in p.version ==> '\n' !in RequirementEntry(p)
    ensures forall p: Package :: '\n' !in p.name && '\n' !in p.version ==> '\n' !in PyprojectEntry(p)
    ensures forall p: Package :: '\n' !in p.name && '\n' !in p.version ==> '\n' !in CondaEntry(p)
  {
    forall p: Package | '\n' !in p.name && '\n' !in p.version
      ensures '\n' !in RequirementEntry(p) && '\n' !in PyprojectEntry(p) && '\n' !in CondaEntry(p)
    {
      EntryIsLine(p);
    }
  }

  // ---------------------------------------------------------------------------
  // Lines

  /** Text made of the given lines, each followed by a newline. */
  function Terminated(lines: seq<string>): string {
    if |lines| == 0 then "" else lines[0] + "\n" + Terminated(lines[1..])
  }

  predicate NoNewline(lines: seq<string>) {
    forall i :: 0 <= i < |lines| ==> '\n' !in lines[i]
  }

  /** Splitting on newlines gives the terminated lines back, then the lines of what follows. */
  lemma {:induction false} SplitTerminated(lines: seq<string>, rest: string)
    requires NoNewline(lines)
    ensures Split(Terminated(lines) + rest, '\n') == lines + Split(rest, '\n')
  {
    if |lines| > 0 {
      var tail := Terminated(lines[1..]) + rest;
      assert Terminated(lines) + rest == lines[0] + ['\n'] + tail;
      SplitAppend(lines[0], tail, '\n');
      SplitNoSeparator(lines[0], '\n');
      assert NoNewline(lines[1..]) by {
        forall i | 0 <= i < |lines[1..]| ensures '\n' !in lines[1..][i] {
          assert lines[1..][i] == lines[i + 1];
        }
      }
      SplitTerminated(lines[1..], rest);
      AppendAssoc([lines[0]], lines[1..], Split(rest, '\n'));
      assert lines == [lines[0]] + lines[1..];
    } else {
      assert Terminated(lines) + rest == rest;
    }
  }

  /** Newline-joined lines followed by a final newline split into the lines and one empty piece. */
  lemma JoinedLines(lines: seq<string>)
    requires |lines| >= 1 && NoNewline(lines)
    ensures Split(Join(lines, "\n") + "\n", '\n') == lines + [""]
  {
    assert Join(lines, "\n") + "\n" == Join(lines, ['\n']) + ['\n'] + "";
    SplitAppend(Join(lines, ['\n']), "", '\n');
    SplitJoin(lines, '\n');
  }

  /** No package name or version holds a newline. */
  predicate SingleLinePackages(packages: seq<Package>) {
    forall i :: 0 <= i < |packages| ==> '\n' !in packages[i].name && '\n' !in packages[i].version
  }

  /** The entries of single-line packages are single lines, whichever way they are rendered. */
  lemma EntriesAreLines(packages: seq<Package>, render: Package -> string)
    requires SingleLinePackages(packages)
    requires forall p: Package :: '\n' !in p.name && '\n' !in p.version ==> '\n' !in render(p)
    ensures NoNewline(SortedEntries(packages, render))
  {
    var kept := NonStdlib(packages);
    assert NoNewline(Rendered(kept, render)) by {
      forall j | 0 <= j < |kept| ensures '\n' !in Rendered(kept, render)[j] {
        assert kept[j] in packages;
      }
    }
    NoNewlineOfPermutation(SortedEntries(packages, render), Rendered(kept, render));
  }

  /** A rearrangement of newline-free lines is newline-free. */
  lemma NoNewlineOfPermutation(a: seq<string>, b: seq<string>)
    requires multiset(a) == multiset(b) && NoNewline(b)
    ensures NoNewline(a)
  {
    forall i | 0 <= i < |a| ensures '\n' !in a[i] {
      assert a[i] in multiset(b);
    }
  }

  // ---------------------------------------------------------------------------
  // `exportToRequirements`

  /**
   * `exportToRequirements(packages)`: one sorted `name==version` line per
   * non-standard-library package, newline-joined, with a final newline.
   */
  function ExportToRequirements(packages: seq<Package>): (r: string)
    ensures NonStdlib(packages) == [] ==> r == "\n"
    ensures SingleLinePackages(packages) && NonStdlib(packages) != [] ==>
              Split(r, '\n') == SortedEntries(packages, RequirementEntry) + [""]
  {
    var lines := SortedEntries(packages, RequirementEntry);
    RequirementLinesSplit(packages);
    Join(lines, "\n") + "\n"
  }

  lemma RequirementLinesSplit(packages: seq<Package>)
    ensures var lines := SortedEntries(packages, RequirementEntry);
            SingleLinePackages(packages) && lines != [] ==> Split(Join(lines, "\n") + "\n", '\n') == lines + [""]
  {
    var lines := SortedEntries(packages, RequirementEntry);
    if SingleLinePackages(packages) && lines != [] {
      EntriesOfLinesAreLines();
      EntriesAreLines(packages, RequirementEntry);
      JoinedLines(lines);
    }
  }

  // ---------------------------------------------------------------------------
  // `exportToPyproject`

  const PyprojectHeaderLines := ["[project]", "name = \"my-project\"", "version = \"0.1.0\"", "description = \"My project\"", "dependencies = ["]
  const PyprojectFooterLines := ["]", "", "[build-system]", "requires = [\"setuptools>=61.0\", \"wheel\"]", "build-backend = \"setuptools.build_meta\""]

  /** `    ${dep}` for every entry. */
  function Indented(deps: seq<string>): (r: seq<string>)
    ensures |r| == |deps|
    ensures forall i :: 0 <= i < |deps| ==> r[i] == "    " + deps[i]
  {
    if |deps| == 0 then [] else ["    " + deps[0]] + Indented(deps[1..])
  }

  /**
   * `exportToPyproject(packages)`: the sorted, quoted, indented entries,
   * joined with `,\n`, between the fixed `[project]` header and the
   * `[build-system]` footer.
   */
  function ExportToPyproject(packages: seq<Package>): (r: string)
    ensures NonStdlib(packages) == [] ==> Split(r, '\n') == PyprojectHeaderLines + [""] + PyprojectFooterLines + [""]
    ensures SingleLinePackages(packages) && NonStdlib(packages) != [] ==>
              Split(r, '\n') == PyprojectHeaderLines + WithCommas(Indented(SortedEntries(packages, PyprojectEntry)))
                                + PyprojectFooterLines + [""]
  {
    var deps := SortedEntries(packages, PyprojectEntry);
    PyprojectLinesSplit(packages);
    if deps == [] then
      PyprojectEmptyLines();
      Terminated(PyprojectHeaderLines) + "\n" + Terminated(PyprojectFooterLines)
    else
      Terminated(PyprojectHeaderLines) + Join(Indented(deps), ",\n") + "\n" + Terminated(PyprojectFooterLines)
  }

  /** Every line but the last gets a trailing comma. */
  function WithCommas(lines: seq<string>): (r: seq<string>)
    ensures |r| == |lines|
  {
    if |lines| <= 1 then lines else [lines[0] + ","] + WithCommas(lines[1..])
  }

  /** Joining with `,\n` is joining the comma-terminated lines with newlines. */
  lemma {:induction false} JoinCommaNewline(lines: seq<string>)
    ensures Join(lines, ",\n") == Join(WithCommas(lines), "\n")
  {
    if |lines| > 1 {
      JoinCommaNewline(lines[1..]);
      var rest := Join(lines[1..], ",\n");
      assert Join(lines, ",\n") == lines[0] + ",\n" + rest;
      assert WithCommas(lines)[1..] == WithCommas(lines[1..]);
      assert Join(WithCommas(lines), "\n") == lines[0] + "," + "\n" + rest;
    }
  }

  lemma {:induction false} WithCommasNoNewline(lines: seq<string>)
    requires NoNewline(lines)
    ensures NoNewline(WithCommas(lines))
  {
    if |lines| > 1 {
      assert NoNewline(lines[1..]) by {
        forall i | 0 <= i < |lines[1..]| ensures '\n' !in lines[1..][i] {
          assert lines[1..][i] == lines[i + 1];
        }
      }
      WithCommasNoNewline(lines[1..]);
      assert '\n' !in lines[0] + ",";
      assert WithCommas(lines) == [lines[0] + ","] + WithCommas(lines[1..]);
    }
  }

  /** The lines of a template: header lines, `,\n`-joined entries, then a newline and the footer lines. */
  lemma {:induction false} CommaTemplateLines(header: seq<string>, entries: seq<string>, footer: seq<string>)
    requires NoNewline(header) && NoNewline(entries) && NoNewline(footer) && |entries| >= 1
    ensures Split(Terminated(header) + Join(entries, ",\n") + "\n" + Terminated(footer), '\n')
            == header + WithCommas(entries) + footer + [""]
  {
    WithCommasNoNewline(entries);
    var w := WithCommas(entries);
    JoinCommaNewline(entries);
    var body := Join(w, ['\n']);
    var tail := Terminated(footer);
    assert Terminated(header) + Join(entries, ",\n") + "\n" + tail == Terminated(header) + (body + ['\n'] + tail);
    SplitTerminated(footer, "");
    assert tail + "" == tail;
    assert Split(tail, '\n') == footer + [""];
    SplitJoin(w, '\n');
    SplitAppend(body, tail, '\n');
    assert Split(body + ['\n'] + tail, '\n') == w + (footer + [""]);
    SplitTerminated(header, body + ['\n'] + tail);
    AppendAssoc(header, w, footer + [""]);
  }

  /** The lines of a template: header lines, then newline-joined entries and a final newline. */
  lemma {:induction false} LineTemplateLines(header: seq<string>, entries: seq<string>)
    requires NoNewline(header) && NoNewline(entries) && |entries| >= 1
    ensures Split(Terminated(header) + Join(entries, "\n") + "\n", '\n') == header + entries + [""]
  {
    assert Terminated(header) + Join(entries, "\n") + "\n" == Terminated(header) + (Join(entries, "\n") + "\n");
    SplitTerminated(header, Join(entries, "\n") + "\n");
    JoinedLines(entries);
  }

  lemma PyprojectLinesSplit(packages: seq<Package>)
    ensures var deps := SortedEntries(packages, PyprojectEntry);
            SingleLinePackages(packages) && deps != [] ==>
              Split(Terminated(PyprojectHeaderLines) + Join(Indented(deps), ",\n") + "\n" + Terminated(PyprojectFooterLines), '\n')
              == PyprojectHeaderLines + WithCommas(Indented(deps)) + PyprojectFooterLines + [""]
  {
    var deps := SortedEntries(packages, PyprojectEntry);
    if SingleLinePackages(packages) && deps != [] {
      EntriesOfLinesAreLines();
      EntriesAreLines(packages, PyprojectEntry);
      HeaderLinesSingle();
      CommaTemplateLines(PyprojectHeaderLines, Indented(deps), PyprojectFooterLines);
    }
  }

  lemma HeaderLinesSingle()
    ensures NoNewline(PyprojectHeaderLines) && NoNewline(PyprojectFooterLines) && NoNewline(CondaHeaderLines)
  {
    PyprojectHeaderSingle();
    PyprojectFooterSingle();
    CondaHeaderSingle();
  }

  // Each longer template line is checked on its own, which keeps every check small.

  lemma ProjectNameLine() ensures '\n' !in "name = \"my-project\"" {}
  lemma ProjectVersionLine() ensures '\n' !in "version = \"0.1.0\"" {}
  lemma ProjectDescriptionLine() ensures '\n' !in "description = \"My project\"" {}
  lemma ProjectDependenciesLine() ensures '\n' !in "dependencies = [" {}
  lemma BuildSystemLine() ensures '\n' !in "[build-system]" {}
  lemma BuildRequiresLine() ensures '\n' !in "requires = [\"setuptools>=61.0\", \"wheel\"]" {}
  lemma BuildBackendLine() ensures '\n' !in "build-backend = \"setuptools.build_meta\"" {}
  lemma CondaNameLine() ensures '\n' !in "name: my-environment" {}
  lemma CondaForgeLine() ensures '\n' !in "  - conda-forge" {}

  lemma PyprojectHeaderSingle()
    ensures NoNewline(PyprojectHeaderLines)
  {
    ProjectNameLine();
    ProjectVersionLine();
    ProjectDescriptionLine();
    ProjectDependenciesLine();
  }

  lemma PyprojectFooterSingle()
    ensures NoNewline(PyprojectFooterLines)
  {
    BuildSystemLine();
    BuildRequiresLine();
    BuildBackendLine();
  }

  lemma CondaHeaderSingle()
    ensures NoNewline(CondaHeaderLines)
  {
    CondaNameLine();
    CondaForgeLine();
  }

  // ---------------------------------------------------------------------------
  // `exportToConda`

  const CondaHeaderLines := ["name: my-environment", "channels:", "  - defaults", "  - conda-forge", "dependencies:"]

  /** `exportToConda(packages)`: the fixed header, then one sorted `  - name=version` line per package. */
  function ExportToConda(packages: seq<Package>): (r: string)
    ensures NonStdlib(packages) == [] ==> Split(r, '\n') == CondaHeaderLines + ["", ""]
    ensures SingleLinePackages(packages) && NonStdlib(packages) != [] ==>
              Split(r, '\n') == CondaHeaderLines + SortedEntries(packages, CondaEntry) + [""]
  {
    var deps := SortedEntries(packages, CondaEntry);
    CondaLinesSplit(packages);
    if deps == [] then
      CondaEmptyLines();
      Terminated(CondaHeaderLines) + "\n"
    else
      Terminated(CondaHeaderLines) + Join(deps, "\n") + "\n"
  }

  /** With no entries the dependency list is one empty line, and the final newline leaves another. */
  lemma CondaEmptyLines()
    ensures Split(Terminated(CondaHeaderLines) + "\n", '\n') == CondaHeaderLines + ["", ""]
  {
    HeaderLinesSingle();
    SplitTerminated(CondaHeaderLines, "\n");
    SplitAppend("", "", '\n');
    assert "" + ['\n'] + "" == "\n";
  }

  /** With no entries the `dependencies = [` line is followed by an empty line, then the footer. */
  lemma PyprojectEmptyLines()
    ensures Split(Terminated(PyprojectHeaderLines) + "\n" + Terminated(PyprojectFooterLines), '\n')
            == PyprojectHeaderLines + [""] + PyprojectFooterLines + [""]
  {
    HeaderLinesSingle();
    EmptyTemplateLines(PyprojectHeaderLines, PyprojectFooterLines);
  }

  lemma Regroup<T>(a: seq<T>, x: T, b: seq<T>)
    ensures a + ([x] + (b + [x])) == a + [x] + b + [x]
  {
  }

  /** The lines of a template with nothing between header and footer but one newline. */
  lemma EmptyTemplateLines(header: seq<string>, footer: seq<string>)
    requires NoNewline(header) && NoNewline(footer)
    ensures Split(Terminated(header) + "\n" + Terminated(footer), '\n') == header + [""] + footer + [""]
  {
    var tail := Terminated(footer);
    var rest := "\n" + tail;
    assert Split(tail, '\n') == footer + [""] by {
      SplitTerminated(footer, "");
      assert tail + "" == tail;
    }
    assert Split(rest, '\n') == [""] + (footer + [""]) by {
      SplitAppend("", tail, '\n');
      assert "" + ['\n'] + tail == rest;
    }
    SplitTerminated(header, rest);
    assert Terminated(header) + "\n" + tail == Terminated(header) + rest;
    Regroup(header, "", footer);
  }


  lemma CondaLinesSplit(packages: seq<Package>)
    ensures var deps := SortedEntries(packages, CondaEntry);
            SingleLinePackages(packages) && deps != [] ==>
              Split(Terminated(CondaHeaderLines) + Join(deps, "\n") + "\n", '\n') == CondaHeaderLines + deps + [""]
  {
    var deps := SortedEntries(packages, CondaEntry);
    if SingleLinePackages(packages) && deps != [] {
      EntriesOfLinesAreLines();
      EntriesAreLines(packages, CondaEntry);
      HeaderLinesSingle();
      LineTemplateLines(CondaHeaderLines, deps);
    }
  }

  // ---------------------------------------------------------------------------
  // `exportEnvironment`

  /** `exportEnvironment(format)` over the parsed `pip list`: `None` for an unsupported format, which throws. */
  function ExportEnvironment(format: string, packages: seq<Package>): (r: Option<EnvironmentExport>)
    ensures r.None? <==> format != "requirements" && format != "pyproject" && format != "conda"
    ensures r.Some? ==> r.value.format == format
    ensures format == "requirements" ==> r == Some(EnvironmentExport(format, ExportToRequirements(packages)))
    ensures format == "pyproject" ==> r == Some(EnvironmentExport(format, ExportToPyproject(packages)))
    ensures format == "conda" ==> r == Some(EnvironmentExport(format, ExportToConda(packages)))
  {
    if format == "requirements" then Some(EnvironmentExport(format, ExportToRequirements(packages)))
    else if format == "pyproject" then Some(EnvironmentExport(format, ExportToPyproject(packages)))
    else if format == "conda" then Some(EnvironmentExport(format, ExportToConda(packages)))
    else None
  }

  /** The filter ignores case: "JSON" is left out of an export. */
  lemma FilterIgnoresCase(version: string)
    ensures NonStdlib([DependencyGraph.Package("JSON", version)]) == []
  {
    Stdlib.LookupsDisagreeOnCase();
  }

  /** Nothing is deduplicated: a package listed twice gives two entries. */
  lemma DuplicatesKept(p: Package)
    requires !Stdlib.IsStandardLibraryIgnoringCase(p.name)
    ensures |SortedEntries([p, p], RequirementEntry)| == 2
  {
    assert [p, p][1..] == [p];
    assert NonStdlib([p]) == [p];
    assert NonStdlib([p, p]) == [p, p];
  }
}

=== FILE: file_parsers.dfy ===
/**
 * `parseRequirementLine`, `extractNameFromUrl` and the line loops of
 * `parseRequirementsTxt`, `parsePyprojectToml` and `parsePipfile`, over the
 * file content as a string (reading the file is left to the caller).
 */
module FileParsers {
  import opened Wrappers
  import opened Strings
  import opened LineScan

  /** `ParsedRequirement`; `extras` is never set by the parser and is not modelled. */
  datatype Requirement = Requirement(name: string, version: Option<string>, url: Option<string>, editable: bool)

  /** The characters the name pattern `[^=<>!]+` stops at. */
  predicate IsOperator(c: char) {
    c == '=' || c == '<' || c == '>' || c == '!'
  }

  /** The longest prefix of `s` without an operator character. */
  function LeadingName(s: string): (r: string)
    ensures StartsWith(s, r)
    ensures forall i :: 0 <= i < |r| ==> !IsOperator(r[i])
    ensures |r| < |s| ==> IsOperator(s[|r|])
  {
    if |s| == 0 || IsOperator(s[0]) then "" else [s[0]] + LeadingName(s[1..])
  }

  /**
   * `s.match(/^([^=<>!]+)(.*)$/)`: the two groups, or nothing. The first group
   * is greedy, and `.` does not match a line terminator, so the remainder must
   * be free of them.
   */
  function MatchNameSpec(s: string): (r: Option<(string, string)>)
    ensures r.Some? ==> r.value.0 + r.value.1 == s && |r.value.0| > 0
  {
    var n := LeadingName(s);
    var rest := s[|n|..];
    if |n| == 0 || exists i :: 0 <= i < |rest| && IsLineTerminator(rest[i]) then None
    else Some((n, rest))
  }

  predicate IsNameChar(c: char) {
    ('a' <= c <= 'z') || ('A' <= c <= 'Z') || ('0' <= c <= '9') || c == '_' || c == '-'
  }

  /** `s.replace(/suffix$/, '')`. */
  function DropSuffix(s: string, suffix: string): (r: string)
    ensures EndsWith(s, suffix) ==> r + suffix == s
    ensures !EndsWith(s, suffix) ==> r == s
  {
    if EndsWith(s, suffix) then s[..|s| - |suffix|] else s
  }

  /** `s.replace(/[^a-zA-Z0-9_-]/g, '')`. */
  function KeepNameChars(s: string): (r: string)
    ensures forall i :: 0 <= i < |r| ==> IsNameChar(r[i])
    ensures |r| <= |s|
  {
    if |s| == 0 then ""
    else (if IsNameChar(s[0]) then [s[0]] else "") + KeepNameChars(s[1..])
  }

  /**
   * `extractNameFromUrl`: the last `/` segment with `.git`, `.tar.gz` and
   * `.zip` suffixes removed in that order and every character outside
   * `[a-zA-Z0-9_-]` deleted; "unknown" when the last segment is empty.
   */
  function ExtractNameFromUrl(url: string): (r: string)
    ensures Split(url, '/')[|Split(url, '/')| - 1] == "" ==> r == "unknown"
    ensures Split(url, '/')[|Split(url, '/')| - 1] != "" ==> forall i :: 0 <= i < |r| ==> IsNameChar(r[i])
  {
    var parts := Split(url, '/');
    var last := parts[|parts| - 1];
    if last == "" then "unknown"
    else KeepNameChars(DropSuffix(DropSuffix(DropSuffix(last, ".git"), ".tar.gz"), ".zip"))
  }

  predicate IsUrl(s: string) {
    StartsWith(s, "http://") || StartsWith(s, "https://") || StartsWith(s, "git+")
  }

  predicate IsEditable(s: string) {
    StartsWith(s, "-e ") || StartsWith(s, "--editable ")
  }

  lemma EditableHasSpace(s: string)
    requires IsEditable(s)
    ensures ' ' in s
  {
    if StartsWith(s, "-e ") {
      assert s[..3][2] == ' ';
    } else {
      assert s[..11][10] == ' ';
    }
  }

  /** The line `parseRequirementLine` works on: one quote stripped from each end, then trimmed. */
  function CleanLine(line: string): string {
    Trim(StripQuotes(line))
  }

  /** The requirement text after an editable flag: everything after the first space. */
  function AfterFirstSpace(s: string): (r: string)
    requires ' ' in s
    ensures |r| < |s| && r == s[|s| - |r|..]
    ensures s[|s| - |r| - 1] == ' ' && ' ' !in s[..|s| - |r| - 1]
  {
    s[|UpTo(s, ' ')| + 1..]
  }

  /** The trimmed groups: the name has no operator, and a non-empty version starts with one. */
  lemma MatchedParts(req: string)
    requires MatchNameSpec(req).Some?
    ensures var (n, spec) := MatchNameSpec(req).value;
            && (forall i :: 0 <= i < |Trim(n)| ==> !IsOperator(Trim(n)[i]))
            && (Trim(spec) != "" ==> IsOperator(Trim(spec)[0]))
  {
    var (n, spec) := MatchNameSpec(req).value;
    TrimInfix(n);
    if |spec| > 0 {
      assert spec[0] == req[|n|];
      TrimKeepsFirst(spec);
    }
  }

  /**
   * The name/version branch of `parseRequirementLine`: the trimmed first
   * group as name, null when it is empty, and the trimmed second group as
   * version, absent when empty.
   */
  function ParseNameSpec(req: string, editable: bool): (r: Option<Requirement>)
    ensures r.Some? ==> r.value.url.None? && r.value.editable == editable
    ensures r.Some? ==>
              && r.value.name != "" && Trimmed(r.value.name)
              && (forall i :: 0 <= i < |r.value.name| ==> !IsOperator(r.value.name[i]))
              && (r.value.version.Some? ==> r.value.version.value != "" && Trimmed(r.value.version.value) && IsOperator(r.value.version.value[0]))
  {
    match MatchNameSpec(req)
    case None => None
    case Some((n, spec)) =>
      var name := Trim(n);
      var version := Trim(spec);
      MatchedParts(req);
      if name == "" then None
      else Some(Requirement(name, if version == "" then None else Some(version), None, editable))
  }

  /** `cleanRequirement`: after `-e ` or `--editable `, what follows the first space; otherwise the whole cleaned line. */
  function RequirementText(clean: string): (r: string)
    ensures IsEditable(clean) ==> ' ' in clean && r == AfterFirstSpace(clean)
    ensures !IsEditable(clean) ==> r == clean
  {
    if IsEditable(clean) then EditableHasSpace(clean); AfterFirstSpace(clean) else clean
  }

  /**
   * `parseRequirementLine`: null for a blank or comment line, for a line
   * starting with an operator and for an empty name; a URL requirement keeps
   * the whole URL and has no version; otherwise the trimmed name and the
   * trimmed rest as version (absent when empty).
   */
  function ParseRequirementLine(line: string): (r: Option<Requirement>)
    ensures CleanLine(line) == "" || StartsWith(CleanLine(line), "#") ==> r.None?
    ensures r.Some? ==> r.value.editable == IsEditable(CleanLine(line))
    ensures r.Some? && r.value.url.Some? ==> r.value.version.None? && IsUrl(r.value.url.value)
    ensures r.Some? && r.value.url.Some? ==>
              r.value.url.value == RequirementText(CleanLine(line)) && r.value.name == ExtractNameFromUrl(r.value.url.value)
    ensures CleanLine(line) != "" && !StartsWith(CleanLine(line), "#") && IsUrl(RequirementText(CleanLine(line))) ==>
              r.Some? && r.value.url == Some(RequirementText(CleanLine(line)))
    ensures CleanLine(line) != "" && !StartsWith(CleanLine(line), "#") && !IsUrl(RequirementText(CleanLine(line))) ==>
              r == ParseNameSpec(RequirementText(CleanLine(line)), IsEditable(CleanLine(line)))
    ensures r.Some? && r.value.url.None? ==>
              && r.value.name != "" && Trimmed(r.value.name)
              && (forall i :: 0 <= i < |r.value.name| ==> !IsOperator(r.value.name[i]))
              && (r.value.version.Some? ==> r.value.version.value != "" && Trimmed(r.value.version.value) && IsOperator(r.value.version.value[0]))
  {
    var clean := CleanLine(line);
    if clean == "" || StartsWith(clean, "#") then None
    else
      var editable := IsEditable(clean);
      var req := RequirementText(clean);
      if IsUrl(req) then Some(Requirement(ExtractNameFromUrl(req), None, Some(req), editable))
      else ParseNameSpec(req, editable)
  }

  // ---------------------------------------------------------------------------
  // Rendering a requirement and parsing it back

  /** A character of a PEP 508 project name. */
  predicate IsProjectNameChar(c: char) {
    ('a' <= c <= 'z') || ('A' <= c <= 'Z') || ('0' <= c <= '9') || c == '_' || c == '-' || c == '.'
  }

  /** A project name as PEP 508 writes it: name characters, starting with a letter or digit. */
  predicate ProjectName(name: string) {
    && |name| > 0
    && (('a' <= name[0] <= 'z') || ('A' <= name[0] <= 'Z') || ('0' <= name[0] <= '9'))
    && forall i :: 0 <= i < |name| ==> IsProjectNameChar(name[i])
  }

  /** A version specifier as it follows a name: empty, or starting with an operator, with no outer space, line break or trailing quote. */
  predicate Specifier(spec: string) {
    spec == [] || (
      && IsOperator(spec[0]) && Trimmed(spec) && !IsQuote(spec[|spec| - 1])
      && forall i :: 0 <= i < |spec| ==> !IsLineTerminator(spec[i]))
  }

  lemma {:induction false} LeadingNameOfAppend(name: string, spec: string)
    requires forall i :: 0 <= i < |name| ==> !IsOperator(name[i])
    requires spec == [] || IsOperator(spec[0])
    ensures LeadingName(name + spec) == name
  {
    if |name| > 0 {
      assert (name + spec)[1..] == name[1..] + spec;
      LeadingNameOfAppend(name[1..], spec);
    } else {
      assert name + spec == spec;
    }
  }

  lemma NotPrefixAt(s: string, p: string, k: nat)
    requires k < |p| && (k < |s| ==> s[k] != p[k])
    ensures !StartsWith(s, p)
  {
  }

  /** A rendered requirement cannot start with a prefix whose character at `k` is neither a name character nor an operator, nor with one that has a letter where the specifier begins. */
  lemma RenderedLacksPrefix(name: string, spec: string, p: string, k: nat)
    requires ProjectName(name) && Specifier(spec)
    requires k < |p| && !IsProjectNameChar(p[k]) && !IsOperator(p[k])
    requires forall j :: 0 <= j < k ==> !IsOperator(p[j])
    ensures !StartsWith(name + spec, p)
  {
    var s := name + spec;
    if |name| > k {
      assert s[k] == name[k];
      NotPrefixAt(s, p, k);
    } else if |s| > |name| {
      assert s[|name|] == spec[0];
      NotPrefixAt(s, p, |name|);
    } else {
      assert |s| <= k;
      NotPrefixAt(s, p, k);
    }
  }

  lemma CleanOfRendered(name: string, spec: string)
    requires ProjectName(name) && Specifier(spec)
    ensures CleanLine(name + spec) == name + spec
  {
    var s := name + spec;
    assert s[0] == name[0];
    assert s[|s| - 1] == if spec == [] then name[|name| - 1] else spec[|spec| - 1];
    assert StripQuotes(s) == s;
    TrimOfTrimmed(s);
  }

  /** A rendered requirement is none of the special forms: no comment, editable flag or URL. */
  lemma RenderedIsPlain(name: string, spec: string)
    requires ProjectName(name) && Specifier(spec)
    ensures var s := name + spec;
            !StartsWith(s, "#") && !IsEditable(s) && !IsUrl(s)
  {
    var s := name + spec;
    assert s[0] == name[0];
    NotPrefixAt(s, "#", 0);
    NotPrefixAt(s, "-e ", 0);
    NotPrefixAt(s, "--editable ", 0);
    RenderedLacksPrefix(name, spec, "http://", 4);
    RenderedLacksPrefix(name, spec, "https://", 5);
    RenderedLacksPrefix(name, spec, "git+", 3);
  }

  /**
   * Parsing undoes rendering: `name + spec` parses to that name with that
   * specifier as version (none when the specifier is empty).
   */
  lemma ParseRenderedRequirement(name: string, spec: string)
    requires ProjectName(name) && Specifier(spec)
    ensures ParseRequirementLine(name + spec)
         == Some(Requirement(name, if spec == [] then None else Some(spec), None, false))
  {
    var s := name + spec;
    CleanOfRendered(name, spec);
    RenderedIsPlain(name, spec);
    ParsePlain(s);
    ProjectNameIsPlain(name);
    ParseNameSpecOf(name, spec, false);
  }

  /** A project name holds no operator and no outer space. */
  lemma ProjectNameIsPlain(name: string)
    requires ProjectName(name)
    ensures forall i :: 0 <= i < |name| ==> !IsOperator(name[i])
    ensures Trimmed(name)
  {
    assert IsProjectNameChar(name[|name| - 1]);
  }

  // ---------------------------------------------------------------------------
  // The unit tests of `parseRequirementLine`, and quirks of the parser

  lemma BareNameExample()
    ensures ParseRequirementLine("requests") == Some(Requirement("requests", None, None, false))
  {
    assert "requests" + "" == "requests";
    ParseRenderedRequirement("requests", "");
  }

  lemma PinnedVersionExample()
    ensures ParseRequirementLine("requests==2.28.0") == Some(Requirement("requests", Some("==2.28.0"), None, false))
  {
    assert "requests" + "==2.28.0" == "requests==2.28.0";
    ParseRenderedRequirement("requests", "==2.28.0");
  }

  lemma EmptyLineExample()
    ensures ParseRequirementLine("") == None
  {
  }

  lemma CommentExample()
    ensures ParseRequirementLine("# This is a comment") == None
  {
    var s := "# This is a comment";
    assert StripQuotes(s) == s;
    TrimOfTrimmed(s);
  }

  /** A line with no outer space or quote is its own clean line. */
  lemma CleanOfPlain(s: string)
    requires |s| > 0 && !IsSpace(s[0]) && !IsSpace(s[|s| - 1]) && !IsQuote(s[0]) && !IsQuote(s[|s| - 1])
    ensures CleanLine(s) == s
  {
    TrimOfTrimmed(s);
  }

  /** The name/version split of a requirement that is `name + spec` around its first operator. */
  lemma NameSpecOf(name: string, spec: string)
    requires |name| > 0 && forall i :: 0 <= i < |name| ==> !IsOperator(name[i])
    requires spec == [] || IsOperator(spec[0])
    requires forall i :: 0 <= i < |spec| ==> !IsLineTerminator(spec[i])
    ensures MatchNameSpec(name + spec) == Some((name, spec))
  {
    LeadingNameOfAppend(name, spec);
    assert (name + spec)[|name|..] == spec;
  }

  /** A line that is none of the special forms goes straight to the name/version split. */
  lemma ParsePlain(s: string)
    requires CleanLine(s) == s && s != "" && !StartsWith(s, "#") && !IsEditable(s) && !IsUrl(s)
    ensures ParseRequirementLine(s) == ParseNameSpec(s, false)
  {
  }

  /** An editable line whose requirement is none of the special forms goes to the name/version split. */
  lemma ParseEditable(s: string)
    requires CleanLine(s) == s && IsEditable(s) && !StartsWith(s, "#")
    requires ' ' in s && !IsUrl(AfterFirstSpace(s))
    ensures ParseRequirementLine(s) == ParseNameSpec(AfterFirstSpace(s), true)
  {
  }

  lemma AfterEditableFlag(rest: string)
    ensures ' ' in "-e " + rest && AfterFirstSpace("-e " + rest) == rest
  {
    var s := "-e " + rest;
    assert s[2] == ' ';
    assert s == "-e" + " " + rest;
    assert UpTo(s, ' ') == "-e";
  }

  /** The name/version split of a name with no outer space and a trimmed specifier. */
  lemma ParseNameSpecOf(name: string, spec: string, editable: bool)
    requires |name| > 0 && forall i :: 0 <= i < |name| ==> !IsOperator(name[i])
    requires spec == [] || IsOperator(spec[0])
    requires forall i :: 0 <= i < |spec| ==> !IsLineTerminator(spec[i])
    requires Trimmed(name) && Trimmed(spec)
    ensures ParseNameSpec(name + spec, editable)
         == Some(Requirement(name, if spec == [] then None else Some(spec), None, editable))
  {
    NameSpecOf(name, spec);
    TrimOfTrimmed(name);
    TrimOfTrimmed(spec);
  }

  lemma EditableSplit()
    ensures ParseNameSpec("./local-package", true) == Some(Requirement("./local-package", None, None, true))
  {
    var rest := "./local-package";
    assert rest + "" == rest;
    ParseNameSpecOf(rest, "", true);
  }

  /** A requirement starting with neither `h` nor `g` is no URL. */
  lemma NotUrlByFirstChar(s: string)
    requires |s| > 0 && s[0] != 'h' && s[0] != 'g'
    ensures !IsUrl(s)
  {
    NotPrefixAt(s, "http://", 0);
    NotPrefixAt(s, "https://", 0);
    NotPrefixAt(s, "git+", 0);
  }

  /** `-e ` followed by anything is an editable line and no comment. */
  lemma EditableFlagLine(rest: string)
    ensures IsEditable("-e " + rest) && !StartsWith("-e " + rest, "#")
  {
    var s := "-e " + rest;
    assert s[..3] == "-e ";
    NotPrefixAt(s, "#", 0);
  }

  /** `-e ` followed by a plain path parses the path as an editable name-and-spec requirement. */
  lemma EditableOf(rest: string)
    requires |rest| > 0 && rest[0] != 'h' && rest[0] != 'g'
    requires !IsSpace(rest[|rest| - 1]) && !IsQuote(rest[|rest| - 1])
    ensures ParseRequirementLine("-e " + rest) == ParseNameSpec(rest, true)
  {
    var s := "-e " + rest;
    assert CleanLine(s) == s by {
      assert s[0] == '-' && s[|s| - 1] == rest[|rest| - 1];
      CleanOfPlain(s);
    }
    EditableFlagLine(rest);
    AfterEditableFlag(rest);
    NotUrlByFirstChar(rest);
    ParseEditable(s);
  }

  lemma EditableExample()
    ensures ParseRequirementLine("-e ./local-package") == Some(Requirement("./local-package", None, None, true))
  {
    var rest := "./local-package";
    assert "-e ./local-package" == "-e " + rest;
    EditableOf(rest);
    EditableSplit();
  }

  /** The special forms are recognised by their first character, so a line starting with any other character is plain. */
  lemma PlainByFirstChar(s: string)
    requires |s| > 0 && s[0] != '#' && s[0] != '-' && s[0] != 'h' && s[0] != 'g'
    ensures !StartsWith(s, "#") && !IsEditable(s) && !IsUrl(s)
  {
    NotPrefixAt(s, "#", 0);
    NotPrefixAt(s, "-e ", 0);
    NotPrefixAt(s, "--editable ", 0);
    NotUrlByFirstChar(s);
  }

  /** A line that starts with an operator has no name and is dropped. */
  lemma OperatorFirstIsDropped()
    ensures ParseRequirementLine("==1.0") == None
  {
    var s := "==1.0";
    CleanOfPlain(s);
    PlainByFirstChar(s);
    ParsePlain(s);
    assert LeadingName(s) == "";
  }

  lemma ExtrasSplit()
    ensures ParseNameSpec("requests[security]>=2.0", false)
         == Some(Requirement("requests[security]", Some(">=2.0"), None, false))
  {
    var name, spec := "requests[security]", ">=2.0";
    assert "requests[security]>=2.0" == name + spec;
    ParseNameSpecOf(name, spec, false);
  }

  /** Extras are not split off: they stay part of the name. */
  lemma ExtrasStayInName()
    ensures ParseRequirementLine("requests[security]>=2.0")
         == Some(Requirement("requests[security]", Some(">=2.0"), None, false))
  {
    var s := "requests[security]>=2.0";
    CleanOfPlain(s);
    PlainByFirstChar(s);
    ParsePlain(s);
    ExtrasSplit();
  }

  /** The last `/` segment of `prefix + "/" + last`, for a `last` without `/`. */
  lemma LastSegment(prefix: string, last: string)
    requires '/' !in last
    ensures Split(prefix + "/" + last, '/')[|Split(prefix + "/" + last, '/')| - 1] == last
  {
    SplitAppend(prefix, last, '/');
    SplitNoSeparator(last, '/');
  }

  lemma DropSuffixOf(s: string, suffix: string)
    ensures DropSuffix(s + suffix, suffix) == s
  {
    assert (s + suffix)[|s|..] == suffix;
  }

  lemma {:induction false} KeepNameCharsOfName(s: string)
    requires forall i :: 0 <= i < |s| ==> IsNameChar(s[i])
    ensures KeepNameChars(s) == s
  {
    if |s| > 0 {
      KeepNameCharsOfName(s[1..]);
      assert [s[0]] + s[1..] == s;
    }
  }

  /** A string of name characters does not end in a suffix that starts with a dot. */
  lemma NotDotSuffix(name: string, suffix: string)
    requires forall i :: 0 <= i < |name| ==> IsNameChar(name[i])
    requires |suffix| > 0 && suffix[0] == '.'
    ensures !EndsWith(name, suffix)
  {
  }

  /** The name extracted from a URL whose last segment is a plain name followed by `.git`. */
  lemma UrlNameOfGitRepo(prefix: string, name: string)
    requires |name| > 0 && forall i :: 0 <= i < |name| ==> IsNameChar(name[i])
    ensures ExtractNameFromUrl(prefix + "/" + name + ".git") == name
  {
    var last := name + ".git";
    assert prefix + "/" + name + ".git" == prefix + "/" + last;
    assert '/' !in last by {
      assert forall i :: 0 <= i < |last| ==> last[i] == (if i < |name| then name[i] else ".git"[i - |name|]);
    }
    LastSegment(prefix, last);
    DropSuffixOf(name, ".git");
    NotDotSuffix(name, ".tar.gz");
    NotDotSuffix(name, ".zip");
    KeepNameCharsOfName(name);
  }

  /** `git+https://github.com/psf/requests.git` is named "requests". */
  lemma UrlNameExample()
    ensures ExtractNameFromUrl("git+https://github.com/psf/requests.git") == "requests"
  {
    assert "git+https://github.com/psf/requests.git" == "git+https://github.com/psf" + "/" + "requests" + ".git";
    UrlNameOfGitRepo("git+https://github.com/psf", "requests");
  }

  /** A URL ending in `/` has no last segment and is named "unknown". */
  lemma TrailingSlashIsUnknown(prefix: string)
    ensures ExtractNameFromUrl(prefix + "/") == "unknown"
  {
    var url := prefix + "/";
    var parts := Split(url, '/');
    assert parts[|parts| - 1] == "" by {
      assert url == prefix + "/" + "";
      LastSegment(prefix, "");
    }
  }

  /** A last segment that is only a suffix gives the empty name, not "unknown". */
  lemma BareSuffixGivesEmptyName(prefix: string)
    ensures ExtractNameFromUrl(prefix + "/.git") == ""
  {
    assert prefix + "/.git" == prefix + "/" + ".git";
    LastSegment(prefix, ".git");
    DropSuffixOf("", ".git");
    assert "" + ".git" == ".git";
  }

  // ---------------------------------------------------------------------------
  // The line loops over a manifest's content

  /** `if (requirement) requirements.push(requirement)`. */
  function Pushed(r: Option<Requirement>): (out: seq<Requirement>)
    ensures r.None? ==> out == []
    ensures r.Some? ==> out == [r.value]
  {
    if r.Some? then [r.value] else []
  }

  /** What the parser promises of every requirement it returns: a name, unless it is a URL requirement. */
  predicate Named(r: Requirement) {
    r.url.Some? || r.name != ""
  }

  /** One line of `parseRequirementsTxt`: blank and `#` lines are skipped, the rest parsed trimmed. */
  function TxtStep(line: string, u: ()): (a: Action<(), Requirement>)
    ensures a.Emit? && forall i :: 0 <= i < |a.out| ==> Named(a.out[i])
  {
    var t := Trim(line);
    if t == "" || StartsWith(t, "#") then Emit([], ())
    else Emit(Pushed(ParseRequirementLine(t)), ())
  }

  /** `parseRequirementsTxt` over the file content. */
  function ParseRequirementsTxt(content: string): (r: seq<Requirement>)
    ensures forall i :: 0 <= i < |r| ==> Named(r[i])
  {
    ScanKeeps(TxtStep, Named, Split(content, '\n'), ());
    Scan(TxtStep, Split(content, '\n'), ())
  }

  /** The requirements of two files joined by a line break are those of each, in order. */
  lemma RequirementsTxtAppend(a: string, b: string)
    ensures ParseRequirementsTxt(a + "\n" + b) == ParseRequirementsTxt(a) + ParseRequirementsTxt(b)
  {
    SplitAppend(a, b, '\n');
    NeverStops(TxtStep, Split(a, '\n'), ());
    ScanAppend(TxtStep, Split(a, '\n'), Split(b, '\n'), ());
  }

  /** A single line contributes nothing when blank or a comment, and its parsed requirement otherwise. */
  lemma RequirementsTxtLine(line: string)
    requires '\n' !in line
    ensures ParseRequirementsTxt(line) == TxtLine(Trim(line))
  {
    SplitNoSeparator(line, '\n');
    assert [line][1..] == [];
    assert TxtStep(line, ()).out == TxtLine(Trim(line));
    assert Scan(TxtStep, [line], ()) == TxtStep(line, ()).out + Scan(TxtStep, [], ());
  }

  /** What one trimmed line of a requirements file contributes. */
  function TxtLine(t: string): (r: seq<Requirement>)
    ensures t == "" || StartsWith(t, "#") ==> r == []
    ensures t != "" && !StartsWith(t, "#") ==> r == Pushed(ParseRequirementLine(t))
  {
    if t == "" || StartsWith(t, "#") then [] else Pushed(ParseRequirementLine(t))
  }

  /** A line `[...]` that opens a section. */
  predicate IsHeader(t: string) {
    StartsWith(t, "[")
  }

  /** The requirements parsed from the lines of `body` whose trimmed text passes `keep`, in order. */
  function Kept(body: seq<string>, keep: string -> bool): seq<Requirement> {
    if |body| == 0 then [] else KeptLine(body[0], keep) + Kept(body[1..], keep)
  }

  /** What one line contributes to `Kept`. */
  function KeptLine(line: string, keep: string -> bool): seq<Requirement> {
    if keep(Trim(line)) then Pushed(ParseRequirementLine(Trim(line))) else []
  }

  /** The lines of a section: none of them is a header. */
  predicate SectionBody(body: seq<string>) {
    forall i :: 0 <= i < |body| ==> !IsHeader(Trim(body[i]))
  }

  // `parsePipfile`

  /** One line of `parsePipfile`, whose state is "inside `[packages]`". */
  function PipfileStep(line: string, inPackages: bool): (a: Action<bool, Requirement>)
    ensures a.Emit?
  {
    var t := Trim(line);
    if t == "[packages]" then Emit([], true)
    else if IsHeader(t) then Emit([], false)
    else if inPackages && Contains(t, "=") then Emit(Pushed(ParseRequirementLine(t)), inPackages)
    else Emit([], inPackages)
  }

  /** `parsePipfile` over the file content. */
  function ParsePipfile(content: string): (r: seq<Requirement>)
    ensures (forall i :: 0 <= i < |Split(content, '\n')| ==> Trim(Split(content, '\n')[i]) != "[packages]") ==> r == []
  {
    PipfileOutsideAll(Split(content, '\n'));
    Scan(PipfileStep, Split(content, '\n'), false)
  }

  predicate HasEquals(t: string) {
    Contains(t, "=")
  }

  /** Inside `[packages]`, exactly the lines containing `=` are parsed. */
  lemma {:induction false} PipfilePackages(body: seq<string>)
    requires SectionBody(body)
    ensures Scan(PipfileStep, body, true) == Kept(body, HasEquals)
  {
    if |body| > 0 {
      assert SectionBody(body[1..]) by {
        forall i | 0 <= i < |body[1..]| ensures !IsHeader(Trim(body[1..][i])) {
          assert body[1..][i] == body[i + 1];
        }
      }
      PipfilePackages(body[1..]);
      PipfileBodyLine(body[0]);
    }
  }

  /** One line inside `[packages]`. */
  lemma PipfileBodyLine(line: string)
    requires !IsHeader(Trim(line))
    ensures PipfileStep(line, true) == Emit(KeptLine(line, HasEquals), true)
  {
    var t := Trim(line);
    assert t != "[packages]" by {
      if t == "[packages]" {
        assert StartsWith(t, "[");
      }
    }
    if HasEquals(t) {
      assert PipfileStep(line, true) == Emit(Pushed(ParseRequirementLine(t)), true);
    } else {
      assert PipfileStep(line, true) == Emit([], true);
    }
  }

  /** Outside `[packages]`, and until a `[packages]` line, nothing is parsed. */
  lemma {:induction false} PipfileOutside(lines: seq<string>)
    requires forall i :: 0 <= i < |lines| ==> Trim(lines[i]) != "[packages]"
    ensures Scan(PipfileStep, lines, false) == []
  {
    if |lines| > 0 {
      assert forall i :: 0 <= i < |lines[1..]| ==> Trim(lines[1..][i]) != "[packages]" by {
        forall i | 0 <= i < |lines[1..]| ensures Trim(lines[1..][i]) != "[packages]" {
          assert lines[1..][i] == lines[i + 1];
        }
      }
      PipfileOutside(lines[1..]);
    }
  }

  lemma PipfileOutsideAll(lines: seq<string>)
    ensures (forall i :: 0 <= i < |lines| ==> Trim(lines[i]) != "[packages]") ==> Scan(PipfileStep, lines, false) == []
  {
    if forall i :: 0 <= i < |lines| ==> Trim(lines[i]) != "[packages]" {
      PipfileOutside(lines);
    }
  }

  /** Any other header closes `[packages]`. */
  lemma PipfileHeaderCloses(header: string, rest: seq<string>, inPackages: bool)
    requires IsHeader(Trim(header)) && Trim(header) != "[packages]"
    ensures Scan(PipfileStep, [header] + rest, inPackages) == Scan(PipfileStep, rest, false)
  {
    assert ([header] + rest)[1..] == rest;
  }

  // `parsePyprojectToml`

  /** The state of `parsePyprojectToml`: inside `[tool.poetry.dependencies]`, inside `[project]`. */
  datatype PyprojectState = PyprojectState(inDependencies: bool, inProject: bool)

  /** One line of `parsePyprojectToml`. */
  function PyprojectStep(line: string, st: PyprojectState): (a: Action<PyprojectState, Requirement>)
    ensures a.Emit?
  {
    var t := Trim(line);
    if t == "[project]" then Emit([], PyprojectState(false, true))
    else if t == "[tool.poetry.dependencies]" then Emit([], PyprojectState(true, false))
    else if IsHeader(t) then Emit([], PyprojectState(false, false))
    else if st.inDependencies && StartsWith(t, "python") then Emit([], st)
    else if (st.inDependencies || (st.inProject && StartsWith(t, "dependencies"))) && Contains(t, "=") then
      Emit(Pushed(ParseRequirementLine(t)), st)
    else Emit([], st)
  }

  /** `parsePyprojectToml` over the file content. */
  function ParsePyprojectToml(content: string): (r: seq<Requirement>)
    ensures (forall i :: 0 <= i < |Split(content, '\n')| ==>
               Trim(Split(content, '\n')[i]) != "[project]" && Trim(Split(content, '\n')[i]) != "[tool.poetry.dependencies]")
            ==> r == []
  {
    PyprojectOutsideAll(Split(content, '\n'));
    Scan(PyprojectStep, Split(content, '\n'), PyprojectState(false, false))
  }

  predicate PoetryDependencyLine(t: string) {
    !StartsWith(t, "python") && Contains(t, "=")
  }

  predicate ProjectDependencyLine(t: string) {
    StartsWith(t, "dependencies") && Contains(t, "=")
  }

  /** Inside `[tool.poetry.dependencies]`, the lines with `=` are parsed, except those starting with `python`. */
  lemma {:induction false} PoetryDependencies(body: seq<string>)
    requires SectionBody(body)
    ensures Scan(PyprojectStep, body, PyprojectState(true, false)) == Kept(body, PoetryDependencyLine)
  {
    if |body| > 0 {
      assert SectionBody(body[1..]) by {
        forall i | 0 <= i < |body[1..]| ensures !IsHeader(Trim(body[1..][i])) {
          assert body[1..][i] == body[i + 1];
        }
      }
      PoetryDependencies(body[1..]);
      PoetryDependenciesLine(body[0]);
    }
  }

  /** One line of the section. */
  lemma PoetryDependenciesLine(line: string)
    requires !IsHeader(Trim(line))
    ensures PyprojectStep(line, PyprojectState(true, false)) == Emit(KeptLine(line, PoetryDependencyLine), PyprojectState(true, false))
  {
  }

  /** Inside `[project]`, only the lines starting with `dependencies` and containing `=` are parsed. */
  lemma {:induction false} ProjectDependencies(body: seq<string>)
    requires SectionBody(body)
    ensures Scan(PyprojectStep, body, PyprojectState(false, true)) == Kept(body, ProjectDependencyLine)
  {
    if |body| > 0 {
      assert SectionBody(body[1..]) by {
        forall i | 0 <= i < |body[1..]| ensures !IsHeader(Trim(body[1..][i])) {
          assert body[1..][i] == body[i + 1];
        }
      }
      ProjectDependencies(body[1..]);
      ProjectDependenciesLine(body[0]);
    }
  }

  /** One line of the section. */
  lemma ProjectDependenciesLine(line: string)
    requires !IsHeader(Trim(line))
    ensures PyprojectStep(line, PyprojectState(false, true)) == Emit(KeptLine(line, ProjectDependencyLine), PyprojectState(false, true))
  {
  }

  /** Outside both sections, and until one of them opens, nothing is parsed. */
  lemma {:induction false} PyprojectOutside(lines: seq<string>)
    requires forall i :: 0 <= i < |lines| ==>
               Trim(lines[i]) != "[project]" && Trim(lines[i]) != "[tool.poetry.dependencies]"
    ensures Scan(PyprojectStep, lines, PyprojectState(false, false)) == []
  {
    if |lines| > 0 {
      assert forall i :: 0 <= i < |lines[1..]| ==>
               Trim(lines[1..][i]) != "[project]" && Trim(lines[1..][i]) != "[tool.poetry.dependencies]" by {
        forall i | 0 <= i < |lines[1..]|
          ensures Trim(lines[1..][i]) != "[project]" && Trim(lines[1..][i]) != "[tool.poetry.dependencies]"
        {
          assert lines[1..][i] == lines[i + 1];
        }
      }
      PyprojectOutside(lines[1..]);
    }
  }

  lemma PyprojectOutsideAll(lines: seq<string>)
    ensures (forall i :: 0 <= i < |lines| ==> Trim(lines[i]) != "[project]" && Trim(lines[i]) != "[tool.poetry.dependencies]")
            ==> Scan(PyprojectStep, lines, PyprojectState(false, false)) == []
  {
    if forall i :: 0 <= i < |lines| ==> Trim(lines[i]) != "[project]" && Trim(lines[i]) != "[tool.poetry.dependencies]" {
      PyprojectOutside(lines);
    }
  }

  /** Any other header closes both sections. */
  lemma PyprojectHeaderCloses(header: string, rest: seq<string>, st: PyprojectState)
    requires IsHeader(Trim(header)) && Trim(header) != "[project]" && Trim(header) != "[tool.poetry.dependencies]"
    ensures Scan(PyprojectStep, [header] + rest, st) == Scan(PyprojectStep, rest, PyprojectState(false, false))
  {
    assert ([header] + rest)[1..] == rest;
  }

  /**
   * The PEP 621 `dependencies = [...]` line of `[project]` is itself parsed as
   * one requirement, named "dependencies", whose version is the rest of the
   * line (`spec` is that rest, starting with `=`).
   */
  lemma ProjectDependenciesArrayIsOneRequirement(spec: string)
    requires Specifier(spec) && spec != []
    ensures ParseRequirementLine("dependencies" + " " + spec)
         == Some(Requirement("dependencies", Some(spec), None, false))
  {
    DependenciesLineIsPlain(spec);
    DependenciesIsAName();
    ParseNameSpecPadded("dependencies", spec, false);
  }

  lemma DependenciesIsAName()
    ensures var name := "dependencies";
            |name| > 0 && Trimmed(name) && forall i :: 0 <= i < |name| ==> !IsOperator(name[i])
  {
  }

  lemma DependenciesLineIsPlain(spec: string)
    requires Specifier(spec) && spec != []
    ensures var s := "dependencies" + " " + spec;
            ParseRequirementLine(s) == ParseNameSpec(s, false)
  {
    var s := "dependencies" + " " + spec;
    assert s[0] == 'd' && s[|s| - 1] == spec[|spec| - 1];
    CleanOfPlain(s);
    PlainByFirstChar(s);
    ParsePlain(s);
  }

  /** The name/version split when one space separates the name from the specifier. */
  lemma ParseNameSpecPadded(name: string, spec: string, editable: bool)
    requires |name| > 0 && Trimmed(name) && forall i :: 0 <= i < |name| ==> !IsOperator(name[i])
    requires Specifier(spec) && spec != []
    ensures ParseNameSpec(name + " " + spec, editable) == Some(Requirement(name, Some(spec), None, editable))
  {
    var padded := name + " ";
    assert name + " " + spec == padded + spec;
    NameSpecOf(padded, spec);
    assert padded == "" + name + " ";
    TrimOfPadded("", name, " ");
    TrimOfTrimmed(spec);
  }
}

=== FILE: licenses.dfy ===
/**
 * `checkLicenses` once `pip list` and `pip show` have run: the license line of
 * each package's `pip show` output, its category by priority-ordered keyword
 * rules, and the warnings about copyleft, proprietary and unknown licenses.
 */
module Licenses {
  import opened Wrappers
  import opened Strings
  import DependencyGraph
  import opened Sequences

  type Package = DependencyGraph.Package

  datatype Category = Permissive | Copyleft | Proprietary | PublicDomain | UnknownCategory

  /** `LicenseInfo`. */
  datatype LicenseInfo = LicenseInfo(name: string, version: string, license: string, category: Category)

  /** `LicenseCheck`. */
  datatype LicenseCheck = LicenseCheck(packages: seq<LicenseInfo>, warnings: seq<string>)

  const LicenseLabel := "License:"
  const UnknownLicense := "Unknown"

  // ---------------------------------------------------------------------------
  // `extractLicenseFromShow`

  /** A line whose trimmed text starts with `License:`. */
  predicate IsLicenseLine(line: string) {
    StartsWith(Trim(line), LicenseLabel)
  }

  /** The trimmed text after `License:`. */
  function LicenseOfLine(line: string): (r: string)
    requires IsLicenseLine(line)
    ensures Trimmed(r)
  {
    Trim(Trim(line)[|LicenseLabel|..])
  }

  /** The license of the first license line, or "Unknown" when there is none. */
  function FirstLicense(lines: seq<string>): (r: string)
    ensures (forall i :: 0 <= i < |lines| ==> !IsLicenseLine(lines[i])) ==> r == UnknownLicense
    ensures r == UnknownLicense || exists i :: 0 <= i < |lines| && IsLicenseLine(lines[i]) && r == LicenseOfLine(lines[i])
  {
    if |lines| == 0 then UnknownLicense
    else if IsLicenseLine(lines[0]) then LicenseOfLine(lines[0])
    else
      var r := FirstLicense(lines[1..]);
      assert forall i :: 0 <= i < |lines[1..]| ==> lines[1..][i] == lines[i + 1];
      r
  }

  /** The license comes from the first license line: later ones are never read. */
  lemma {:induction false} FirstLicenseIsLeftmost(lines: seq<string>, k: nat)
    requires k < |lines| && IsLicenseLine(lines[k])
    requires forall j :: 0 <= j < k ==> !IsLicenseLine(lines[j])
    ensures FirstLicense(lines) == LicenseOfLine(lines[k])
  {
    if k > 0 {
      assert !IsLicenseLine(lines[0]);
      var rest := lines[1..];
      forall j | 0 <= j < k - 1
        ensures !IsLicenseLine(rest[j])
      {
        assert rest[j] == lines[j + 1];
      }
      assert rest[k - 1] == lines[k];
      FirstLicenseIsLeftmost(rest, k - 1);
    }
  }

  /** `extractLicenseFromShow(showOutput)`. */
  function ExtractLicenseFromShow(showOutput: string): (r: string)
    ensures (forall i :: 0 <= i < |Split(showOutput, '\n')| ==> !IsLicenseLine(Split(showOutput, '\n')[i])) ==> r == UnknownLicense
    ensures forall k :: FirstLicenseLineAt(Split(showOutput, '\n'), k) ==> r == LicenseOfLine(Split(showOutput, '\n')[k])
  {
    FirstLicenseIsFirst(Split(showOutput, '\n'));
    FirstLicense(Split(showOutput, '\n'))
  }

  /** Line `k` is the first license line. */
  predicate FirstLicenseLineAt(lines: seq<string>, k: int) {
    0 <= k < |lines| && IsLicenseLine(lines[k]) && forall j :: 0 <= j < k ==> !IsLicenseLine(lines[j])
  }

  lemma FirstLicenseIsFirst(lines: seq<string>)
    ensures forall k :: FirstLicenseLineAt(lines, k) ==> FirstLicense(lines) == LicenseOfLine(lines[k])
  {
    forall k | FirstLicenseLineAt(lines, k)
      ensures FirstLicense(lines) == LicenseOfLine(lines[k])
    {
      FirstLicenseIsLeftmost(lines, k);
    }
  }

  // ---------------------------------------------------------------------------
  // `categorizeLicense`

  predicate PermissiveText(l: string) {
    Contains(l, "mit") || Contains(l, "bsd") || Contains(l, "apache")
  }

  predicate CopyleftText(l: string) {
    Contains(l, "gpl") || Contains(l, "copyleft") || Contains(l, "agpl")
  }

  predicate ProprietaryText(l: string) {
    Contains(l, "proprietary") || Contains(l, "commercial") || Contains(l, "private")
  }

  predicate PublicDomainText(l: string) {
    Contains(l, "public domain") || Contains(l, "unlicense")
  }

  /**
   * `categorizeLicense(license)`: the keyword groups are tried on the
   * lower-cased text in priority order, and the first group with a keyword
   * anywhere in the text decides.
   */
  function CategorizeLicense(license: string): (c: Category)
    ensures var l := ToLower(license);
            && (c == Permissive <==> PermissiveText(l))
            && (c == Copyleft <==> !PermissiveText(l) && CopyleftText(l))
            && (c == Proprietary <==> !PermissiveText(l) && !CopyleftText(l) && ProprietaryText(l))
            && (c == PublicDomain <==> !PermissiveText(l) && !CopyleftText(l) && !ProprietaryText(l) && PublicDomainText(l))
  {
    var l := ToLower(license);
    if PermissiveText(l) then Permissive
    else if CopyleftText(l) then Copyleft
    else if ProprietaryText(l) then Proprietary
    else if PublicDomainText(l) then PublicDomain
    else UnknownCategory
  }

  /** The categories ignore case. */
  lemma CategoryIgnoresCase(license: string)
    ensures CategorizeLicense(ToLower(license)) == CategorizeLicense(license)
  {
    ToLowerIdempotent(license);
  }

  lemma ContainsInfix(pre: string, x: string, post: string)
    ensures Contains(pre + x + post, x)
  {
    assert OccursAt(pre + x + post, x, |pre|);
  }

  /** A permissive keyword anywhere wins over every other keyword in the text. */
  lemma PermissiveKeywordWins(pre: string, post: string)
    ensures CategorizeLicense(pre + "MIT" + post) == Permissive
  {
    ToLowerConcat(pre + "MIT", post);
    ToLowerConcat(pre, "MIT");
    assert ToLower("MIT") == "mit";
    ContainsInfix(ToLower(pre), "mit", ToLower(post));
  }

  /** A dual-licensed package is permissive: "MIT OR GPL". */
  lemma DualLicenseIsPermissive()
    ensures CategorizeLicense("MIT OR GPL") == Permissive
  {
    PermissiveKeywordWins("", " OR GPL");
    assert "" + "MIT" + " OR GPL" == "MIT OR GPL";
  }

  /** A keyword whose first letter does not occur in the text is not in it. */
  lemma FirstCharAbsent(s: string, sub: string)
    requires |sub| > 0 && sub[0] !in s
    ensures !Contains(s, sub)
  {
  }

  lemma UnknownLower()
    ensures ToLower(UnknownLicense) == "unknown"
  {
  }

  lemma UnknownNotUnlicense()
    ensures !Contains("unknown", "unlicense")
  {
  }

  /** The "Unknown" license that a failed lookup records is itself in the unknown category. */
  lemma UnknownIsUnknown()
    ensures CategorizeLicense(UnknownLicense) == UnknownCategory
  {
    UnknownLower();
    UnknownNoKeyword();
  }

  /** "unknown" contains none of the keywords. */
  lemma UnknownNoKeyword()
    ensures !PermissiveText("unknown") && !CopyleftText("unknown")
    ensures !ProprietaryText("unknown") && !PublicDomainText("unknown")
  {
    UnknownNotPermissive();
    UnknownNotCopyleft();
    UnknownNotProprietary();
    UnknownNotPublicDomain();
  }

  lemma UnknownNotPermissive()
    ensures !PermissiveText("unknown")
  {
    FirstCharAbsent("unknown", "mit");
    FirstCharAbsent("unknown", "bsd");
    FirstCharAbsent("unknown", "apache");
  }

  lemma UnknownNotCopyleft()
    ensures !CopyleftText("unknown")
  {
    FirstCharAbsent("unknown", "gpl");
    FirstCharAbsent("unknown", "copyleft");
    FirstCharAbsent("unknown", "agpl");
  }

  lemma UnknownNotProprietary()
    ensures !ProprietaryText("unknown")
  {
    FirstCharAbsent("unknown", "proprietary");
    FirstCharAbsent("unknown", "commercial");
    FirstCharAbsent("unknown", "private");
  }

  lemma UnknownNotPublicDomain()
    ensures !PublicDomainText("unknown")
  {
    FirstCharAbsent("unknown", "public domain");
    UnknownNotUnlicense();
  }

  // ---------------------------------------------------------------------------
  // `extractLicenseInfo`

  /**
   * One package's entry: the license from its `pip show` output (`None` when
   * the command failed) with its category; "Unknown"/unknown on failure.
   */
  function PackageLicense(p: Package, show: Option<string>): (r: LicenseInfo)
    ensures r.name == p.name && r.version == p.version
    ensures show.None? ==> r.license == UnknownLicense && r.category == UnknownCategory
    ensures r.category == CategorizeLicense(r.license)
  {
    match show
    case None =>
      UnknownIsUnknown();
      LicenseInfo(p.name, p.version, UnknownLicense, UnknownCategory)
    case Some(output) =>
      var license := ExtractLicenseFromShow(output);
      LicenseInfo(p.name, p.version, license, CategorizeLicense(license))
  }

  /** `extractLicenseInfo(venvInfo, packages)`, with `pip show` as a lookup. */
  function ExtractLicenseInfo(packages: seq<Package>, show: string -> Option<string>): (r: seq<LicenseInfo>)
    ensures |r| == |packages|
    ensures forall i :: 0 <= i < |packages| ==> r[i] == PackageLicense(packages[i], show(packages[i].name))
  {
    if |packages| == 0 then []
    else [PackageLicense(packages[0], show(packages[0].name))] + ExtractLicenseInfo(packages[1..], show)
  }

  /** Every entry keeps its package's name and version, and its category is that of its license. */
  lemma LicenseInfoConsistent(packages: seq<Package>, show: string -> Option<string>)
    ensures forall i :: 0 <= i < |packages| ==>
              var e := ExtractLicenseInfo(packages, show)[i];
              e.name == packages[i].name && e.version == packages[i].version && e.category == CategorizeLicense(e.license)
  {
  }

  /** A failed lookup records the same entry as output without a license line. */
  lemma FailureLikeMissingLicenseLine(p: Package, output: string)
    requires forall i :: 0 <= i < |Split(output, '\n')| ==> !IsLicenseLine(Split(output, '\n')[i])
    ensures PackageLicense(p, None) == PackageLicense(p, Some(output))
  {
    UnknownIsUnknown();
  }

  // ---------------------------------------------------------------------------
  // `generateLicenseWarnings`

  /** The names of the entries in category `c`, in order: `filter` then `map(p => p.name)`. */
  function NamesIn(info: seq<LicenseInfo>, c: Category): (r: seq<string>)
    ensures |r| <= |info|
    ensures forall x :: x in r ==> exists i :: 0 <= i < |info| && info[i].category == c && info[i].name == x
  {
    if |info| == 0 then []
    else
      var rest := NamesIn(info[1..], c);
      assert forall i :: 0 <= i < |info[1..]| ==> info[1..][i] == info[i + 1];
      (if info[0].category == c then [info[0].name] else []) + rest
  }

  lemma {:induction false} NamesInAppend(a: seq<LicenseInfo>, b: seq<LicenseInfo>, c: Category)
    ensures NamesIn(a + b, c) == NamesIn(a, c) + NamesIn(b, c)
  {
    if |a| == 0 {
      assert a + b == b;
    } else {
      assert (a + b)[0] == a[0];
      assert (a + b)[1..] == a[1..] + b;
      NamesInAppend(a[1..], b, c);
      AppendAssoc(if a[0].category == c then [a[0].name] else [], NamesIn(a[1..], c), NamesIn(b, c));
    }
  }

  /** An entry is counted under its category only. */
  lemma {:induction false} NamesInEmpty(info: seq<LicenseInfo>, c: Category)
    ensures NamesIn(info, c) == [] <==> forall i :: 0 <= i < |info| ==> info[i].category != c
  {
    if |info| > 0 {
      NamesInEmpty(info[1..], c);
      assert forall i :: 1 <= i < |info| ==> info[i] == info[1..][i - 1];
    }
  }

  const CopyleftLabel := " copyleft packages: "
  const ProprietaryLabel := " proprietary packages: "
  const UnknownLabel := " packages with unknown licenses: "

  /** At most one warning about `names`: their count and their names, comma-separated. */
  function WarningFor(names: seq<string>, kind: string): (r: seq<string>)
    ensures |r| <= 1
    ensures |r| == 1 <==> names != []
    ensures names != [] ==> r[0] == "Found " + NatToString(|names|) + kind + Join(names, ", ")
  {
    if |names| == 0 then [] else ["Found " + NatToString(|names|) + kind + Join(names, ", ")]
  }

  /** `generateLicenseWarnings(licenseInfo)`: copyleft, proprietary and unknown, in that order. */
  function GenerateLicenseWarnings(info: seq<LicenseInfo>): (r: seq<string>)
    ensures |r| == (if NamesIn(info, Copyleft) != [] then 1 else 0)
                   + (if NamesIn(info, Proprietary) != [] then 1 else 0)
                   + (if NamesIn(info, UnknownCategory) != [] then 1 else 0)
    ensures var names := NamesIn(info, Copyleft);
            names != [] ==> r[0] == "Found " + NatToString(|names|) + CopyleftLabel + Join(names, ", ")
    ensures var names, at := NamesIn(info, Proprietary), if NamesIn(info, Copyleft) != [] then 1 else 0;
            names != [] ==> r[at] == "Found " + NatToString(|names|) + ProprietaryLabel + Join(names, ", ")
    ensures var names, at := NamesIn(info, UnknownCategory), |r| - 1;
            names != [] ==> r[at] == "Found " + NatToString(|names|) + UnknownLabel + Join(names, ", ")
  {
    WarningFor(NamesIn(info, Copyleft), CopyleftLabel)
      + WarningFor(NamesIn(info, Proprietary), ProprietaryLabel)
      + WarningFor(NamesIn(info, UnknownCategory), UnknownLabel)
  }

  predicate Warns(c: Category) {
    c == Copyleft || c == Proprietary || c == UnknownCategory
  }

  /** No warning at all exactly when every package is permissive or public domain. */
  lemma NoWarningsIff(info: seq<LicenseInfo>)
    ensures GenerateLicenseWarnings(info) == [] <==> forall i :: 0 <= i < |info| ==> !Warns(info[i].category)
  {
    NamesInEmpty(info, Copyleft);
    NamesInEmpty(info, Proprietary);
    NamesInEmpty(info, UnknownCategory);
  }

  /** Permissive and public-domain packages never add or change a warning. */
  lemma QuietCategoriesDoNotWarn(info: seq<LicenseInfo>, e: LicenseInfo)
    requires !Warns(e.category)
    ensures GenerateLicenseWarnings(info + [e]) == GenerateLicenseWarnings(info)
  {
    NamesInAppend(info, [e], Copyleft);
    NamesInAppend(info, [e], Proprietary);
    NamesInAppend(info, [e], UnknownCategory);
    assert NamesIn([e], Copyleft) == [] && NamesIn([e], Proprietary) == [] && NamesIn([e], UnknownCategory) == [];
    assert NamesIn(info, Copyleft) + [] == NamesIn(info, Copyleft);
    assert NamesIn(info, Proprietary) + [] == NamesIn(info, Proprietary);
    assert NamesIn(info, UnknownCategory) + [] == NamesIn(info, UnknownCategory);
  }

  /** A copyleft package joins the end of the copyleft warning and raises its count. */
  lemma CopyleftPackageReported(info: seq<LicenseInfo>, e: LicenseInfo)
    requires e.category == Copyleft
    ensures |GenerateLicenseWarnings(info + [e])| >= 1
    ensures GenerateLicenseWarnings(info + [e])[0]
            == "Found " + NatToString(|NamesIn(info, Copyleft)| + 1) + CopyleftLabel + Join(NamesIn(info, Copyleft) + [e.name], ", ")
  {
    assert NamesIn(info + [e], Copyleft) == NamesIn(info, Copyleft) + [e.name] by {
      NamesInAppend(info, [e], Copyleft);
      assert NamesIn([e], Copyleft) == [e.name];
    }
    CopyleftWarningText(info + [e], NamesIn(info, Copyleft) + [e.name]);
  }

  /** With copyleft packages, the first warning is theirs. */
  lemma CopyleftWarningText(info: seq<LicenseInfo>, names: seq<string>)
    requires NamesIn(info, Copyleft) == names && names != []
    ensures |GenerateLicenseWarnings(info)| >= 1
    ensures GenerateLicenseWarnings(info)[0] == "Found " + NatToString(|names|) + CopyleftLabel + Join(names, ", ")
  {
  }

  /** `checkLicenses` once `pip list` has been parsed, with `pip show` as a lookup. */
  function CheckLicenses(packages: seq<Package>, show: string -> Option<string>): (r: LicenseCheck)
    ensures |r.packages| == |packages|
    ensures forall i :: 0 <= i < |packages| ==> r.packages[i] == PackageLicense(packages[i], show(packages[i].name))
    ensures r.warnings == GenerateLicenseWarnings(r.packages)
  {
    var info := ExtractLicenseInfo(packages, show);
    LicenseCheck(info, GenerateLicenseWarnings(info))
  }
}

=== FILE: line_scan.dfy ===
/**
 * The shape every manifest and `pip show` parser in the server shares: a
 * `for (const line of lines)` loop that carries a little state (the current
 * section, a flag), may append values, and may `break`.
 */
module LineScan {
  import opened Wrappers

  /** What one iteration does: append `out` and go on in state `next`, or append `out` and `break`. */
  datatype Action<S, T> = Emit(out: seq<T>, next: S) | Stop(out: seq<T>)

  /** The values the loop appends, in order, starting in state `s`. */
  function Scan<S, T>(step: (string, S) -> Action<S, T>, lines: seq<string>, s: S): seq<T> {
    if |lines| == 0 then []
    else
      match step(lines[0], s)
      case Emit(out, next) => out + Scan(step, lines[1..], next)
      case Stop(out) => out
  }

  /** The loop reaches a `break` somewhere in `lines`. */
  predicate Stops<S, T>(step: (string, S) -> Action<S, T>, lines: seq<string>, s: S) {
    |lines| > 0 &&
      match step(lines[0], s)
      case Emit(_, next) => Stops(step, lines[1..], next)
      case Stop(_) => true
  }

  /** The state after `lines`, for a loop that does not stop in them. */
  function StateAfter<S, T>(step: (string, S) -> Action<S, T>, lines: seq<string>, s: S): S
    requires !Stops(step, lines, s)
  {
    if |lines| == 0 then s
    else StateAfter(step, lines[1..], step(lines[0], s).next)
  }

  /** Until it stops, the loop handles the lines one by one: it distributes over concatenation. */
  lemma {:induction false} ScanAppend<S, T>(step: (string, S) -> Action<S, T>, a: seq<string>, b: seq<string>, s: S)
    requires !Stops(step, a, s)
    ensures Scan(step, a + b, s) == Scan(step, a, s) + Scan(step, b, StateAfter(step, a, s))
  {
    if |a| == 0 {
      assert a + b == b;
    } else {
      var next := step(a[0], s).next;
      assert (a + b)[0] == a[0];
      assert (a + b)[1..] == a[1..] + b;
      ScanAppend(step, a[1..], b, next);
      var x, y, z := step(a[0], s).out, Scan(step, a[1..], next), Scan(step, b, StateAfter(step, a[1..], next));
      assert x + (y + z) == (x + y) + z;
    }
  }

  /** After a `break` nothing more is read. */
  lemma ScanStopsAt<S, T>(step: (string, S) -> Action<S, T>, a: seq<string>, line: string, b: seq<string>, s: S)
    requires !Stops(step, a, s)
    requires step(line, StateAfter(step, a, s)).Stop?
    ensures Scan(step, a + [line] + b, s) == Scan(step, a, s) + step(line, StateAfter(step, a, s)).out
  {
    assert a + [line] + b == a + ([line] + b);
    ScanAppend(step, a, [line] + b, s);
    assert ([line] + b)[0] == line;
  }

  /** A line that does not `break` appends its values and hands its state on to the rest. */
  lemma ScanEmitsAt<S, T>(step: (string, S) -> Action<S, T>, a: seq<string>, line: string, b: seq<string>, s: S)
    requires !Stops(step, a, s)
    requires step(line, StateAfter(step, a, s)).Emit?
    ensures var act := step(line, StateAfter(step, a, s));
            Scan(step, a + [line] + b, s) == Scan(step, a, s) + act.out + Scan(step, b, act.next)
  {
    var act := step(line, StateAfter(step, a, s));
    assert a + [line] + b == a + ([line] + b);
    ScanAppend(step, a, [line] + b, s);
    assert ([line] + b)[0] == line;
    assert ([line] + b)[1..] == b;
    assert Scan(step, [line] + b, StateAfter(step, a, s)) == act.out + Scan(step, b, act.next);
  }

  /** Whatever holds of every value one iteration appends holds of everything the loop appends. */
  lemma {:induction false} ScanKeeps<S, T>(step: (string, S) -> Action<S, T>, p: T -> bool, lines: seq<string>, s: S)
    requires forall line, s' :: forall i :: 0 <= i < |step(line, s').out| ==> p(step(line, s').out[i])
    ensures forall i :: 0 <= i < |Scan(step, lines, s)| ==> p(Scan(step, lines, s)[i])
  {
    if |lines| > 0 {
      match step(lines[0], s)
      case Emit(out, next) =>
        ScanKeeps(step, p, lines[1..], next);
        var rest := Scan(step, lines[1..], next);
        assert Scan(step, lines, s) == out + rest;
        assert forall i :: 0 <= i < |out| ==> p(out[i]);
      case Stop(out) =>
    }
  }

  /** A loop whose iterations all append nothing appends nothing. */
  lemma {:induction false} ScanSilent<S, T>(step: (string, S) -> Action<S, T>, lines: seq<string>, s: S)
    requires forall i, s' :: 0 <= i < |lines| ==> step(lines[i], s').out == []
    ensures Scan(step, lines, s) == []
  {
    if |lines| > 0 {
      assert step(lines[0], s).out == [];
      match step(lines[0], s)
      case Emit(_, next) =>
        assert forall i, s' :: 0 <= i < |lines[1..]| ==> step(lines[1..][i], s').out == [] by {
          forall i, s' | 0 <= i < |lines[1..]| ensures step(lines[1..][i], s').out == [] {
            assert lines[1..][i] == lines[i + 1];
          }
        }
        ScanSilent(step, lines[1..], next);
      case Stop(_) =>
    }
  }

  /** A loop without a `break` never stops. */
  lemma {:induction false} NeverStops<S, T>(step: (string, S) -> Action<S, T>, lines: seq<string>, s: S)
    requires forall line, s' :: step(line, s').Emit?
    ensures !Stops(step, lines, s)
  {
    if |lines| > 0 {
      NeverStops(step, lines[1..], step(lines[0], s).next);
    }
  }

  /**
   * A loop that only looks for one line: `f` reads a line, and the first line
   * it reads something from ends the loop with that value.
   */
  function FirstSome<T(==)>(f: string -> Option<T>, lines: seq<string>): (r: Option<T>)
    ensures r.None? <==> forall i :: 0 <= i < |lines| ==> f(lines[i]).None?
    ensures r.Some? ==> exists i :: 0 <= i < |lines| && f(lines[i]) == r && forall j :: 0 <= j < i ==> f(lines[j]).None?
  {
    if |lines| == 0 then None
    else if f(lines[0]).Some? then f(lines[0])
    else
      var r := FirstSome(f, lines[1..]);
      assert forall i :: 0 <= i < |lines[1..]| ==> lines[1..][i] == lines[i + 1];
      if r.Some? then
        var i :| 0 <= i < |lines[1..]| && f(lines[1..][i]) == r && forall j :: 0 <= j < i ==> f(lines[1..][j]).None?;
        assert f(lines[i + 1]) == r && forall j :: 0 <= j < i + 1 ==> f(lines[j]).None?;
        r
      else r
  }

  /** `i` is the first line `f` reads something from. */
  predicate FirstSomeAt<T>(f: string -> Option<T>, lines: seq<string>, i: int) {
    0 <= i < |lines| && f(lines[i]).Some? && forall j :: 0 <= j < i ==> f(lines[j]).None?
  }

  /** The loop returns what the first line `f` reads something from gives. */
  lemma FirstSomeFound<T>(f: string -> Option<T>, lines: seq<string>)
    ensures forall i :: FirstSomeAt(f, lines, i) ==> FirstSome(f, lines) == f(lines[i])
  {
    forall i | FirstSomeAt(f, lines, i) ensures FirstSome(f, lines) == f(lines[i]) {
      var r := FirstSome(f, lines);
      assert r.Some?;
      var k :| 0 <= k < |lines| && f(lines[k]) == r && forall j :: 0 <= j < k ==> f(lines[j]).None?;
      assert k == i;
    }
  }

  /** Lines before the first one `f` reads something from do not matter. */
  lemma {:induction false} FirstSomeSkips<T>(f: string -> Option<T>, skipped: seq<string>, rest: seq<string>)
    requires forall i :: 0 <= i < |skipped| ==> f(skipped[i]).None?
    ensures FirstSome(f, skipped + rest) == FirstSome(f, rest)
  {
    if |skipped| > 0 {
      assert (skipped + rest)[0] == skipped[0];
      assert (skipped + rest)[1..] == skipped[1..] + rest;
      assert forall i :: 0 <= i < |skipped[1..]| ==> skipped[1..][i] == skipped[i + 1];
      FirstSomeSkips(f, skipped[1..], rest);
    } else {
      assert skipped + rest == rest;
    }
  }

  /** Lines after the first one `f` reads something from are never read. */
  lemma FirstSomeStops<T>(f: string -> Option<T>, line: string, rest: seq<string>)
    requires f(line).Some?
    ensures FirstSome(f, [line] + rest) == f(line)
  {
    assert ([line] + rest)[0] == line;
  }
}

=== FILE: outdated.dfy ===
/**
 * `checkOutdated` after `pip list --outdated` has been parsed: each entry is
 * classified as a major, minor or patch upgrade, and one upgrade command is
 * rendered for all of them.
 */
module Outdated {
  import opened Strings
  import opened Versions

  /** An entry of `pip list --outdated --format=json`. */
  datatype PipOutdated = PipOutdated(name: string, version: string, latestVersion: string)

  datatype UpgradeType = Major | Minor | Patch

  /** `OutdatedPackage`. */
  datatype OutdatedPackage = OutdatedPackage(name: string, currentVersion: string, latestVersion: string, upgradeType: UpgradeType)

  /** `OutdatedCheck`. */
  datatype OutdatedCheck = OutdatedCheck(outdated: seq<OutdatedPackage>, upgradeCommand: string)

  /**
   * `determineUpgradeType`: segment 0, then segment 1, compared with `!==`.
   * Nothing is padded, so a missing segment differs from a present one, and a
   * NaN segment differs from everything.
   */
  function DetermineUpgradeType(current: string, latest: string): (t: UpgradeType)
    ensures t == Major <==> !StrictEquals(PartAt(Parts(current), 0), PartAt(Parts(latest), 0))
    ensures t == Patch <==> StrictEquals(PartAt(Parts(current), 0), PartAt(Parts(latest), 0))
                            && StrictEquals(PartAt(Parts(current), 1), PartAt(Parts(latest), 1))
    ensures t == Minor <==> StrictEquals(PartAt(Parts(current), 0), PartAt(Parts(latest), 0))
                            && !StrictEquals(PartAt(Parts(current), 1), PartAt(Parts(latest), 1))
  {
    var currentParts := Parts(current);
    var latestParts := Parts(latest);
    if !StrictEquals(PartAt(currentParts, 0), PartAt(latestParts, 0)) then Major
    else if !StrictEquals(PartAt(currentParts, 1), PartAt(latestParts, 1)) then Minor
    else Patch
  }

  /** A version whose first two dot-separated pieces are decimal numbers. */
  predicate NumericMajorMinor(v: string) {
    var pieces := Split(v, '.');
    |pieces| >= 2 && AllDigits(pieces[0]) && AllDigits(pieces[1])
  }

  /**
   * On versions with numeric major and minor segments the classifier is the
   * natural one: major when the majors differ, minor when only the minors
   * differ, patch otherwise.
   */
  lemma UpgradeTypeOfNumeric(current: string, latest: string)
    requires NumericMajorMinor(current) && NumericMajorMinor(latest)
    ensures var c, l := Parts(current), Parts(latest);
            DetermineUpgradeType(current, latest) ==
              if c[0].n != l[0].n then Major else if c[1].n != l[1].n then Minor else Patch
  {
  }

  /** A patch upgrade keeps the first two segments as `compareVersions` sees them. */
  lemma PatchKeepsMajorMinor(current: string, latest: string)
    requires DetermineUpgradeType(current, latest) == Patch
    ensures PartValue(Parts(current), 0) == PartValue(Parts(latest), 0)
    ensures PartValue(Parts(current), 1) == PartValue(Parts(latest), 1)
  {
  }

  /** A different first segment, as `compareVersions` reads it, is always a major upgrade. */
  lemma MajorWhenFirstSegmentsDiffer(current: string, latest: string)
    requires PartValue(Parts(current), 0) != PartValue(Parts(latest), 0)
    ensures DetermineUpgradeType(current, latest) == Major
  {
  }

  /** A non-numeric first segment makes every upgrade major, even to the same version. */
  lemma NaNMajorIsMajor(v: string)
    requires !AllDigits(Split(v, '.')[0])
    ensures DetermineUpgradeType(v, v) == Major
  {
  }

  /** No zero-padding: "1" to "1.0" is a minor upgrade although `compareVersions` finds them equal. */
  lemma MissingMinorIsMinor()
    ensures DetermineUpgradeType("1", "1.0") == Minor
    ensures CompareVersions("1", "1.0") == 0
  {
    PartsOfJoin("1.0", ["1", "0"]);
    PartsOfJoin("1", ["1"]);
    ComparePadsWithZeros();
    CompareAntisymmetric("1.0", "1");
  }

  const UpToDate := "All packages are up to date"
  const PipUpgrade := "pip install --upgrade "

  function OutdatedNames(outdated: seq<OutdatedPackage>): (r: seq<string>)
    ensures |r| == |outdated|
    ensures forall i :: 0 <= i < |outdated| ==> r[i] == outdated[i].name
  {
    if |outdated| == 0 then [] else [outdated[0].name] + OutdatedNames(outdated[1..])
  }

  /** `generateUpgradeCommand`: the fixed message for an empty list, else the upgrade of every name, in order. */
  function GenerateUpgradeCommand(outdated: seq<OutdatedPackage>): (r: string)
    ensures r == UpToDate <==> outdated == []
    ensures outdated != [] ==> StartsWith(r, PipUpgrade) && r[|PipUpgrade|..] == Join(OutdatedNames(outdated), " ")
  {
    if |outdated| == 0 then UpToDate
    else
      var r := PipUpgrade + Join(OutdatedNames(outdated), " ");
      assert r[0] == 'p';
      assert r[..|PipUpgrade|] == PipUpgrade;
      r
  }

  /**
   * When no name contains a space, the words of an upgrade command split back
   * into the names: `GenerateUpgradeCommand` puts `Join(OutdatedNames(outdated), " ")`
   * after `pip install --upgrade `, and that text splits at spaces into the names, in order.
   */
  lemma UpgradeCommandWords(outdated: seq<OutdatedPackage>)
    requires outdated != []
    requires forall i :: 0 <= i < |outdated| ==> ' ' !in outdated[i].name
    ensures Split(Join(OutdatedNames(outdated), " "), ' ') == OutdatedNames(outdated)
  {
    var names := OutdatedNames(outdated);
    assert forall i :: 0 <= i < |names| ==> ' ' !in names[i];
    SplitJoin(names, ' ');
  }

  /** The `outdatedData.map(...)` step. */
  function Classified(data: seq<PipOutdated>): (r: seq<OutdatedPackage>)
    ensures |r| == |data|
    ensures forall i :: 0 <= i < |data| ==>
              && r[i].name == data[i].name
              && r[i].currentVersion == data[i].version
              && r[i].latestVersion == data[i].latestVersion
              && r[i].upgradeType == DetermineUpgradeType(data[i].version, data[i].latestVersion)
  {
    if |data| == 0 then []
    else
      var p := data[0];
      [OutdatedPackage(p.name, p.version, p.latestVersion, DetermineUpgradeType(p.version, p.latestVersion))]
        + Classified(data[1..])
  }

  /** `checkOutdated` once `pip list --outdated` has been parsed. */
  function CheckOutdated(data: seq<PipOutdated>): (r: OutdatedCheck)
    ensures |r.outdated| == |data|
    ensures forall i :: 0 <= i < |data| ==>
              && r.outdated[i].name == data[i].name
              && r.outdated[i].currentVersion == data[i].version
              && r.outdated[i].latestVersion == data[i].latestVersion
              && r.outdated[i].upgradeType == DetermineUpgradeType(data[i].version, data[i].latestVersion)
    ensures r.upgradeCommand == UpToDate <==> data == []
    ensures data != [] ==> StartsWith(r.upgradeCommand, PipUpgrade)
                           && r.upgradeCommand[|PipUpgrade|..] == Join(OutdatedNames(r.outdated), " ")
  {
    var outdated := Classified(data);
    OutdatedCheck(outdated, GenerateUpgradeCommand(outdated))
  }
}

=== FILE: package_check.dfy ===
/**
 * `checkPackage`: what the server concludes from the text `pip show <name>`
 * prints. Finding the environment and running `pip show` are the caller's:
 * it says whether an environment was found and passes the command's output,
 * `None` when the command failed.
 */
module PackageCheck {
  import opened Wrappers
  import opened Strings
  import Versions

  /** `PackageCheck`: `version` and `matches` are present only for an installed package. */
  datatype Check = Check(installed: bool, version: Option<string>, matches: Option<bool>)

  const NotInstalled := Check(false, None, None)
  const NotFoundWarning := "WARNING: Package(s) not found"
  const VersionLabel := "Version: "

  /** `/Version: (.+)/` can match at `i`: the label, then a character that is not a line terminator. */
  predicate VersionAt(s: string, i: int) {
    OccursAt(s, VersionLabel, i) && i + |VersionLabel| < |s| && !IsLineTerminator(s[i + |VersionLabel|])
  }

  /** The greedy `.+`: the characters before the first line terminator. */
  function LineFrom(s: string): (r: string)
    ensures |r| <= |s| && r == s[..|r|]
    ensures forall k :: 0 <= k < |r| ==> !IsLineTerminator(r[k])
    ensures |r| == |s| || IsLineTerminator(s[|r|])
  {
    if |s| == 0 || IsLineTerminator(s[0]) then [] else [s[0]] + LineFrom(s[1..])
  }

  /** The capture group of the leftmost match of `/Version: (.+)/` that starts at or after `from`. */
  function FindVersion(s: string, from: nat): (r: Option<string>)
    ensures r.None? <==> forall k :: from <= k ==> !VersionAt(s, k)
    ensures r.Some? ==>
              exists k :: from <= k && VersionAt(s, k) && (forall j :: from <= j < k ==> !VersionAt(s, j))
                          && r.value == LineFrom(s[k + |VersionLabel|..])
    ensures r.Some? ==> r.value != ""
    decreases |s| - from
  {
    if from >= |s| then None
    else if VersionAt(s, from) then Some(LineFrom(s[from + |VersionLabel|..]))
    else FindVersion(s, from + 1)
  }

  /**
   * `checkPackage(packageName, version)`: `None` stands for the exception
   * thrown when no environment is found; a failed command, the "not found"
   * warning and output without a version line all mean "not installed".
   */
  function CheckPackage(venvFound: bool, output: Option<string>, version: Option<string>): (r: Option<Check>)
    ensures r.None? <==> !venvFound
    ensures venvFound && output.None? ==> r == Some(NotInstalled)
    ensures venvFound && output.Some? && Contains(output.value, NotFoundWarning) ==> r == Some(NotInstalled)
    ensures r.Some? && r.value.installed <==>
              venvFound && output.Some? && !Contains(output.value, NotFoundWarning)
              && exists k :: VersionAt(output.value, k)
    ensures r.Some? && !r.value.installed ==> r.value == NotInstalled
    ensures r.Some? && r.value.installed ==>
              r.value.version == FindVersion(output.value, 0) && r.value.version.value != ""
    ensures r.Some? && r.value.installed && (version.None? || version == Some("")) ==> r.value.matches == Some(true)
    ensures r.Some? && r.value.installed && version.Some? && version.value != "" ==>
              r.value.matches == Some(Versions.CheckVersionMatch(r.value.version.value, version.value))
  {
    if !venvFound then None
    else match output
      case None => Some(NotInstalled)
      case Some(out) =>
        if Contains(out, NotFoundWarning) then Some(NotInstalled)
        else match FindVersion(out, 0)
          case None => Some(NotInstalled)
          case Some(installedVersion) =>
            var matches := if version.Some? && version.value != "" then Versions.CheckVersionMatch(installedVersion, version.value) else true;
            Some(Check(true, Some(installedVersion), Some(matches)))
  }

  /** The version is the rest of its line: `.+` stops at the line terminator. */
  lemma {:induction false} LineFromOfLine(v: string, rest: string)
    requires forall k :: 0 <= k < |v| ==> !IsLineTerminator(v[k])
    ensures LineFrom(v + "\n" + rest) == v
  {
    if |v| > 0 {
      assert (v + "\n" + rest)[1..] == v[1..] + "\n" + rest;
      LineFromOfLine(v[1..], rest);
      assert v == [v[0]] + v[1..];
    }
  }

  /** Output that opens with a version line reports exactly that version. */
  lemma VersionLineFirst(v: string, rest: string, required: Option<string>)
    requires v != [] && forall k :: 0 <= k < |v| ==> !IsLineTerminator(v[k])
    requires !Contains(VersionLabel + v + "\n" + rest, NotFoundWarning)
    ensures var r := CheckPackage(true, Some(VersionLabel + v + "\n" + rest), required);
            r.Some? && r.value.installed && r.value.version == Some(v)
  {
    var s := VersionLabel + v + "\n" + rest;
    assert s[..|VersionLabel|] == VersionLabel;
    assert s[|VersionLabel|] == v[0];
    assert VersionAt(s, 0);
    assert s[|VersionLabel|..] == v + "\n" + rest;
    LineFromOfLine(v, rest);
  }

  /** A label at the end of a line does not match `/Version: (.+)/`; the search goes on to later lines. */
  lemma EmptyVersionLineSkipped(s: string, i: nat)
    requires OccursAt(s, VersionLabel, i) && i + |VersionLabel| < |s| && s[i + |VersionLabel|] == '\n'
    ensures !VersionAt(s, i)
  {
  }

  /** Without a version to check against, an installed package always matches. */
  lemma NoVersionAlwaysMatches(output: string)
    requires !Contains(output, NotFoundWarning)
    requires exists k :: VersionAt(output, k)
    ensures CheckPackage(true, Some(output), None) == Some(Check(true, FindVersion(output, 0), Some(true)))
  {
  }
}

=== FILE: package_list.dfy ===
/**
 * `listPackages`: the parsed `pip list` entries, sorted by name or by
 * version. Running `pip list`, parsing its JSON and the result cache are the
 * caller's; the name order is JavaScript's `localeCompare`, which the model
 * takes as a parameter: any total preorder on names.
 */
module PackageList {
  import opened Sorting
  import opened Versions
  import DependencyGraph

  type Package = DependencyGraph.Package

  /**
   * The copy of `compareVersions` in the package list, loop for loop: the
   * first segment position at which the zero-padded versions differ decides.
   * It computes the one definition of the version order.
   */
  method CompareVersionsLoop(version1: string, version2: string) returns (r: int)
    ensures r == CompareVersions(version1, version2)
    ensures r == -1 || r == 0 || r == 1
  {
    var v1Parts := Parts(version1);
    var v2Parts := Parts(version2);
    var maxLength := if |v1Parts| < |v2Parts| then |v2Parts| else |v1Parts|;
    var i := 0;
    while i < maxLength
      invariant i <= maxLength
      invariant CompareFrom(v1Parts, v2Parts, i, maxLength) == CompareFrom(v1Parts, v2Parts, 0, maxLength)
    {
      var v1Part := if i < |v1Parts| && v1Parts[i].Num? then v1Parts[i].n else 0;
      var v2Part := if i < |v2Parts| && v2Parts[i].Num? then v2Parts[i].n else 0;
      if v1Part > v2Part {
        return 1;
      }
      if v1Part < v2Part {
        return -1;
      }
      i := i + 1;
    }
    return 0;
  }

  /** The `sortBy` argument. */
  datatype SortKey = ByName | ByVersion

  /** `sortBy = 'name'`. */
  const DefaultSortKey := ByName

  /** "`a` may come before `b`" for the version comparator. */
  predicate VersionLe(a: Package, b: Package) {
    CompareVersions(a.version, b.version) <= 0
  }

  /** "`a` may come before `b`" for the name comparator. */
  function NameLe(localeLe: (string, string) -> bool): (le: (Package, Package) -> bool)
    ensures forall a, b :: le(a, b) == localeLe(a.name, b.name)
  {
    (a: Package, b: Package) => localeLe(a.name, b.name)
  }

  /** The version comparator is a total preorder, so sorting by it is well defined. */
  lemma VersionLeTotalPreorder()
    ensures TotalPreorder(VersionLe)
  {
    forall a: Package, b: Package ensures VersionLe(a, b) || VersionLe(b, a) {
      CompareAntisymmetric(a.version, b.version);
    }
    forall a: Package, b: Package, c: Package | VersionLe(a, b) && VersionLe(b, c) ensures VersionLe(a, c) {
      CompareTransitive(a.version, b.version, c.version);
    }
  }

  /** A total preorder on names is one on packages by name. */
  lemma NameLeTotalPreorder(localeLe: (string, string) -> bool)
    requires TotalPreorder(localeLe)
    ensures TotalPreorder(NameLe(localeLe))
  {
  }

  /**
   * The `packages.sort(...)` step: a permutation of the packages, ordered by
   * `compareVersions` or by the name order, ties kept in input order.
   */
  function SortPackages(packages: seq<Package>, sortBy: SortKey, localeLe: (string, string) -> bool): (r: seq<Package>)
    requires TotalPreorder(localeLe)
    ensures multiset(r) == multiset(packages)
    ensures sortBy == ByVersion ==>
              forall i, j :: 0 <= i < j < |r| ==> CompareVersions(r[i].version, r[j].version) <= 0
    ensures sortBy == ByName ==> forall i, j :: 0 <= i < j < |r| ==> localeLe(r[i].name, r[j].name)
  {
    match sortBy
    case ByVersion =>
      VersionLeTotalPreorder();
      SortBy(VersionLe, packages)
    case ByName =>
      NameLeTotalPreorder(localeLe);
      SortBy(NameLe(localeLe), packages)
  }

  /** Sorting adds and drops nothing: same length, and every package is still there. */
  lemma SortKeepsPackages(packages: seq<Package>, sortBy: SortKey, localeLe: (string, string) -> bool, p: Package)
    requires TotalPreorder(localeLe)
    ensures |SortPackages(packages, sortBy, localeLe)| == |packages|
    ensures p in SortPackages(packages, sortBy, localeLe) <==> p in packages
  {
    var r := SortPackages(packages, sortBy, localeLe);
    assert |multiset(r)| == |multiset(packages)|;
    assert p in multiset(r) <==> p in multiset(packages);
  }

  /** Packages with equal versions (such as "1.0" and "1") keep their `pip list` order. */
  lemma VersionSortStable(packages: seq<Package>, localeLe: (string, string) -> bool, y: Package)
    requires TotalPreorder(localeLe)
    ensures TiedWith(VersionLe, SortPackages(packages, ByVersion, localeLe), y) == TiedWith(VersionLe, packages, y)
  {
    VersionLeTotalPreorder();
    SortByStable(VersionLe, packages, y);
  }
}

=== FILE: pipenv.dfy ===
/**
 * The Pipenv manager's `parsePipfile` (the project name) and the defaults
 * `getPipenvInfo` fills in. The `pipenv` commands are the caller's: their
 * results arrive as arguments.
 */
module Pipenv {
  import opened Wrappers
  import opened Strings
  import opened LineScan
  import DependencyGraph

  type Package = DependencyGraph.Package

  /** `PipenvInfo`. */
  datatype PipenvInfo = PipenvInfo(
    projectName: string, pythonVersion: string, virtualEnvPath: string,
    dependencies: seq<Package>, devDependencies: seq<Package>, lockFileExists: bool)

  /**
   * What one line of `parsePipfile` reads: trimmed, when it starts with
   * "name", holds an `=` and the piece after the first `=` is not empty, that
   * piece without its quotes, and the loop breaks. The section is not looked
   * at, so `name = "pypi"` under `[[source]]` counts.
   */
  function NameValue(line: string): Option<string> {
    var t := Trim(line);
    ContainsChar(t, '=');
    if StartsWith(t, "name") && Contains(t, "=") then
      var value := KeyValue(t, '=').1;
      if value != "" then Some(StripQuotes(value)) else None
    else None
  }

  /** The `parsePipfile` loop over the lines: the name of the first line that gives one, and no name when none does. */
  function PipfileName(lines: seq<string>): (r: Option<string>)
    ensures r.None? <==> forall i :: 0 <= i < |lines| ==> NameValue(lines[i]).None?
    ensures r.Some? ==> exists i :: 0 <= i < |lines| && NameValue(lines[i]) == r
                                   && forall j :: 0 <= j < i ==> NameValue(lines[j]).None?
  {
    FirstSome(NameValue, lines)
  }

  /** No line gives a name. */
  predicate NoNameLine(lines: seq<string>) {
    forall i :: 0 <= i < |lines| ==> NameValue(lines[i]).None?
  }

  /** `parsePipfile(content)`. */
  function ParsePipfile(content: string): (r: Option<string>)
    ensures r.None? <==> NoNameLine(Split(content, '\n'))
  {
    PipfileName(Split(content, '\n'))
  }

  /**
   * `getPipenvInfo`. Without a Pipfile there is no result (the source
   * throws). Otherwise the name (default "unknown"), the trimmed output of
   * `pipenv --venv` and `pipenv --python`, the `pipenv graph` packages, all
   * empty when their command failed, and no dev dependencies.
   */
  function GetPipenvInfo(pipfile: Option<string>, venvOutput: Option<string>, pythonOutput: Option<string>,
                         graph: Option<seq<Package>>, lockFileExists: bool): (r: Option<PipenvInfo>)
    ensures r.None? <==> pipfile.None?
    ensures r.Some? ==>
              && r.value.projectName == OrElse(ParsePipfile(pipfile.value), "unknown")
              && Trimmed(r.value.virtualEnvPath) && Trimmed(r.value.pythonVersion)
              && (venvOutput.None? ==> r.value.virtualEnvPath == "")
              && (pythonOutput.None? ==> r.value.pythonVersion == "")
              && r.value.virtualEnvPath == Trim(venvOutput.GetOr(""))
              && r.value.pythonVersion == Trim(pythonOutput.GetOr(""))
              && r.value.dependencies == graph.GetOr([])
              && r.value.devDependencies == []
              && r.value.lockFileExists == lockFileExists
  {
    match pipfile
    case None => None
    case Some(content) =>
      Some(PipenvInfo(OrElse(ParsePipfile(content), "unknown"),
                      Trim(pythonOutput.GetOr("")), Trim(venvOutput.GetOr("")),
                      graph.GetOr([]), [], lockFileExists))
  }

  /** A header line gives no name. */
  lemma HeaderGivesNoName(header: string)
    requires StartsWith(Trim(header), "[")
    ensures NameValue(header).None?
  {
    var t := Trim(header);
    assert t[0] == '[';
    assert !StartsWith(t, "name");
  }

  /** Section headers are read like any other line and never give a name, so a `name` under `[[source]]` is taken. */
  lemma HeadersIgnored(header: string, rest: seq<string>)
    requires StartsWith(Trim(header), "[")
    ensures PipfileName([header] + rest) == PipfileName(rest)
  {
    HeaderGivesNoName(header);
    FirstSomeSkips(NameValue, [header], rest);
  }

  /** A line `key = value` whose key starts with "name", such as `names`, gives its value. */
  lemma KeyStartingWithName(key: string, value: string)
    requires StartsWith(key, "name") && Trimmed(key) && '=' !in key
    requires value != "" && Trimmed(value) && '=' !in value
    ensures NameValue(key + " = " + value) == Some(StripQuotes(value))
  {
    var line := key + " = " + value;
    assert line == key + " " + ['='] + " " + value;
    KeyValueSpaced(key, '=', value);
    assert Trimmed(line) by {
      assert line[0] == key[0];
      assert line[|line| - 1] == value[|value| - 1];
    }
    TrimOfTrimmed(line);
    assert StartsWith(line, "name") by {
      assert line[..4] == key[..4];
    }
    ContainsChar(line, '=');
  }

  /** `name = ""` ends the loop with an empty name, so a later name is never read and the project is "unknown". */
  lemma EmptyQuotedNameStops(q: char, rest: seq<string>)
    requires IsQuote(q)
    ensures PipfileName(["name = " + [q, q]] + rest) == Some("")
    ensures OrElse(PipfileName(["name = " + [q, q]] + rest), "unknown") == "unknown"
  {
    var line := "name = " + [q, q];
    assert line == "name" + " = " + [q, q];
    KeyStartingWithName("name", [q, q]);
    assert StripQuotes([q, q]) == "";
    FirstSomeStops(NameValue, line, rest);
  }

  /** A line `key=` has an empty value and gives no name. */
  lemma EmptyValueGivesNoName(key: string)
    requires Trimmed(key) && '=' !in key
    ensures NameValue(key + "=").None?
  {
    var line := key + "=";
    assert line == key + ['='] + "";
    KeyValueOfSingle(key, '=', "");
    assert Trimmed(line) by {
      assert line[|line| - 1] == '=';
      assert key != [] ==> line[0] == key[0];
    }
    TrimOfTrimmed(line);
  }

  /** A `name` line whose value is empty does not end the search: the lines after it are still read. */
  lemma EmptyValueDoesNotStop(key: string, rest: seq<string>)
    requires Trimmed(key) && '=' !in key
    ensures PipfileName([key + "="] + rest) == PipfileName(rest)
  {
    EmptyValueGivesNoName(key);
    FirstSomeSkips(NameValue, [key + "="], rest);
  }
}

=== FILE: poetry.dfy ===
/**
 * The Poetry manager's `parsePyprojectToml` (the `[tool.poetry]` name,
 * version and description) and the defaults `getPoetryInfo` fills in. The
 * `poetry env info` and `poetry show` calls are the caller's: their results
 * arrive as arguments.
 */
module Poetry {
  import opened Wrappers
  import opened Strings
  import opened LineScan
  import DependencyGraph

  type Package = DependencyGraph.Package

  /** One assignment the scanner keeps: a known key and its quote-stripped value. */
  datatype Field = Field(key: string, value: string)

  /** The result of `parsePyprojectToml`: each field is absent unless assigned. */
  datatype ProjectInfo = ProjectInfo(name: Option<string>, version: Option<string>, description: Option<string>)

  /** `PoetryInfo`. */
  datatype PoetryInfo = PoetryInfo(
    projectName: string, version: string, description: string,
    dependencies: seq<Package>, devDependencies: seq<Package>,
    pythonVersion: string, virtualEnvPath: string, lockFileExists: bool)

  const ToolPoetry := "[tool.poetry]"

  predicate IsKnownKey(k: string) {
    k == "name" || k == "version" || k == "description"
  }

  /** What an assignment line inside `[tool.poetry]` records: a known key with a non-empty value. */
  function AssignmentLine(t: string): (r: seq<Field>)
    requires '=' in t
    ensures |r| <= 1
    ensures |r| == 0 <==> !IsKnownKey(KeyValue(t, '=').0) || KeyValue(t, '=').1 == ""
    ensures |r| == 1 ==> r[0] == Field(KeyValue(t, '=').0, StripQuotes(KeyValue(t, '=').1))
  {
    var (key, value) := KeyValue(t, '=');
    if value != "" && IsKnownKey(key) then [Field(key, StripQuotes(value))] else []
  }

  /** One line of `parsePyprojectToml`, whose state is "inside `[tool.poetry]`". */
  function PoetryStep(line: string, inToolPoetry: bool): (a: Action<bool, Field>)
    ensures a.Emit?
  {
    var t := Trim(line);
    if t == ToolPoetry then Emit([], true)
    else if StartsWith(t, "[") then Emit([], false)
    else if inToolPoetry && Contains(t, "=") then
      ContainsChar(t, '=');
      Emit(AssignmentLine(t), true)
    else Emit([], inToolPoetry)
  }

  /** `i` is the last field named `key`. */
  predicate LastFieldAt(fields: seq<Field>, key: string, i: int) {
    0 <= i < |fields| && fields[i].key == key && forall j :: i < j < |fields| ==> fields[j].key != key
  }

  /** The value of the last field named `key`: a later assignment overrides an earlier one. */
  function LastValue(fields: seq<Field>, key: string): (r: Option<string>)
    ensures r.None? <==> forall i :: 0 <= i < |fields| ==> fields[i].key != key
    ensures r.Some? ==> exists i :: LastFieldAt(fields, key, i) && fields[i].value == r.value
    ensures forall i :: LastFieldAt(fields, key, i) ==> r == Some(fields[i].value)
  {
    if |fields| == 0 then None
    else
      var last := fields[|fields| - 1];
      if last.key == key then
        assert LastFieldAt(fields, key, |fields| - 1);
        Some(last.value)
      else
        var init := fields[..|fields| - 1];
        assert forall i :: 0 <= i < |init| ==> init[i] == fields[i];
        var r := LastValue(init, key);
        LastFieldOfInit(fields, key);
        r
  }

  /** When the final field is another key's, the last field named `key` is the same without it. */
  lemma LastFieldOfInit(fields: seq<Field>, key: string)
    requires |fields| > 0 && fields[|fields| - 1].key != key
    ensures forall i :: LastFieldAt(fields, key, i) <==> LastFieldAt(fields[..|fields| - 1], key, i)
  {
    var init := fields[..|fields| - 1];
    forall i | LastFieldAt(init, key, i) ensures LastFieldAt(fields, key, i) {
      forall j | i < j < |fields| ensures fields[j].key != key {
        if j < |init| { assert fields[j] == init[j]; }
      }
    }
    forall i | LastFieldAt(fields, key, i) ensures LastFieldAt(init, key, i) {
      forall j | i < j < |init| ensures init[j].key != key {
        assert init[j] == fields[j];
      }
    }
  }

  /** The assignments of `[tool.poetry]` in a file, in order. */
  function PoetryFields(content: string): seq<Field> {
    Scan(PoetryStep, Split(content, '\n'), false)
  }

  /** `parsePyprojectToml(content)`: the last value assigned to each of the three keys. */
  function ParsePyprojectToml(content: string): (r: ProjectInfo)
    ensures r.name == LastValue(PoetryFields(content), "name")
    ensures r.version == LastValue(PoetryFields(content), "version")
    ensures r.description == LastValue(PoetryFields(content), "description")
  {
    var fields := PoetryFields(content);
    ProjectInfo(LastValue(fields, "name"), LastValue(fields, "version"), LastValue(fields, "description"))
  }

  /** What `poetry env info --json` reported, when it ran: its `path` and `version` fields. */
  datatype EnvInfo = EnvInfo(path: Option<string>, version: Option<string>)

  /**
   * `getPoetryInfo`. Without a `pyproject.toml` there is no result (the
   * source throws). Otherwise the file's fields with the defaults "unknown",
   * "0.0.0" and "" for absent or empty ones, no dev dependencies, and what
   * the `poetry` commands reported, empty when they failed.
   */
  function GetPoetryInfo(pyproject: Option<string>, envInfo: Option<EnvInfo>, show: Option<seq<Package>>,
                         lockFileExists: bool): (r: Option<PoetryInfo>)
    ensures r.None? <==> pyproject.None?
    ensures r.Some? ==>
              var info := ParsePyprojectToml(pyproject.value);
              && r.value.projectName == OrElse(info.name, "unknown")
              && r.value.version == OrElse(info.version, "0.0.0")
              && r.value.description == OrElse(info.description, "")
              && r.value.devDependencies == []
              && r.value.dependencies == show.GetOr([])
              && r.value.lockFileExists == lockFileExists
    ensures r.Some? && envInfo.None? ==> r.value.pythonVersion == "" && r.value.virtualEnvPath == ""
    ensures r.Some? && envInfo.Some? ==>
              r.value.virtualEnvPath == OrElse(envInfo.value.path, "") && r.value.pythonVersion == OrElse(envInfo.value.version, "")
  {
    match pyproject
    case None => None
    case Some(content) =>
      var info := ParsePyprojectToml(content);
      var (path, version) := match envInfo
        case Some(e) => (OrElse(e.path, ""), OrElse(e.version, ""))
        case None => ("", "");
      Some(PoetryInfo(OrElse(info.name, "unknown"), OrElse(info.version, "0.0.0"), OrElse(info.description, ""),
                      show.GetOr([]), [], version, path, lockFileExists))
  }

  /** The version and description defaults apply when the section is missing. */
  lemma NoSectionDefaults(content: string)
    requires forall i :: 0 <= i < |Split(content, '\n')| ==> Trim(Split(content, '\n')[i]) != ToolPoetry
    ensures var r := GetPoetryInfo(Some(content), None, None, false).value;
            r.projectName == "unknown" && r.version == "0.0.0" && r.description == ""
  {
    OutsideAssignsNothing(Split(content, '\n'));
  }

  /** Lines before `[tool.poetry]` opens, or after another header closes it, assign nothing. */
  lemma {:induction false} OutsideAssignsNothing(lines: seq<string>)
    requires forall i :: 0 <= i < |lines| ==> Trim(lines[i]) != ToolPoetry
    ensures Scan(PoetryStep, lines, false) == []
  {
    if |lines| > 0 {
      OutsideStep(lines[0]);
      assert Scan(PoetryStep, lines, false) == Scan(PoetryStep, lines[1..], false);
      assert forall i :: 0 <= i < |lines[1..]| ==> lines[1..][i] == lines[i + 1];
      OutsideAssignsNothing(lines[1..]);
    }
  }

  /** Outside the section a line other than `[tool.poetry]` assigns nothing and keeps it closed. */
  lemma OutsideStep(line: string)
    requires Trim(line) != ToolPoetry
    ensures PoetryStep(line, false) == Emit([], false)
  {
  }

  /** `[tool.poetry]` opens the section whatever came before. */
  lemma SectionOpens(header: string, rest: seq<string>, inToolPoetry: bool)
    requires Trim(header) == ToolPoetry
    ensures Scan(PoetryStep, [header] + rest, inToolPoetry) == Scan(PoetryStep, rest, true)
  {
    assert ([header] + rest)[1..] == rest;
  }

  /** Any other header closes `[tool.poetry]`. */
  lemma HeaderCloses(header: string, rest: seq<string>, inToolPoetry: bool)
    requires StartsWith(Trim(header), "[") && Trim(header) != ToolPoetry
    ensures Scan(PoetryStep, [header] + rest, inToolPoetry) == Scan(PoetryStep, rest, false)
  {
    assert ([header] + rest)[1..] == rest;
  }

  /** A later assignment overrides an earlier one. */
  lemma LaterOverrides(fields: seq<Field>, key: string, value: string)
    ensures LastValue(fields + [Field(key, value)], key) == Some(value)
  {
  }

  /**
   * Fields after the last assignment to `key` do not matter, and without one
   * among them the earlier fields decide: the value over a concatenation.
   */
  lemma {:induction false} LastValueAppend(a: seq<Field>, b: seq<Field>, key: string)
    ensures LastValue(a + b, key) == if LastValue(b, key).Some? then LastValue(b, key) else LastValue(a, key)
    decreases |b|
  {
    if |b| == 0 {
      assert a + b == a;
    } else {
      var init := b[..|b| - 1];
      assert (a + b)[..|a + b| - 1] == a + init;
      assert (a + b)[|a + b| - 1] == b[|b| - 1];
      LastValueAppend(a, init, key);
    }
  }

  /** The value is the second `=`-piece only: whatever follows a second `=` is cut off. */
  lemma ValueStopsAtEquals(key: string, value: string, more: string)
    requires IsKnownKey(Trim(key)) && '=' !in key && '=' !in value
    requires Trim(value) != ""
    ensures '=' in key + "=" + value + "=" + more
    ensures AssignmentLine(key + "=" + value + "=" + more) == [Field(Trim(key), StripQuotes(Trim(value)))]
  {
    assert key + "=" + value + "=" + more == key + ['='] + value + ['='] + more;
    KeyValueDropsRest(key, '=', value, more);
  }

  /** Inside `[tool.poetry]`, `key = value` with a known key records the value without its quotes. */
  lemma KnownAssignment(key: string, value: string)
    requires IsKnownKey(key) && Trimmed(key) && '=' !in key
    requires value != [] && Trimmed(value) && '=' !in value
    ensures '=' in key + " = " + value
    ensures AssignmentLine(key + " = " + value) == [Field(key, StripQuotes(value))]
  {
    assert key + " = " + value == key + " " + ['='] + " " + value;
    KeyValueSpaced(key, '=', value);
  }

  /** A quoted value loses its quotes: `name = "demo"` assigns demo. */
  lemma QuotedValue(key: string, q: char, v: string, q': char)
    requires IsKnownKey(key) && Trimmed(key) && '=' !in key && '=' !in v
    requires IsQuote(q) && IsQuote(q')
    requires |v| > 0 && !IsQuote(v[0]) && !IsQuote(v[|v| - 1])
    ensures AssignmentLine(key + " = " + ([q] + v + [q'])) == [Field(key, v)]
  {
    var quoted := [q] + v + [q'];
    assert quoted[0] == q && quoted[|quoted| - 1] == q';
    assert '=' !in quoted;
    KnownAssignment(key, quoted);
    StripQuotesOfQuoted(q, v, q');
  }

  /** An empty value assigns nothing, so an earlier value or the default stands. */
  lemma EmptyValueIgnored(key: string)
    requires '=' !in key
    ensures AssignmentLine(key + "=") == []
  {
    var t := key + "=";
    assert t == key + ['='] + "";
    KeyValueOfSingle(key, '=', "");
    assert Trim("") == "";
    assert KeyValue(t, '=').1 == "";
  }
}

=== FILE: requirements.dfy ===
/**
 * `compareRequirements` without the shell: the requirements read from the
 * manifests are reconciled with the installed packages into missing,
 * mismatched and extra entries, and an install command is rendered for the
 * first two. Which manifests are read is decided by the file name's suffix.
 */
module Requirements {
  import opened Wrappers
  import opened Strings
  import opened FileParsers
  import opened Versions
  import DependencyGraph
  import opened Sequences

  type Package = DependencyGraph.Package

  datatype Missing = Missing(name: string, requiredVersion: string)
  datatype Mismatched = Mismatched(name: string, required: string, installed: string)
  datatype Extra = Extra(name: string, installedVersion: string)

  /** `RequirementsComparison`. */
  datatype Comparison = Comparison(missing: seq<Missing>, extra: seq<Extra>, mismatched: seq<Mismatched>, installCommand: string)

  /** Names compared the way the reconciler compares them: lower-cased. */
  predicate SameName(a: string, b: string) {
    ToLower(a) == ToLower(b)
  }

  /** `installedPackages.find(pkg => same name)`: the first installed package with the requirement's name. */
  function FindInstalled(installed: seq<Package>, name: string): (r: Option<Package>)
    ensures r.None? <==> forall i :: 0 <= i < |installed| ==> !SameName(installed[i].name, name)
    ensures r.Some? ==> exists i :: 0 <= i < |installed| && installed[i] == r.value
                          && SameName(r.value.name, name)
                          && forall j :: 0 <= j < i ==> !SameName(installed[j].name, name)
  {
    if |installed| == 0 then None
    else if SameName(installed[0].name, name) then Some(installed[0])
    else
      var r := FindInstalled(installed[1..], name);
      assert forall i :: 1 <= i < |installed| ==> installed[i] == installed[1..][i - 1];
      r
  }

  /** `requirements.find(req => same name)` succeeds. */
  predicate IsRequired(reqs: seq<Requirement>, name: string) {
    exists i :: 0 <= i < |reqs| && SameName(reqs[i].name, name)
  }

  /** A version that JavaScript treats as true: present and not empty. */
  predicate Truthy(v: Option<string>) {
    v.Some? && v.value != ""
  }

  /** `req.version || 'any'`. */
  function VersionOrAny(v: Option<string>): (r: string)
    ensures Truthy(v) ==> r == v.value
    ensures !Truthy(v) ==> r == "any"
  {
    if Truthy(v) then v.value else "any"
  }

  /** Where one requirement lands. */
  datatype Status = NotInstalled | WrongVersion(installedVersion: string) | Satisfied

  /** The two branches of the requirements loop: not found; found with a version that does not match; neither. */
  function Classify(req: Requirement, installed: seq<Package>): (s: Status)
    ensures s == NotInstalled <==> FindInstalled(installed, req.name).None?
    ensures s.WrongVersion? ==> Truthy(req.version) && FindInstalled(installed, req.name).Some?
                                && !CheckVersionMatch(FindInstalled(installed, req.name).value.version, req.version.value)
    ensures s == Satisfied ==> FindInstalled(installed, req.name).Some?
                               && (!Truthy(req.version) || CheckVersionMatch(FindInstalled(installed, req.name).value.version, req.version.value))
  {
    match FindInstalled(installed, req.name)
    case None => NotInstalled
    case Some(pkg) =>
      if Truthy(req.version) && !CheckVersionMatch(pkg.version, req.version.value) then WrongVersion(pkg.version)
      else Satisfied
  }

  /** A requirement no installed package answers. */
  function NotInstalledIn(installed: seq<Package>): Requirement -> bool {
    (q: Requirement) => Classify(q, installed) == NotInstalled
  }

  /** A requirement answered by a package whose version does not match. */
  function WrongVersionIn(installed: seq<Package>): Requirement -> bool {
    (q: Requirement) => Classify(q, installed).WrongVersion?
  }

  /** An installed package that no requirement names. */
  function NotRequiredBy(reqs: seq<Requirement>): Package -> bool {
    (p: Package) => !IsRequired(reqs, p.name)
  }

  /** The `missing` entry of a requirement: `{ name, requiredVersion: req.version || 'any' }`. */
  function MissingEntry(q: Requirement): Missing {
    Missing(q.name, VersionOrAny(q.version))
  }

  /**
   * The `mismatched` entry of a requirement found with a failing version:
   * the required and the installed version (the empty text stands in where
   * the requirement is not of that kind, which `MismatchedOf` never meets).
   */
  function MismatchedEntry(installed: seq<Package>): Requirement -> Mismatched {
    (q: Requirement) => Mismatched(q.name, if q.version.Some? then q.version.value else "",
                    match Classify(q, installed) case WrongVersion(v) => v case _ => "")
  }

  /** The `extra` entry of an installed package: its name and version. */
  function ExtraEntry(p: Package): Extra {
    Extra(p.name, p.version)
  }

  /**
   * The `missing` list, built as the requirements loop pushes: one entry per
   * requirement with no installed package, in requirement order; it is the
   * requirements filtered by `NotInstalledIn` and mapped to their entries.
   */
  function MissingOf(reqs: seq<Requirement>, installed: seq<Package>): (r: seq<Missing>)
    ensures r == Map(MissingEntry, Filter(NotInstalledIn(installed), reqs))
  {
    if |reqs| == 0 then []
    else
      var rest := MissingOf(reqs[1..], installed);
      MapFilterCons(MissingEntry, NotInstalledIn(installed), reqs);
      if Classify(reqs[0], installed) == NotInstalled
      then [Missing(reqs[0].name, VersionOrAny(reqs[0].version))] + rest
      else rest
  }

  /**
   * The `mismatched` list: one entry per requirement found with a failing
   * version, in requirement order; the requirements filtered by
   * `WrongVersionIn` and mapped to their entries.
   */
  function MismatchedOf(reqs: seq<Requirement>, installed: seq<Package>): (r: seq<Mismatched>)
    ensures r == Map(MismatchedEntry(installed), Filter(WrongVersionIn(installed), reqs))
  {
    if |reqs| == 0 then []
    else
      var rest := MismatchedOf(reqs[1..], installed);
      MapFilterCons(MismatchedEntry(installed), WrongVersionIn(installed), reqs);
      match Classify(reqs[0], installed)
      case WrongVersion(v) => [Mismatched(reqs[0].name, reqs[0].version.value, v)] + rest
      case _ => rest
  }

  /**
   * The `extra` list: every installed package no requirement names, in
   * installed order; the installed packages filtered by `NotRequiredBy` and
   * mapped to their entries.
   */
  function ExtraOf(reqs: seq<Requirement>, installed: seq<Package>): (r: seq<Extra>)
    ensures r == Map(ExtraEntry, Filter(NotRequiredBy(reqs), installed))
  {
    if |installed| == 0 then []
    else
      var rest := ExtraOf(reqs, installed[1..]);
      MapFilterCons(ExtraEntry, NotRequiredBy(reqs), installed);
      if IsRequired(reqs, installed[0].name)
      then rest
      else [Extra(installed[0].name, installed[0].version)] + rest
  }

  /** How a missing or mismatched entry appears in the install command: the name, followed by the specifier unless that is "any". */
  function Spec(name: string, version: string): (r: string)
    ensures version == "" || version == "any" ==> r == name
    ensures version != "" && version != "any" ==> r == name + version
  {
    if version != "" && version != "any" then name + version else name
  }

  function MissingSpecs(missing: seq<Missing>): (r: seq<string>)
    ensures |r| == |missing|
    ensures forall i :: 0 <= i < |missing| ==> r[i] == Spec(missing[i].name, missing[i].requiredVersion)
  {
    if |missing| == 0 then []
    else [Spec(missing[0].name, missing[0].requiredVersion)] + MissingSpecs(missing[1..])
  }

  function MismatchedSpecs(mismatched: seq<Mismatched>): (r: seq<string>)
    ensures |r| == |mismatched|
    ensures forall i :: 0 <= i < |mismatched| ==> r[i] == Spec(mismatched[i].name, mismatched[i].required)
  {
    if |mismatched| == 0 then []
    else [Spec(mismatched[0].name, mismatched[0].required)] + MismatchedSpecs(mismatched[1..])
  }

  const AllSatisfied := "All requirements satisfied"
  const PipInstall := "pip install "

  /** `generateInstallCommand`: the fixed message when nothing is to install, else `pip install` and the specs, space-separated. */
  function GenerateInstallCommand(missing: seq<Missing>, mismatched: seq<Mismatched>): (r: string)
    ensures r == AllSatisfied <==> missing == [] && mismatched == []
    ensures r != AllSatisfied ==>
              StartsWith(r, PipInstall) && r[|PipInstall|..] == Join(MissingSpecs(missing) + MismatchedSpecs(mismatched), " ")
  {
    var packages := MissingSpecs(missing) + MismatchedSpecs(mismatched);
    if |packages| == 0 then AllSatisfied
    else
      var r := PipInstall + Join(packages, " ");
      assert r[0] == 'p';
      assert r[..|PipInstall|] == PipInstall;
      r
  }

  /** `compareRequirements` once the requirements and the installed packages are known. */
  function CompareRequirements(reqs: seq<Requirement>, installed: seq<Package>): (c: Comparison)
    ensures c.missing == MissingOf(reqs, installed)
    ensures c.mismatched == MismatchedOf(reqs, installed)
    ensures c.extra == ExtraOf(reqs, installed)
    ensures c.installCommand == GenerateInstallCommand(c.missing, c.mismatched)
    ensures c.installCommand == AllSatisfied
            <==> forall i :: 0 <= i < |reqs| ==> Classify(reqs[i], installed) == Satisfied
  {
    var missing := MissingOf(reqs, installed);
    var mismatched := MismatchedOf(reqs, installed);
    AllSatisfiedIff(reqs, installed);
    Comparison(missing, ExtraOf(reqs, installed), mismatched, GenerateInstallCommand(missing, mismatched))
  }

  lemma AllSatisfiedIff(reqs: seq<Requirement>, installed: seq<Package>)
    ensures MissingOf(reqs, installed) == [] && MismatchedOf(reqs, installed) == []
            <==> forall i :: 0 <= i < |reqs| ==> Classify(reqs[i], installed) == Satisfied
  {
    if forall i :: 0 <= i < |reqs| ==> Classify(reqs[i], installed) == Satisfied {
      SatisfiedListsNothing(reqs, installed);
    } else {
      var i :| 0 <= i < |reqs| && Classify(reqs[i], installed) != Satisfied;
      UnsatisfiedIsListed(reqs, installed, i);
    }
  }

  lemma SatisfiedListsNothing(reqs: seq<Requirement>, installed: seq<Package>)
    requires forall i :: 0 <= i < |reqs| ==> Classify(reqs[i], installed) == Satisfied
    ensures MissingOf(reqs, installed) == [] && MismatchedOf(reqs, installed) == []
  {
    if MissingOf(reqs, installed) != [] {
      InMissing(reqs, installed, MissingOf(reqs, installed)[0]);
    }
    if MismatchedOf(reqs, installed) != [] {
      InMismatched(reqs, installed, MismatchedOf(reqs, installed)[0]);
    }
  }

  lemma UnsatisfiedIsListed(reqs: seq<Requirement>, installed: seq<Package>, i: nat)
    requires i < |reqs| && Classify(reqs[i], installed) != Satisfied
    ensures MissingOf(reqs, installed) != [] || MismatchedOf(reqs, installed) != []
  {
    if Classify(reqs[i], installed) == NotInstalled {
      InMissing(reqs, installed, MissingEntry(reqs[i]));
    } else {
      InMismatched(reqs, installed, MismatchedEntry(installed)(reqs[i]));
    }
  }

  /** The missing entries: one for each requirement that is not installed. */
  lemma InMissing(reqs: seq<Requirement>, installed: seq<Package>, m: Missing)
    ensures m in MissingOf(reqs, installed)
            <==> exists i :: 0 <= i < |reqs| && Classify(reqs[i], installed) == NotInstalled && m == MissingEntry(reqs[i])
  {
    InMapFilter(MissingEntry, NotInstalledIn(installed), reqs, m);
  }

  /** The mismatched entries: one for each requirement installed with a failing version. */
  lemma InMismatched(reqs: seq<Requirement>, installed: seq<Package>, m: Mismatched)
    ensures m in MismatchedOf(reqs, installed)
            <==> exists i :: 0 <= i < |reqs| && Classify(reqs[i], installed).WrongVersion? && m == MismatchedEntry(installed)(reqs[i])
  {
    InMapFilter(MismatchedEntry(installed), WrongVersionIn(installed), reqs, m);
  }

  /** The extra entries: one for each installed package that no requirement names. */
  lemma InExtra(reqs: seq<Requirement>, installed: seq<Package>, e: Extra)
    ensures e in ExtraOf(reqs, installed)
            <==> exists i :: 0 <= i < |installed| && !IsRequired(reqs, installed[i].name) && e == ExtraEntry(installed[i])
  {
    InMapFilter(ExtraEntry, NotRequiredBy(reqs), installed, e);
  }

  /** No extra package shares a (case-insensitive) name with a missing or a mismatched requirement. */
  lemma ExtrasAreDisjoint(reqs: seq<Requirement>, installed: seq<Package>)
    ensures forall e, m :: e in ExtraOf(reqs, installed) && m in MissingOf(reqs, installed) ==> !SameName(e.name, m.name)
    ensures forall e, m :: e in ExtraOf(reqs, installed) && m in MismatchedOf(reqs, installed) ==> !SameName(e.name, m.name)
  {
    forall e, m | e in ExtraOf(reqs, installed) && m in MissingOf(reqs, installed) ensures !SameName(e.name, m.name) {
      ExtraNotMissing(reqs, installed, e, m);
    }
    forall e, m | e in ExtraOf(reqs, installed) && m in MismatchedOf(reqs, installed) ensures !SameName(e.name, m.name) {
      ExtraNotMismatched(reqs, installed, e, m);
    }
  }

  lemma ExtraNotMissing(reqs: seq<Requirement>, installed: seq<Package>, e: Extra, m: Missing)
    requires e in ExtraOf(reqs, installed) && m in MissingOf(reqs, installed)
    ensures !SameName(e.name, m.name)
  {
    InMissing(reqs, installed, m);
    InExtra(reqs, installed, e);
    var i :| 0 <= i < |reqs| && Classify(reqs[i], installed) == NotInstalled && m == MissingEntry(reqs[i]);
    var j :| 0 <= j < |installed| && !IsRequired(reqs, installed[j].name) && e == ExtraEntry(installed[j]);
  }

  lemma ExtraNotMismatched(reqs: seq<Requirement>, installed: seq<Package>, e: Extra, m: Mismatched)
    requires e in ExtraOf(reqs, installed) && m in MismatchedOf(reqs, installed)
    ensures !SameName(e.name, m.name)
  {
    InMismatched(reqs, installed, m);
    InExtra(reqs, installed, e);
    var i :| 0 <= i < |reqs| && Classify(reqs[i], installed).WrongVersion? && m == MismatchedEntry(installed)(reqs[i]);
    assert m.name == reqs[i].name;
    var j :| 0 <= j < |installed| && !IsRequired(reqs, installed[j].name) && e == ExtraEntry(installed[j]);
    var pkg := FindInstalled(installed, reqs[i].name).value;
    var k :| 0 <= k < |installed| && installed[k] == pkg && SameName(pkg.name, reqs[i].name);
    assert IsRequired(reqs, installed[k].name);
  }

  /** The words after `pip install ` are the specs again, when no spec contains a space. */
  lemma InstallCommandWords(missing: seq<Missing>, mismatched: seq<Mismatched>)
    requires missing != [] || mismatched != []
    requires forall i :: 0 <= i < |missing| ==> ' ' !in Spec(missing[i].name, missing[i].requiredVersion)
    requires forall i :: 0 <= i < |mismatched| ==> ' ' !in Spec(mismatched[i].name, mismatched[i].required)
    ensures var r := GenerateInstallCommand(missing, mismatched);
            Split(r[|PipInstall|..], ' ') == MissingSpecs(missing) + MismatchedSpecs(mismatched)
  {
    var specs := MissingSpecs(missing) + MismatchedSpecs(mismatched);
    assert forall i :: 0 <= i < |specs| ==> ' ' !in specs[i] by {
      forall i | 0 <= i < |specs| ensures ' ' !in specs[i] {
        if i >= |missing| {
          assert specs[i] == MismatchedSpecs(mismatched)[i - |missing|];
        }
      }
    }
    SplitJoin(specs, ' ');
  }

  // ---------------------------------------------------------------------------
  // `parseAllRequirementsFiles`

  /**
   * The requirements of one file, dispatched on the suffix of its path;
   * `content` is `None` for a file that does not exist.
   */
  function ParseRequirementsFile(path: string, content: Option<string>): (r: seq<Requirement>)
    ensures content.None? ==> r == []
    ensures !EndsWith(path, "requirements.txt") && !EndsWith(path, "pyproject.toml") && !EndsWith(path, "Pipfile") ==> r == []
    ensures content.Some? && EndsWith(path, "requirements.txt") ==> r == ParseRequirementsTxt(content.value)
    ensures content.Some? && !EndsWith(path, "requirements.txt") && EndsWith(path, "pyproject.toml")
            ==> r == ParsePyprojectToml(content.value)
    ensures content.Some? && !EndsWith(path, "requirements.txt") && !EndsWith(path, "pyproject.toml") && EndsWith(path, "Pipfile")
            ==> r == ParsePipfile(content.value)
  {
    if content.None? then []
    else if EndsWith(path, "requirements.txt") then ParseRequirementsTxt(content.value)
    else if EndsWith(path, "pyproject.toml") then ParsePyprojectToml(content.value)
    else if EndsWith(path, "Pipfile") then ParsePipfile(content.value)
    else []
  }

  /** `parseAllRequirementsFiles`: the requirements of each file, concatenated in file order. */
  function ParseAllRequirementsFiles(files: seq<string>, read: string -> Option<string>): (r: seq<Requirement>)
    ensures files == [] ==> r == []
    ensures |files| == 1 ==> r == ParseRequirementsFile(files[0], read(files[0]))
  {
    if |files| == 0 then []
    else ParseRequirementsFile(files[0], read(files[0])) + ParseAllRequirementsFiles(files[1..], read)
  }

  lemma {:induction false} ParseAllAppend(a: seq<string>, b: seq<string>, read: string -> Option<string>)
    ensures ParseAllRequirementsFiles(a + b, read) == ParseAllRequirementsFiles(a, read) + ParseAllRequirementsFiles(b, read)
  {
    if |a| == 0 {
      assert a + b == b;
    } else {
      assert (a + b)[0] == a[0];
      assert (a + b)[1..] == a[1..] + b;
      ParseAllAppend(a[1..], b, read);
      AppendAssoc(ParseRequirementsFile(a[0], read(a[0])), ParseAllRequirementsFiles(a[1..], read), ParseAllRequirementsFiles(b, read));
    }
  }

  /** `requirements-dev.txt` is not read: its name does not end in `requirements.txt`. */
  lemma DevRequirementsIgnored(content: Option<string>)
    ensures ParseRequirementsFile("requirements-dev.txt", content) == []
  {
    assert "requirements-dev.txt"[4] == 'i';
    assert "requirements.txt"[0] == 'r';
  }

  lemma TestRequirementsIgnored(content: Option<string>)
    ensures ParseRequirementsFile("requirements-test.txt", content) == []
  {
    assert "requirements-test.txt"[5] == 'r';
  }

  lemma SetupPyIgnored(content: Option<string>)
    ensures ParseRequirementsFile("setup.py", content) == []
  {
  }
}

=== FILE: sequences.dfy ===
/**
 * Generic sequence operations: `filter` and `map` as reference definitions,
 * distinctness and order-keeping de-duplication.
 */
module Sequences {

  /** Concatenation is associative; stated once so that proofs need not rediscover it element by element. */
  lemma AppendAssoc<T>(a: seq<T>, b: seq<T>, c: seq<T>)
    ensures a + (b + c) == (a + b) + c
  {
  }

  /** The elements of a non-empty sequence are those before its last one, plus the last one. */
  lemma MultisetOfSnoc<T>(s: seq<T>)
    requires |s| > 0
    ensures multiset(s) == multiset(s[..|s| - 1]) + multiset{s[|s| - 1]}
  {
    assert s == s[..|s| - 1] + [s[|s| - 1]];
  }

  /**
   * `s.filter(p)`: the elements satisfying `p`, each as often as in `s`, in
   * the order of `s` (with `FilterAppend`, the order is fixed piece by piece).
   */
  function Filter<T(==,!new)>(p: T -> bool, s: seq<T>): (r: seq<T>)
    ensures |r| <= |s|
    ensures forall x :: x in r <==> x in s && p(x)
    ensures forall x :: multiset(r)[x] == if p(x) then multiset(s)[x] else 0
  {
    if |s| == 0 then []
    else
      var rest := Filter(p, s[1..]);
      assert s == [s[0]] + s[1..];
      (if p(s[0]) then [s[0]] else []) + rest
  }

  /** Filtering a concatenation filters each part and keeps them in order. */
  lemma {:induction false} FilterAppend<T(!new)>(p: T -> bool, a: seq<T>, b: seq<T>)
    ensures Filter(p, a + b) == Filter(p, a) + Filter(p, b)
  {
    if |a| == 0 {
      assert a + b == b;
    } else {
      assert (a + b)[0] == a[0];
      assert (a + b)[1..] == a[1..] + b;
      FilterAppend(p, a[1..], b);
      AppendAssoc(if p(a[0]) then [a[0]] else [], Filter(p, a[1..]), Filter(p, b));
    }
  }

  /** `s.map(f)`. */
  function Map<T, U>(f: T -> U, s: seq<T>): (r: seq<U>)
    ensures |r| == |s|
    ensures forall i :: 0 <= i < |s| ==> r[i] == f(s[i])
  {
    seq(|s|, i requires 0 <= i < |s| => f(s[i]))
  }

  /** Mapping a concatenation maps each part. */
  lemma MapAppend<T, U>(f: T -> U, a: seq<T>, b: seq<T>)
    ensures Map(f, a + b) == Map(f, a) + Map(f, b)
  {
  }

  /** Filtering then mapping, one element at a time: the shape of a loop that pushes `f(x)` for each `x` passing `p`. */
  lemma MapFilterCons<T(!new), U>(f: T -> U, p: T -> bool, s: seq<T>)
    requires |s| > 0
    ensures Map(f, Filter(p, s)) == (if p(s[0]) then [f(s[0])] else []) + Map(f, Filter(p, s[1..]))
  {
    MapAppend(f, if p(s[0]) then [s[0]] else [], Filter(p, s[1..]));
  }

  /** What a filtered and mapped sequence holds: the images of the elements that pass. */
  lemma InMapFilter<T(!new), U>(f: T -> U, p: T -> bool, s: seq<T>, y: U)
    ensures y in Map(f, Filter(p, s)) <==> exists i :: 0 <= i < |s| && p(s[i]) && y == f(s[i])
  {
    var t := Filter(p, s);
    if y in Map(f, t) {
      var k :| 0 <= k < |t| && Map(f, t)[k] == y;
      assert t[k] in t;
      var i :| 0 <= i < |s| && s[i] == t[k];
    }
    if exists i :: 0 <= i < |s| && p(s[i]) && y == f(s[i]) {
      var i :| 0 <= i < |s| && p(s[i]) && y == f(s[i]);
      assert s[i] in t;
      var k :| 0 <= k < |t| && t[k] == s[i];
      assert Map(f, t)[k] == y;
    }
  }

  /** `s.indexOf(x)` for an element of `s`: the position of its first occurrence. */
  function FirstIndex<T(==)>(s: seq<T>, x: T): (i: nat)
    requires x in s
    ensures i < |s| && s[i] == x && x !in s[..i]
  {
    if s[0] == x then 0
    else
      assert s == [s[0]] + s[1..];
      var j := FirstIndex(s[1..], x);
      assert s[..j + 1] == [s[0]] + s[1..][..j];
      j + 1
  }

  /** The first occurrence in a prefix is the first occurrence in the whole. */
  lemma FirstIndexOfPrefix<T>(s: seq<T>, k: nat, x: T)
    requires k <= |s| && x in s[..k]
    ensures FirstIndex(s, x) == FirstIndex(s[..k], x)
  {
    var j := FirstIndex(s[..k], x);
    assert s[..k][..j] == s[..j];
    FirstIndexUnique(s, x, j);
  }

  /** The only position holding `x` with no `x` before it is the first index of `x`. */
  lemma FirstIndexUnique<T>(s: seq<T>, x: T, k: nat)
    requires k < |s| && s[k] == x && x !in s[..k]
    ensures FirstIndex(s, x) == k
  {
    var i := FirstIndex(s, x);
    assert forall m :: 0 <= m < k ==> s[..k][m] == s[m];
    assert forall m :: 0 <= m < i ==> s[..i][m] == s[m];
  }

  predicate Distinct<T(==)>(s: seq<T>) {
    forall i, j :: 0 <= i < j < |s| ==> s[i] != s[j]
  }

  /** Filtering keeps a sequence free of repeats. */
  lemma {:induction false} FilterDistinct<T(!new)>(p: T -> bool, s: seq<T>)
    requires Distinct(s)
    ensures Distinct(Filter(p, s))
  {
    if |s| > 0 {
      assert Distinct(s[1..]) by {
        assert forall i :: 0 <= i < |s| - 1 ==> s[1..][i] == s[i + 1];
      }
      FilterDistinct(p, s[1..]);
      assert s[0] !in s[1..] by {
        assert forall i :: 0 <= i < |s| - 1 ==> s[1..][i] == s[i + 1];
      }
    }
  }

  /**
   * `[...new Set(s)]`: the elements of `s` in order of first occurrence, which
   * is also the key order of a JavaScript `Map` filled from `s`.
   */
  function Dedup<T(==,!new)>(s: seq<T>): (r: seq<T>)
    ensures Distinct(r)
    ensures forall x :: x in r <==> x in s
    ensures |r| <= |s|
    ensures forall i, j :: 0 <= i < j < |r| ==> FirstIndex(s, r[i]) < FirstIndex(s, r[j])
  {
    if |s| == 0 then []
    else
      var init := s[..|s| - 1];
      var d := Dedup(init);
      assert forall x :: x in s <==> x in init || x == s[|s| - 1] by {
        assert s == init + [s[|s| - 1]];
      }
      assert s == init + [s[|s| - 1]];
      DedupOrderInPrefix(init, s[|s| - 1], d);
      if s[|s| - 1] in d then d else d + [s[|s| - 1]]
  }

  /**
   * The order `Dedup` keeps for the elements of `init` carries over to
   * `init + [last]`, and a `last` that is new comes after all of them.
   */
  lemma DedupOrderInPrefix<T(!new)>(init: seq<T>, last: T, d: seq<T>)
    requires forall x :: x in d <==> x in init
    requires forall i, j :: 0 <= i < j < |d| ==> FirstIndex(init, d[i]) < FirstIndex(init, d[j])
    ensures forall i, j :: 0 <= i < j < |d| ==> FirstIndex(init + [last], d[i]) < FirstIndex(init + [last], d[j])
    ensures last !in init ==> forall i :: 0 <= i < |d| ==> FirstIndex(init + [last], d[i]) < FirstIndex(init + [last], last)
  {
    var s := init + [last];
    assert s[..|init|] == init;
    forall i | 0 <= i < |d| ensures FirstIndex(s, d[i]) == FirstIndex(init, d[i]) {
      FirstIndexOfPrefix(s, |init|, d[i]);
    }
    if last !in init {
      assert FirstIndex(s, last) == |init|;
    }
  }

  /** A distinct sequence is its own de-duplication. */
  lemma {:induction false} DedupOfDistinct<T(!new)>(s: seq<T>)
    requires Distinct(s)
    ensures Dedup(s) == s
  {
    if |s| > 0 {
      var init, last := s[..|s| - 1], s[|s| - 1];
      assert s == init + [last];
      assert Distinct(init) by {
        forall i, j | 0 <= i < j < |init| ensures init[i] != init[j] {
          assert init[i] == s[i] && init[j] == s[j];
        }
      }
      DedupOfDistinct(init);
      assert last !in init by {
        forall i | 0 <= i < |init| ensures init[i] != last {
          assert init[i] == s[i];
        }
      }
    }
  }

  /** Appending an element already present to a distinct sequence leaves its de-duplication unchanged. */
  lemma DedupOfRepeatLast<T(!new)>(s: seq<T>, x: T)
    requires Distinct(s) && x in s
    ensures Dedup(s + [x]) == s
  {
    assert (s + [x])[..|s|] == s;
    DedupOfDistinct(s);
  }
}

=== FILE: sorting.dfy ===
/**
 * `Array.prototype.sort`, which is stable, modelled as insertion sort under a
 * caller-supplied "less than or equal" relation that is a total preorder.
 */
module Sorting {
  import opened Sequences

  ghost predicate TotalPreorder<T(!new)>(le: (T, T) -> bool) {
    && (forall a, b :: le(a, b) || le(b, a))
    && (forall a, b, c :: le(a, b) && le(b, c) ==> le(a, c))
  }

  predicate SortedBy<T>(le: (T, T) -> bool, s: seq<T>) {
    forall i, j :: 0 <= i < j < |s| ==> le(s[i], s[j])
  }

  /** `a` and `b` are tied under `le`: a stable sort keeps tied elements in input order. */
  predicate Tied<T>(le: (T, T) -> bool, a: T, b: T) {
    le(a, b) && le(b, a)
  }

  /** The elements of `s` tied with `y`, in order. */
  function TiedWith<T>(le: (T, T) -> bool, s: seq<T>, y: T): (r: seq<T>)
    ensures |r| <= |s|
  {
    if |s| == 0 then []
    else (if Tied(le, s[0], y) then [s[0]] else []) + TiedWith(le, s[1..], y)
  }

  /** Places `x` after every element of `s` that is at most `x`. */
  function Insert<T>(le: (T, T) -> bool, x: T, s: seq<T>): (r: seq<T>)
    ensures |r| == |s| + 1
    ensures multiset(r) == multiset(s) + multiset{x}
  {
    if |s| == 0 then [x]
    else if le(s[0], x) then
      var r := [s[0]] + Insert(le, x, s[1..]);
      assert s == [s[0]] + s[1..];
      r
    else [x] + s
  }

  /** A stable sort of `s`: a sorted permutation that keeps tied elements in input order. */
  function SortBy<T(!new)>(le: (T, T) -> bool, s: seq<T>): (r: seq<T>)
    requires TotalPreorder(le)
    ensures multiset(r) == multiset(s)
    ensures SortedBy(le, r)
  {
    if |s| == 0 then []
    else
      var init := SortBy(le, s[..|s| - 1]);
      InsertKeepsSorted(le, s[|s| - 1], init);
      MultisetOfSnoc(s);
      Insert(le, s[|s| - 1], init)
  }

  lemma {:induction false} InsertKeepsSorted<T(!new)>(le: (T, T) -> bool, x: T, s: seq<T>)
    requires TotalPreorder(le)
    requires SortedBy(le, s)
    ensures SortedBy(le, Insert(le, x, s))
  {
    if |s| > 0 && le(s[0], x) {
      InsertKeepsSorted(le, x, s[1..]);
      var r := Insert(le, x, s);
      var t := Insert(le, x, s[1..]);
      assert r == [s[0]] + t;
      forall j | 0 < j < |r| ensures le(s[0], r[j]) {
        assert r[j] in multiset(t);
        assert r[j] in multiset(s[1..]) + multiset{x};
        if r[j] != x || r[j] in multiset(s[1..]) {
          if r[j] in multiset(s[1..]) {
            var k :| 0 <= k < |s[1..]| && s[1..][k] == r[j];
            assert s[k + 1] == r[j];
          }
        }
      }
    }
  }

  lemma {:induction false} TiedWithAppend<T>(le: (T, T) -> bool, a: seq<T>, b: seq<T>, y: T)
    ensures TiedWith(le, a + b, y) == TiedWith(le, a, y) + TiedWith(le, b, y)
  {
    if |a| > 0 {
      assert (a + b)[1..] == a[1..] + b;
      TiedWithAppend(le, a[1..], b, y);
    } else {
      assert a + b == b;
    }
  }

  lemma {:induction false} TiedWithNone<T>(le: (T, T) -> bool, s: seq<T>, y: T)
    requires forall k :: 0 <= k < |s| ==> !Tied(le, s[k], y)
    ensures TiedWith(le, s, y) == []
  {
    if |s| > 0 {
      TiedWithNone(le, s[1..], y);
    }
  }

  /** Nothing after the insertion point of `x` is tied with anything tied with `x`. */
  lemma NoneTiedAfterInsertPoint<T(!new)>(le: (T, T) -> bool, x: T, s: seq<T>, y: T)
    requires TotalPreorder(le)
    requires SortedBy(le, s)
    requires |s| > 0 && !le(s[0], x) && Tied(le, x, y)
    ensures forall k :: 0 <= k < |s| ==> !Tied(le, s[k], y)
  {
    assert !le(s[0], y);
    forall k | 0 <= k < |s| ensures !le(s[k], y) {
      assert le(s[0], s[k]);
    }
  }

  /** Inserting `x` into a sorted sequence puts it after everything tied with it. */
  lemma {:induction false} InsertStable<T(!new)>(le: (T, T) -> bool, x: T, s: seq<T>, y: T)
    requires TotalPreorder(le)
    requires SortedBy(le, s)
    ensures TiedWith(le, Insert(le, x, s), y)
         == TiedWith(le, s, y) + (if Tied(le, x, y) then [x] else [])
  {
    if |s| == 0 {
      TiedWithCons(le, x, [], y);
    } else if le(s[0], x) {
      assert SortedBy(le, s[1..]);
      InsertStable(le, x, s[1..], y);
      assert Insert(le, x, s) == [s[0]] + Insert(le, x, s[1..]);
      TiedWithConsBoth(le, s[0], Insert(le, x, s[1..]), s[1..], y, if Tied(le, x, y) then [x] else []);
      assert [s[0]] + s[1..] == s;
    } else {
      if Tied(le, x, y) {
        NoneTiedAfterInsertPoint(le, x, s, y);
      }
      InsertStableAtHead(le, x, s, y);
    }
  }

  lemma TiedWithCons<T>(le: (T, T) -> bool, a: T, s: seq<T>, y: T)
    ensures TiedWith(le, [a] + s, y) == (if Tied(le, a, y) then [a] else []) + TiedWith(le, s, y)
  {
    assert ([a] + s)[1..] == s;
  }

  /** Putting the same element in front of two sequences keeps a relation between their tied elements. */
  lemma TiedWithConsBoth<T>(le: (T, T) -> bool, a: T, t: seq<T>, u: seq<T>, y: T, last: seq<T>)
    requires TiedWith(le, t, y) == TiedWith(le, u, y) + last
    ensures TiedWith(le, [a] + t, y) == TiedWith(le, [a] + u, y) + last
  {
    TiedWithCons(le, a, t, y);
    TiedWithCons(le, a, u, y);
    AppendAssoc(if Tied(le, a, y) then [a] else [], TiedWith(le, u, y), last);
  }


  /** The step of `InsertStable` where `x` goes first: then nothing after it may be tied with `y` if `x` is. */
  lemma InsertStableAtHead<T>(le: (T, T) -> bool, x: T, s: seq<T>, y: T)
    requires |s| > 0 && !le(s[0], x)
    requires Tied(le, x, y) ==> forall k :: 0 <= k < |s| ==> !Tied(le, s[k], y)
    ensures TiedWith(le, Insert(le, x, s), y)
         == TiedWith(le, s, y) + (if Tied(le, x, y) then [x] else [])
  {
    assert Insert(le, x, s) == [x] + s;
    TiedWithCons(le, x, s, y);
    if Tied(le, x, y) {
      TiedWithNone(le, s, y);
    }
  }

  /** Stability: for every `y`, the elements tied with `y` keep their input order. */
  lemma {:induction false} SortByStable<T(!new)>(le: (T, T) -> bool, s: seq<T>, y: T)
    requires TotalPreorder(le)
    ensures TiedWith(le, SortBy(le, s), y) == TiedWith(le, s, y)
  {
    if |s| > 0 {
      var init := s[..|s| - 1];
      var x := s[|s| - 1];
      assert s == init + [x];
      assert SortBy(le, s) == Insert(le, x, SortBy(le, init));
      SortByStable(le, init, y);
      InsertStable(le, x, SortBy(le, init), y);
      TiedWithAppend(le, init, [x], y);
    }
  }

  /**
   * Under an antisymmetric order there is only one sorted permutation, so any
   * sorting algorithm gives the same result as this one.
   */
  lemma {:induction false} SortedPermutationUnique<T(!new)>(le: (T, T) -> bool, a: seq<T>, b: seq<T>)
    requires TotalPreorder(le)
    requires forall x, y :: le(x, y) && le(y, x) ==> x == y
    requires SortedBy(le, a) && SortedBy(le, b)
    requires multiset(a) == multiset(b)
    ensures a == b
  {
    if |a| > 0 {
      assert |b| == |multiset(b)| == |multiset(a)| == |a|;
      HeadsEqual(le, a, b);
      assert multiset(a[1..]) == multiset(a) - multiset{a[0]} by {
        assert a == [a[0]] + a[1..];
      }
      assert multiset(b[1..]) == multiset(b) - multiset{b[0]} by {
        assert b == [b[0]] + b[1..];
      }
      assert SortedBy(le, a[1..]) && SortedBy(le, b[1..]);
      SortedPermutationUnique(le, a[1..], b[1..]);
    }
  }

  lemma HeadsEqual<T(!new)>(le: (T, T) -> bool, a: seq<T>, b: seq<T>)
    requires forall x, y :: le(x, y) && le(y, x) ==> x == y
    requires SortedBy(le, a) && SortedBy(le, b)
    requires multiset(a) == multiset(b) && |a| > 0 && |b| > 0
    ensures a[0] == b[0]
  {
    assert a[0] in multiset(b);
    assert b[0] in multiset(a);
    var i :| 0 <= i < |b| && b[i] == a[0];
    var j :| 0 <= j < |a| && a[j] == b[0];
    if i > 0 && j > 0 {
      assert le(b[0], b[i]) && le(a[0], a[j]);
    }
  }
}

=== FILE: stdlib.dfy ===
/**
 * The standard-library name list that the dependency tree and the exporter
 * each carry a copy of. The two copies are identical, entries included twice
 * ('logging', 'platform') as well; they differ only in how a name is looked up.
 */
module Stdlib {
  import opened Strings

  const Names: seq<string> := Row0 + Row1 + Row2 + Row3 + Row4 + Row5 + Row6 + Row7 + Row8

  /** The standard-library module names the source lists, in its order. */
  const Row0: seq<string> := ["os", "sys", "json", "datetime", "collections", "itertools", "functools", "operator"]
  const Row1: seq<string> := ["math", "random", "string", "re", "urllib", "http", "email", "html"]
  const Row2: seq<string> := ["xml", "sqlite3", "csv", "configparser", "logging", "unittest", "doctest", "pdb"]
  const Row3: seq<string> := ["profile", "timeit", "trace", "gc", "inspect", "ast", "dis", "pickle"]
  const Row4: seq<string> := ["copy", "pprint", "reprlib", "enum", "numbers", "decimal", "fractions", "statistics"]
  const Row5: seq<string> := ["pathlib", "fileinput", "tempfile", "glob", "fnmatch", "linecache", "shutil", "macpath"]
  const Row6: seq<string> := ["platform", "errno", "io", "time", "argparse", "getopt", "logging", "getpass"]
  const Row7: seq<string> := ["curses", "platform", "ctypes", "struct", "codecs", "unicodedata", "stringprep", "readline"]
  const Row8: seq<string> := ["rlcompleter"]

  /** The dependency tree's lookup: the name exactly as given. */
  predicate IsStandardLibrary(name: string) {
    name in Names
  }

  /** The exporter's lookup: the lower-cased name. */
  predicate IsStandardLibraryIgnoringCase(name: string) {
    ToLower(name) in Names
  }

  /** 'JSON' is a standard-library name to the exporter but not to the dependency tree. */
  lemma LookupsDisagreeOnCase()
    ensures !IsStandardLibrary("JSON") && IsStandardLibraryIgnoringCase("JSON")
  {
    NamesStartLowerCase();
    assert "JSON"[0] == 'J';
    assert ToLower("JSON") == "json" == Names[2];
  }

  predicate StartsLower(n: string) {
    |n| > 0 && 'a' <= n[0] <= 'z'
  }

  predicate AllStartLower(row: seq<string>) {
    forall i :: 0 <= i < |row| ==> StartsLower(row[i])
  }

  /** Every listed name starts with a lower-case letter, so no name with a capital first letter is listed. */
  lemma NamesStartLowerCase()
    ensures forall n :: n in Names ==> StartsLower(n)
  {
    FirstRowsStartLower();
    MiddleRowsStartLower();
    LastRowsStartLower();
  }

  lemma FirstRowsStartLower()
    ensures AllStartLower(Row0) && AllStartLower(Row1) && AllStartLower(Row2)
  {
  }

  lemma MiddleRowsStartLower()
    ensures AllStartLower(Row3) && AllStartLower(Row4) && AllStartLower(Row5)
  {
  }

  lemma LastRowsStartLower()
    ensures AllStartLower(Row6) && AllStartLower(Row7) && AllStartLower(Row8)
  {
  }

  /** The list repeats two names, so it has fewer distinct names than entries. */
  lemma NamesRepeat()
    ensures |Names| == 65
    ensures Names[20] == Names[54] == "logging" && Names[48] == Names[57] == "platform"
  {
  }
}

=== FILE: strings.dfy ===
/**
 * The JavaScript string operations the server's pure logic is written with
 * (`trim`, `split`, `join`, `startsWith`, `includes`, `toLowerCase`, decimal
 * rendering of a count), stated once over `string` = `seq<char>`.
 */
module Strings {
  import Sequences

  /** The code points `String.prototype.trim` removes: ECMAScript WhiteSpace and LineTerminator. */
  predicate IsSpace(c: char) {
    || c == '\t' || c == '\n' || c == '\U{000B}' || c == '\U{000C}' || c == '\r' || c == ' '
    || c == '\U{00A0}' || c == '\U{1680}' || ('\U{2000}' <= c <= '\U{200A}')
    || c == '\U{2028}' || c == '\U{2029}' || c == '\U{202F}' || c == '\U{205F}'
    || c == '\U{3000}' || c == '\U{FEFF}'
  }

  /** The code points a regular-expression `.` does not match. */
  predicate IsLineTerminator(c: char) {
    c == '\n' || c == '\r' || c == '\U{2028}' || c == '\U{2029}'
  }

  predicate IsDigit(c: char) {
    '0' <= c <= '9'
  }

  predicate AllDigits(s: string) {
    forall i :: 0 <= i < |s| ==> IsDigit(s[i])
  }

  /** `s` has nothing for `trim` to remove. */
  predicate Trimmed(s: string) {
    s == [] || (!IsSpace(s[0]) && !IsSpace(s[|s| - 1]))
  }

  function TrimStart(s: string): (r: string)
    ensures |r| <= |s| && r == s[|s| - |r|..]
    ensures r == [] || !IsSpace(r[0])
  {
    if |s| > 0 && IsSpace(s[0]) then TrimStart(s[1..]) else s
  }

  function TrimEnd(s: string): (r: string)
    ensures |r| <= |s| && r == s[..|r|]
    ensures r == [] || !IsSpace(r[|r| - 1])
  {
    if |s| > 0 && IsSpace(s[|s| - 1]) then TrimEnd(s[..|s| - 1]) else s
  }

  /** `TrimStart` removes only spaces. */
  lemma {:induction false} TrimStartDropsSpaces(s: string)
    ensures forall i :: 0 <= i < |s| - |TrimStart(s)| ==> IsSpace(s[i])
  {
    if |s| > 0 && IsSpace(s[0]) {
      TrimStartDropsSpaces(s[1..]);
      assert forall i :: 1 <= i < |s| ==> s[i] == s[1..][i - 1];
    }
  }

  /** `TrimEnd` removes only spaces. */
  lemma {:induction false} TrimEndDropsSpaces(s: string)
    ensures forall i :: |TrimEnd(s)| <= i < |s| ==> IsSpace(s[i])
  {
    if |s| > 0 && IsSpace(s[|s| - 1]) {
      TrimEndDropsSpaces(s[..|s| - 1]);
      assert forall i :: 0 <= i < |s| - 1 ==> s[i] == s[..|s| - 1][i];
    }
  }

  /** `sub` occurs in `s` at position `i`. */
  predicate OccursAt(s: string, sub: string, i: int) {
    0 <= i <= |s| - |sub| && s[i..i + |sub|] == sub
  }

  /** A prefix of a suffix is an infix. */
  lemma PrefixOfSuffix(s: string, k: nat, n: nat)
    requires k <= |s| && n <= |s| - k
    ensures s[k..][..n] == s[k..k + n]
  {
  }

  /** Trimming both ends leaves neither a leading nor a trailing space. */
  lemma TrimBothEndsTrimmed(s: string)
    ensures Trimmed(TrimEnd(TrimStart(s)))
  {
    var t := TrimStart(s);
    var r := TrimEnd(t);
    if r != [] {
      assert r[0] == t[0];
    }
  }

  /** Trimming both ends leaves an infix that starts where the leading spaces end. */
  lemma TrimBothEndsInfix(s: string)
    ensures OccursAt(s, TrimEnd(TrimStart(s)), |s| - |TrimStart(s)|)
  {
    var t := TrimStart(s);
    PrefixOfSuffix(s, |s| - |t|, |TrimEnd(t)|);
  }

  /** `s.trim()`: the longest infix of `s` that neither starts nor ends with a space. */
  function Trim(s: string): (r: string)
    ensures Trimmed(r)
    ensures OccursAt(s, r, |s| - |TrimStart(s)|)
  {
    TrimBothEndsTrimmed(s);
    TrimBothEndsInfix(s);
    TrimEnd(TrimStart(s))
  }

  /** `TrimStart` empties a string made only of spaces. */
  lemma {:induction false} TrimStartOfAllSpaces(s: string)
    ensures (forall i :: 0 <= i < |s| ==> IsSpace(s[i])) ==> TrimStart(s) == []
  {
    if |s| > 0 {
      TrimStartOfAllSpaces(s[1..]);
      assert forall i :: 0 <= i < |s| - 1 ==> s[1..][i] == s[i + 1];
    }
  }

  /** Trimming empties exactly the strings made only of spaces. */
  lemma TrimEmpty(s: string)
    ensures Trim(s) == [] <==> forall i :: 0 <= i < |s| ==> IsSpace(s[i])
  {
    TrimStartDropsSpaces(s);
    TrimEndDropsSpaces(TrimStart(s));
    TrimStartOfAllSpaces(s);
  }

  /** Trimming leaves a string without outer spaces unchanged. */
  lemma TrimOfTrimmed(s: string)
    requires Trimmed(s)
    ensures Trim(s) == s
  {
  }

  /** Every character of a trimmed string comes from the original at the same offset from the start of its non-space part. */
  lemma TrimInfix(s: string)
    ensures forall i :: 0 <= i < |Trim(s)| ==> Trim(s)[i] == s[|s| - |TrimStart(s)| + i]
  {
  }

  /** A string that starts with a non-space keeps its first character when trimmed. */
  lemma TrimKeepsFirst(s: string)
    requires |s| > 0 && !IsSpace(s[0])
    ensures |Trim(s)| > 0 && Trim(s)[0] == s[0]
  {
    assert TrimStart(s) == s;
    TrimEndDropsSpaces(s);
  }

  lemma TrimIdempotent(s: string)
    ensures Trim(Trim(s)) == Trim(s)
  {
    TrimOfTrimmed(Trim(s));
  }

  lemma {:induction false} TrimStartOfSpaces(pre: string, t: string)
    requires forall i :: 0 <= i < |pre| ==> IsSpace(pre[i])
    requires t == [] || !IsSpace(t[0])
    ensures TrimStart(pre + t) == t
  {
    if |pre| > 0 {
      assert (pre + t)[1..] == pre[1..] + t;
      TrimStartOfSpaces(pre[1..], t);
    }
  }

  lemma {:induction false} TrimEndOfSpaces(t: string, post: string)
    requires forall i :: 0 <= i < |post| ==> IsSpace(post[i])
    requires t == [] || !IsSpace(t[|t| - 1])
    ensures TrimEnd(t + post) == t
  {
    if |post| > 0 {
      assert (t + post)[..|t + post| - 1] == t + post[..|post| - 1];
      TrimEndOfSpaces(t, post[..|post| - 1]);
    }
  }

  /** Trimming removes exactly the spaces around a string without outer spaces. */
  lemma TrimOfPadded(pre: string, s: string, post: string)
    requires forall i :: 0 <= i < |pre| ==> IsSpace(pre[i])
    requires forall i :: 0 <= i < |post| ==> IsSpace(post[i])
    requires Trimmed(s)
    ensures Trim(pre + s + post) == s
  {
    if s == [] {
      assert pre + s + post == pre + post + [];
      TrimStartOfSpaces(pre + post, []);
    } else {
      assert pre + s + post == pre + (s + post);
      TrimStartOfSpaces(pre, s + post);
      TrimEndOfSpaces(s, post);
    }
  }

  function StartsWith(s: string, prefix: string): bool {
    |prefix| <= |s| && s[..|prefix|] == prefix
  }

  function EndsWith(s: string, suffix: string): bool {
    |suffix| <= |s| && s[|s| - |suffix|..] == suffix
  }

  /** `s.includes(sub)`. */
  function Contains(s: string, sub: string): (b: bool)
    ensures b <==> exists i :: OccursAt(s, sub, i)
  {
    if StartsWith(s, sub) then
      assert OccursAt(s, sub, 0);
      true
    else if |s| == 0 then false
    else
      var b := Contains(s[1..], sub);
      assert forall i :: OccursAt(s, sub, i) && i >= 1 ==> OccursAt(s[1..], sub, i - 1);
      assert forall i :: OccursAt(s[1..], sub, i) ==> OccursAt(s, sub, i + 1);
      b
  }

  /** A string that occurs in a larger one occurs in everything that contains the larger one. */
  lemma ContainsTransitive(s: string, mid: string, sub: string)
    requires Contains(s, mid) && Contains(mid, sub)
    ensures Contains(s, sub)
  {
    var i :| OccursAt(s, mid, i);
    var j :| OccursAt(mid, sub, j);
    assert forall k :: 0 <= k < |sub| ==> sub[k] == mid[j + k] == s[i + j + k];
    assert OccursAt(s, sub, i + j);
  }

  /** ASCII lower-casing of one character. */
  function LowerChar(c: char): (d: char)
    ensures !('A' <= d <= 'Z')
    ensures !('A' <= c <= 'Z') ==> d == c
  {
    if 'A' <= c <= 'Z' then (c as int - 'A' as int + 'a' as int) as char else c
  }

  /** `s.toLowerCase()` on ASCII letters. */
  function ToLower(s: string): (r: string)
    ensures |r| == |s|
    ensures forall i :: 0 <= i < |s| ==> r[i] == LowerChar(s[i])
  {
    seq(|s|, i requires 0 <= i < |s| => LowerChar(s[i]))
  }

  lemma ToLowerIdempotent(s: string)
    ensures ToLower(ToLower(s)) == ToLower(s)
  {
  }

  lemma ToLowerConcat(a: string, b: string)
    ensures ToLower(a + b) == ToLower(a) + ToLower(b)
  {
  }

  /** Lower-casing changes no space, so a trimmed string stays trimmed. */
  lemma ToLowerKeepsTrimmed(s: string)
    requires Trimmed(s)
    ensures Trimmed(ToLower(s))
  {
  }

  /**
   * `s.split(sep)` for a one-character separator: the pieces between the
   * separators, always at least one.
   */
  function Split(s: string, sep: char): (parts: seq<string>)
    ensures |parts| >= 1
    ensures forall i :: 0 <= i < |parts| ==> sep !in parts[i]
  {
    if |s| == 0 then [""]
    else
      var rest := Split(s[1..], sep);
      if s[0] == sep then [""] + rest else [[s[0]] + rest[0]] + rest[1..]
  }

  /** `parts.join(sep)`. */
  function Join(parts: seq<string>, sep: string): string {
    if |parts| == 0 then ""
    else if |parts| == 1 then parts[0]
    else parts[0] + sep + Join(parts[1..], sep)
  }

  /** Splitting a join of separator-free pieces gives back the pieces. */
  lemma {:induction false} SplitJoin(parts: seq<string>, sep: char)
    requires |parts| >= 1
    requires forall i :: 0 <= i < |parts| ==> sep !in parts[i]
    ensures Split(Join(parts, [sep]), sep) == parts
  {
    if |parts| == 1 {
      SplitNoSeparator(parts[0], sep);
    } else {
      SplitJoin(parts[1..], sep);
      SplitAppend(parts[0], Join(parts[1..], [sep]), sep);
      SplitNoSeparator(parts[0], sep);
      assert [parts[0]] + parts[1..] == parts;
    }
  }

  /** A string without the separator is one piece. */
  lemma {:induction false} SplitNoSeparator(s: string, sep: char)
    requires sep !in s
    ensures Split(s, sep) == [s]
  {
    if |s| > 0 {
      SplitNoSeparator(s[1..], sep);
      assert [s[0]] + s[1..] == s;
    }
  }

  /** A separator between two strings splits them apart. */
  lemma {:induction false} SplitAppend(a: string, b: string, sep: char)
    ensures Split(a + [sep] + b, sep) == Split(a, sep) + Split(b, sep)
  {
    if |a| == 0 {
      assert a + [sep] + b == [sep] + b;
      assert ([sep] + b)[1..] == b;
    } else {
      SplitAppend(a[1..], b, sep);
      SplitAppendStep(a, b, sep);
    }
  }

  /** The inductive step of `SplitAppend`: a first character in front of both sides. */
  lemma SplitAppendStep(a: string, b: string, sep: char)
    requires |a| > 0
    requires Split(a[1..] + [sep] + b, sep) == Split(a[1..], sep) + Split(b, sep)
    ensures Split(a + [sep] + b, sep) == Split(a, sep) + Split(b, sep)
  {
    var s := a + [sep] + b;
    assert s == [a[0]] + (a[1..] + [sep] + b);
    assert a == [a[0]] + a[1..];
    SplitCons(a[0], a[1..] + [sep] + b, sep);
    SplitCons(a[0], a[1..], sep);
    var rest, tail := Split(a[1..], sep), Split(b, sep);
    if a[0] == sep {
      Sequences.AppendAssoc([""], rest, tail);
    } else {
      SplitAppendJoinFirst(a[0], rest, tail);
    }
  }

  /** How `Split` treats a first character. */
  lemma SplitCons(c: char, t: string, sep: char)
    ensures Split([c] + t, sep)
         == if c == sep then [""] + Split(t, sep) else [[c] + Split(t, sep)[0]] + Split(t, sep)[1..]
  {
    assert ([c] + t)[1..] == t;
  }

  /** A character joining the first piece commutes with appending further pieces. */
  lemma SplitAppendJoinFirst(c: char, rest: seq<string>, tail: seq<string>)
    requires |rest| > 0
    ensures [[c] + (rest + tail)[0]] + (rest + tail)[1..] == ([[c] + rest[0]] + rest[1..]) + tail
  {
    assert (rest + tail)[0] == rest[0];
    assert (rest + tail)[1..] == rest[1..] + tail;
    Sequences.AppendAssoc([[c] + rest[0]], rest[1..], tail);
  }

  /** The text of `s` before its first `sep` (all of `s` when there is none). */
  function UpTo(s: string, sep: char): (r: string)
    ensures sep !in r && StartsWith(s, r)
    ensures |r| < |s| ==> s[|r|] == sep
  {
    if |s| == 0 || s[0] == sep then "" else [s[0]] + UpTo(s[1..], sep)
  }

  /** The first piece of a split is the text before the first separator. */
  lemma {:induction false} SplitFirst(s: string, sep: char)
    ensures Split(s, sep)[0] == UpTo(s, sep)
  {
    if |s| > 0 && s[0] != sep {
      SplitFirst(s[1..], sep);
    }
  }

  /** Value of a string of decimal digits. */
  function DigitsValue(s: string): nat
    requires AllDigits(s)
  {
    if |s| == 0 then 0 else 10 * DigitsValue(s[..|s| - 1]) + (s[|s| - 1] as int - '0' as int)
  }

  function DigitChar(d: nat): (c: char)
    requires d < 10
    ensures IsDigit(c) && c as int - '0' as int == d
  {
    ('0' as int + d) as char
  }

  /** The decimal rendering of a count, as template literals print it. */
  function NatToString(n: nat): (s: string)
    ensures |s| >= 1 && AllDigits(s)
    ensures DigitsValue(s) == n
    ensures s[0] != '0' || n == 0
  {
    if n < 10 then [DigitChar(n)]
    else
      var p := NatToString(n / 10);
      var s := p + [DigitChar(n % 10)];
      assert s[..|s| - 1] == p;
      s
  }

  /** Distinct counts render differently. */
  lemma NatToStringInjective(a: nat, b: nat)
    requires NatToString(a) == NatToString(b)
    ensures a == b
  {
  }

  /** Code-unit order of `Array.prototype.sort` without a comparator (lexicographic, prefix first). */
  predicate LexLe(a: string, b: string) {
    |a| == 0 || (|b| > 0 && (a[0] < b[0] || (a[0] == b[0] && LexLe(a[1..], b[1..]))))
  }

  lemma {:induction false} LexLeTotal(a: string, b: string)
    ensures LexLe(a, b) || LexLe(b, a)
  {
    if |a| > 0 && |b| > 0 && a[0] == b[0] {
      LexLeTotal(a[1..], b[1..]);
    }
  }

  lemma {:induction false} LexLeTransitive(a: string, b: string, c: string)
    requires LexLe(a, b) && LexLe(b, c)
    ensures LexLe(a, c)
  {
    if |a| > 0 && |b| > 0 && |c| > 0 && a[0] == b[0] && b[0] == c[0] {
      LexLeTransitive(a[1..], b[1..], c[1..]);
    }
  }

  lemma {:induction false} LexLeAntisymmetric(a: string, b: string)
    requires LexLe(a, b) && LexLe(b, a)
    ensures a == b
  {
    if |a| > 0 && |b| > 0 {
      LexLeAntisymmetric(a[1..], b[1..]);
      assert a == [a[0]] + a[1..] && b == [b[0]] + b[1..];
    }
  }

  predicate IsQuote(c: char) {
    c == '"' || c == '\''
  }

  /**
   * `s.replace(/^["']|["']$/g, '')`: one leading quote and one trailing quote
   * are removed (a lone quote is removed once).
   */
  function StripQuotes(s: string): (r: string)
    ensures |r| <= |s|
    ensures |s| > 0 && !IsQuote(s[0]) && !IsQuote(s[|s| - 1]) ==> r == s
  {
    var a := if |s| > 0 && IsQuote(s[0]) then s[1..] else s;
    if |a| > 0 && IsQuote(a[|a| - 1]) then a[..|a| - 1] else a
  }

  /** Wrapping a quote-free, non-empty value in quotes and stripping them gives the value back. */
  lemma StripQuotesOfQuoted(q: char, v: string, q': char)
    requires IsQuote(q) && IsQuote(q')
    requires |v| > 0 && !IsQuote(v[0]) && !IsQuote(v[|v| - 1])
    ensures StripQuotes([q] + v + [q']) == v
  {
    var s := [q] + v + [q'];
    assert s[1..] == v + [q'];
    assert (v + [q'])[..|v|] == v;
  }

  /** `s.includes(c)` for a one-character string is membership. */
  lemma ContainsChar(s: string, c: char)
    ensures Contains(s, [c]) <==> c in s
  {
    if c in s {
      var i :| 0 <= i < |s| && s[i] == c;
      assert s[i..i + 1] == [c];
      assert OccursAt(s, [c], i);
    }
    if Contains(s, [c]) {
      var i :| OccursAt(s, [c], i);
      assert s[i] == s[i..i + 1][0];
    }
  }

  /** A string holding the separator splits into at least two pieces. */
  lemma {:induction false} SplitHasTwo(s: string, sep: char)
    requires sep in s
    ensures |Split(s, sep)| >= 2
  {
    if s[0] != sep {
      SplitHasTwo(s[1..], sep);
    }
  }

  /** A separator-free first piece comes off the front of a split. */
  lemma SplitHead(a: string, sep: char, b: string)
    requires sep !in a
    ensures Split(a + [sep] + b, sep) == [a] + Split(b, sep)
  {
    SplitAppend(a, b, sep);
    SplitNoSeparator(a, sep);
  }

  /**
   * `const [key, value] = s.split(sep).map(x => x.trim())`: the first two
   * pieces, trimmed; anything after a second separator is dropped.
   */
  function KeyValue(s: string, sep: char): (r: (string, string))
    requires sep in s
    ensures Trimmed(r.0) && Trimmed(r.1)
  {
    SplitHasTwo(s, sep);
    var pieces := Split(s, sep);
    (Trim(pieces[0]), Trim(pieces[1]))
  }

  /** With a single separator the two sides are the key and the value. */
  lemma KeyValueOfSingle(lhs: string, sep: char, rhs: string)
    requires sep !in lhs && sep !in rhs
    ensures sep in lhs + [sep] + rhs
    ensures KeyValue(lhs + [sep] + rhs, sep) == (Trim(lhs), Trim(rhs))
  {
    assert (lhs + [sep] + rhs)[|lhs|] == sep;
    SplitHead(lhs, sep, rhs);
    SplitNoSeparator(rhs, sep);
  }

  /** A second separator cuts the value short. */
  lemma KeyValueDropsRest(lhs: string, sep: char, rhs: string, more: string)
    requires sep !in lhs && sep !in rhs
    ensures sep in lhs + [sep] + rhs + [sep] + more
    ensures KeyValue(lhs + [sep] + rhs + [sep] + more, sep) == (Trim(lhs), Trim(rhs))
  {
    var t := lhs + [sep] + rhs + [sep] + more;
    assert t[|lhs|] == sep;
    assert t == lhs + [sep] + (rhs + [sep] + more);
    SplitHead(lhs, sep, rhs + [sep] + more);
    SplitHead(rhs, sep, more);
  }

  lemma TrimSpaceAfter(s: string)
    requires Trimmed(s)
    ensures Trim(s + " ") == s
  {
    assert s + " " == "" + s + " ";
    TrimOfPadded("", s, " ");
  }

  lemma TrimSpaceBefore(s: string)
    requires Trimmed(s)
    ensures Trim(" " + s) == s
  {
    assert " " + s == " " + s + "";
    TrimOfPadded(" ", s, "");
  }

  /** `key = value`, spaces around the separator, splits into the key and the value. */
  lemma KeyValueSpaced(key: string, sep: char, value: string)
    requires sep !in key && sep !in value && sep != ' '
    requires Trimmed(key) && Trimmed(value)
    ensures sep in key + " " + [sep] + " " + value
    ensures KeyValue(key + " " + [sep] + " " + value, sep) == (key, value)
  {
    assert key + " " + [sep] + " " + value == (key + " ") + [sep] + (" " + value);
    KeyValueOfSingle(key + " ", sep, " " + value);
    TrimSpaceAfter(key);
    TrimSpaceBefore(value);
  }
}

=== FILE: venv_summary.dfy ===
/**
 * `getRequirementsStatus`: the one-line requirements status of the
 * environment summary, computed from a requirements comparison.
 */
module VenvSummary {
  import opened Strings
  import Requirements

  /** `${count} ${what}` when the count is not zero. */
  function IssuePart(count: nat, what: string): (r: seq<string>)
    ensures |r| <= 1
    ensures |r| == 1 <==> count > 0
    ensures count > 0 ==> r[0] == NatToString(count) + " " + what
  {
    if count > 0 then [NatToString(count) + " " + what] else []
  }

  /** The `issues` list: the non-zero counts, in the order missing, extra, mismatched. */
  function IssueParts(missing: nat, extra: nat, mismatched: nat): (r: seq<string>)
    ensures |r| == (if missing > 0 then 1 else 0) + (if extra > 0 then 1 else 0) + (if mismatched > 0 then 1 else 0)
    ensures missing > 0 ==> r[0] == NatToString(missing) + " missing"
    ensures extra > 0 ==> r[if missing > 0 then 1 else 0] == NatToString(extra) + " extra"
    ensures mismatched > 0 ==> r[|r| - 1] == NatToString(mismatched) + " mismatched"
  {
    var a, b, c := IssuePart(missing, "missing"), IssuePart(extra, "extra"), IssuePart(mismatched, "mismatched");
    ThreeParts(a, b, c);
    a + b + c
  }

  function TotalIssues(c: Requirements.Comparison): nat {
    |c.missing| + |c.extra| + |c.mismatched|
  }

  /**
   * `getRequirementsStatus(requirements)`: "All requirements satisfied" when
   * there is no issue of any kind, extras included; otherwise the total, then
   * the non-zero counts.
   */
  function GetRequirementsStatus(c: Requirements.Comparison): (r: string)
    ensures r == Requirements.AllSatisfied <==> TotalIssues(c) == 0
    ensures TotalIssues(c) > 0 ==>
              r == NatToString(TotalIssues(c)) + " issues: " + Join(IssueParts(|c.missing|, |c.extra|, |c.mismatched|), ", ")
  {
    var total := TotalIssues(c);
    if total == 0 then Requirements.AllSatisfied
    else
      var r := NatToString(total) + " issues: " + Join(IssueParts(|c.missing|, |c.extra|, |c.mismatched|), ", ");
      assert IsDigit(r[0]);
      r
  }

  /** The text before the first `sep` of `s` is a prefix `a` without `sep` that `sep` follows. */
  lemma UpToBeforeSeparator(s: string, a: string, sep: char)
    requires |a| < |s| && s[..|a|] == a && s[|a|] == sep && sep !in a
    ensures UpTo(s, sep) == a
  {
  }

  /** The first word of a status with issues is the total number of issues, which it gives back. */
  lemma StatusStartsWithTotal(c: Requirements.Comparison)
    requires TotalIssues(c) > 0
    ensures UpTo(GetRequirementsStatus(c), ' ') == NatToString(TotalIssues(c))
    ensures DigitsValue(UpTo(GetRequirementsStatus(c), ' ')) == TotalIssues(c)
  {
    var s := GetRequirementsStatus(c);
    var n := NatToString(TotalIssues(c));
    assert s[..|n|] == n && s[|n|] == ' ';
    DigitsHaveNoSpace(n);
    UpToBeforeSeparator(s, n, ' ');
  }

  lemma DigitsHaveNoSpace(n: string)
    requires forall i :: 0 <= i < |n| ==> IsDigit(n[i])
    ensures ' ' !in n
  {
    forall i | 0 <= i < |n| ensures n[i] != ' ' {
      assert IsDigit(n[i]);
    }
  }

  /**
   * The summary and the install command disagree on extras: with only extra
   * packages the summary reports issues while the command says everything is
   * satisfied.
   */
  lemma ExtrasOnlyDisagree(c: Requirements.Comparison)
    requires c.missing == [] && c.mismatched == [] && c.extra != []
    ensures GetRequirementsStatus(c) != Requirements.AllSatisfied
    ensures Requirements.GenerateInstallCommand(c.missing, c.mismatched) == Requirements.AllSatisfied
  {
  }

  /** Where the pieces of three at-most-one-element sequences land in their concatenation. */
  lemma ThreeParts<T>(a: seq<T>, b: seq<T>, c: seq<T>)
    requires |a| <= 1 && |b| <= 1 && |c| <= 1
    ensures |a| == 1 ==> (a + b + c)[0] == a[0]
    ensures |b| == 1 ==> (a + b + c)[|a|] == b[0]
    ensures |c| == 1 ==> (a + b + c)[|a| + |b|] == c[0]
  {
  }
}

=== FILE: versions.dfy ===
/**
 * The version matcher: `compareVersions`, `checkVersionMatch` and
 * `checkCompatibleVersion`. The source carries three verbatim copies of these
 * (requirements, package check, package list); this module is the one
 * definition all three stand for.
 */
module Versions {
  import opened Wrappers
  import opened Strings

  /** The value of JavaScript's `Number(piece)` on one dot-separated piece of a version. */
  datatype JsNum = Num(n: nat) | NaN

  /** `Number(piece)`: the empty piece is 0, a run of decimal digits is its value, anything else NaN. */
  function ToNumber(piece: string): (v: JsNum)
    ensures v.Num? <==> AllDigits(piece)
    ensures piece == "" ==> v == Num(0)
  {
    if AllDigits(piece) then Num(DigitsValue(piece)) else NaN
  }

  /** `version.split('.').map(Number)`. */
  function Parts(version: string): (p: seq<JsNum>)
    ensures |p| == |Split(version, '.')| && |p| >= 1
    ensures forall i :: 0 <= i < |p| ==> p[i] == ToNumber(Split(version, '.')[i])
  {
    var pieces := Split(version, '.');
    seq(|pieces|, i requires 0 <= i < |pieces| => ToNumber(pieces[i]))
  }

  /** The parts of dot-joined pieces are the numbers of the pieces. */
  lemma PartsOfJoin(v: string, pieces: seq<string>)
    requires |pieces| >= 1
    requires forall i :: 0 <= i < |pieces| ==> '.' !in pieces[i]
    requires v == Join(pieces, ".")
    ensures Parts(v) == seq(|pieces|, i requires 0 <= i < |pieces| => ToNumber(pieces[i]))
  {
    SplitJoin(pieces, '.');
  }

  /** The parts of a version made of two dot-free pieces. */
  lemma PartsOfTwo(a: string, b: string)
    requires '.' !in a && '.' !in b
    ensures Parts(a + "." + b) == [ToNumber(a), ToNumber(b)]
  {
    var ps := [a, b];
    assert ps[1..] == [b];
    assert Join(ps, ".") == a + "." + b;
    SplitJoin(ps, '.');
  }

  /** The parts of a version made of three dot-free pieces. */
  lemma PartsOfThree(a: string, b: string, c: string)
    requires '.' !in a && '.' !in b && '.' !in c
    ensures Parts(a + "." + b + "." + c) == [ToNumber(a), ToNumber(b), ToNumber(c)]
  {
    var ps := [a, b, c];
    assert ps[1..] == [b, c] && ps[1..][1..] == [c];
    assert Join([b, c], ".") == b + "." + c;
    assert Join(ps, ".") == a + "." + (b + "." + c);
    assert a + "." + (b + "." + c) == a + "." + b + "." + c;
    SplitJoin(ps, '.');
  }

  /** A single decimal digit is its own value. */
  lemma DigitNumber(c: char)
    requires IsDigit(c)
    ensures ToNumber([c]) == Num(c as int - '0' as int)
  {
    assert AllDigits([c]);
    assert [c][..|[c]| - 1] == [];
    assert DigitsValue([c]) == 10 * DigitsValue([]) + (c as int - '0' as int);
  }

  /** A two-digit number. */
  lemma TwoDigitNumber(a: char, b: char)
    requires IsDigit(a) && IsDigit(b)
    ensures ToNumber([a, b]) == Num(10 * (a as int - '0' as int) + (b as int - '0' as int))
  {
    assert AllDigits([a, b]);
    assert [a, b][..1] == [a];
    DigitNumber(a);
  }

  /** The parts of `a.b` for two decimal digits. */
  lemma DigitVersion2(a: char, b: char)
    requires IsDigit(a) && IsDigit(b)
    ensures Parts([a, '.', b]) == [Num(a as int - '0' as int), Num(b as int - '0' as int)]
  {
    assert [a] + "." + [b] == [a, '.', b];
    PartsOfTwo([a], [b]);
    DigitNumber(a);
    DigitNumber(b);
  }

  /** The parts of `a.b.c` for three decimal digits. */
  lemma DigitVersion3(a: char, b: char, c: char)
    requires IsDigit(a) && IsDigit(b) && IsDigit(c)
    ensures Parts([a, '.', b, '.', c]) == [Num(a as int - '0' as int), Num(b as int - '0' as int), Num(c as int - '0' as int)]
  {
    assert [a] + "." + [b] + "." + [c] == [a, '.', b, '.', c];
    PartsOfThree([a], [b], [c]);
    DigitNumber(a);
    DigitNumber(b);
    DigitNumber(c);
  }

  /** `parts[i] || 0`: a missing or NaN segment counts as zero. */
  function PartValue(p: seq<JsNum>, i: nat): nat {
    if i < |p| && p[i].Num? then p[i].n else 0
  }

  /** `parts[i]`, which is `undefined` past the end. */
  function PartAt(p: seq<JsNum>, i: nat): Option<JsNum> {
    if i < |p| then Some(p[i]) else None
  }

  /** JavaScript `a === b` on two values read with `PartAt`: NaN equals nothing, `undefined` only itself. */
  predicate StrictEquals(a: Option<JsNum>, b: Option<JsNum>) {
    match (a, b)
    case (None, None) => true
    case (Some(x), Some(y)) => x.Num? && y.Num? && x.n == y.n
    case _ => false
  }

  function Max(a: nat, b: nat): nat {
    if a < b then b else a
  }

  /** The first `p1`/`p2` segments at positions `i..n` that differ decide, zero-padded. */
  function CompareFrom(p1: seq<JsNum>, p2: seq<JsNum>, i: nat, n: nat): (r: int)
    ensures r == -1 || r == 0 || r == 1
    decreases n - i
  {
    if i >= n then 0
    else if PartValue(p1, i) > PartValue(p2, i) then 1
    else if PartValue(p1, i) < PartValue(p2, i) then -1
    else CompareFrom(p1, p2, i + 1, n)
  }

  /** `compareVersions(version1, version2)`. */
  function CompareVersions(v1: string, v2: string): (r: int)
    ensures r == -1 || r == 0 || r == 1
    ensures r == -1 <==> exists k: nat :: GreaterAt(Parts(v2), Parts(v1), 0, k)
  {
    var p1 := Parts(v1);
    var p2 := Parts(v2);
    var n := Max(|p1|, |p2|);
    assert n == Max(|p2|, |p1|);
    CompareFromAntisymmetric(p1, p2, 0, n);
    CompareFromOne(p2, p1, 0, n);
    forall k: nat | GreaterAt(p2, p1, 0, k) ensures k < n {
    }
    CompareFrom(p1, p2, 0, n)
  }

  /** The zero-padded segment values of `p1` and `p2` agree at positions `i..k`. */
  ghost predicate AgreeBetween(p1: seq<JsNum>, p2: seq<JsNum>, i: nat, k: nat) {
    forall j :: i <= j < k ==> PartValue(p1, j) == PartValue(p2, j)
  }

  /** `k` is the first position at or after `i` where the zero-padded values differ, and `p1` is larger there. */
  ghost predicate GreaterAt(p1: seq<JsNum>, p2: seq<JsNum>, i: nat, k: nat) {
    i <= k && AgreeBetween(p1, p2, i, k) && PartValue(p1, k) > PartValue(p2, k)
  }

  lemma {:induction false} CompareFromZero(p1: seq<JsNum>, p2: seq<JsNum>, i: nat, n: nat)
    ensures CompareFrom(p1, p2, i, n) == 0 <==> AgreeBetween(p1, p2, i, n)
    decreases n - i
  {
    if i < n && PartValue(p1, i) == PartValue(p2, i) {
      CompareFromZero(p1, p2, i + 1, n);
    }
  }

  lemma {:induction false} CompareFromOne(p1: seq<JsNum>, p2: seq<JsNum>, i: nat, n: nat)
    ensures CompareFrom(p1, p2, i, n) == 1 <==> exists k: nat :: k < n && GreaterAt(p1, p2, i, k)
    decreases n - i
  {
    if i < n {
      if PartValue(p1, i) > PartValue(p2, i) {
        assert GreaterAt(p1, p2, i, i);
      } else if PartValue(p1, i) < PartValue(p2, i) {
        forall k: nat | k < n ensures !GreaterAt(p1, p2, i, k) {
          assert PartValue(p1, i) != PartValue(p2, i);
        }
      } else {
        CompareFromOne(p1, p2, i + 1, n);
        if CompareFrom(p1, p2, i + 1, n) == 1 {
          var k: nat :| k < n && GreaterAt(p1, p2, i + 1, k);
          assert GreaterAt(p1, p2, i, k);
        }
        if exists k: nat :: k < n && GreaterAt(p1, p2, i, k) {
          var k: nat :| k < n && GreaterAt(p1, p2, i, k);
          assert GreaterAt(p1, p2, i + 1, k);
        }
      }
    }
  }

  lemma {:induction false} CompareFromAntisymmetric(p1: seq<JsNum>, p2: seq<JsNum>, i: nat, n: nat)
    ensures CompareFrom(p1, p2, i, n) == -CompareFrom(p2, p1, i, n)
    decreases n - i
  {
    if i < n && PartValue(p1, i) == PartValue(p2, i) {
      CompareFromAntisymmetric(p1, p2, i + 1, n);
    }
  }

  lemma {:induction false} CompareFromTransitive(p1: seq<JsNum>, p2: seq<JsNum>, p3: seq<JsNum>, i: nat, n: nat)
    requires CompareFrom(p1, p2, i, n) <= 0 && CompareFrom(p2, p3, i, n) <= 0
    ensures CompareFrom(p1, p3, i, n) <= 0
    decreases n - i
  {
    if i < n && PartValue(p1, i) == PartValue(p2, i) && PartValue(p2, i) == PartValue(p3, i) {
      CompareFromTransitive(p1, p2, p3, i + 1, n);
    }
  }

  /** Comparing further than both lengths changes nothing: the extra segments are zero on both sides. */
  lemma {:induction false} CompareFromPastEnd(p1: seq<JsNum>, p2: seq<JsNum>, i: nat, n: nat)
    requires n >= Max(|p1|, |p2|)
    ensures CompareFrom(p1, p2, i, n) == CompareFrom(p1, p2, i, Max(|p1|, |p2|))
    decreases n - i
  {
    if i < n {
      CompareFromPastEnd(p1, p2, i + 1, n);
    }
  }

  /** Equal under `compareVersions` means equal segment by segment after zero-padding. */
  lemma CompareZeroIffPaddedEqual(v1: string, v2: string)
    ensures CompareVersions(v1, v2) == 0
        <==> forall i: nat :: PartValue(Parts(v1), i) == PartValue(Parts(v2), i)
  {
    var p1, p2 := Parts(v1), Parts(v2);
    CompareFromZero(p1, p2, 0, Max(|p1|, |p2|));
  }

  /** `compareVersions` is 1 exactly when the first differing padded segment is larger in `v1`. */
  lemma CompareOneIffFirstDifferenceGreater(v1: string, v2: string)
    ensures CompareVersions(v1, v2) == 1
        <==> exists k: nat :: GreaterAt(Parts(v1), Parts(v2), 0, k)
  {
    var p1, p2 := Parts(v1), Parts(v2);
    var n := Max(|p1|, |p2|);
    CompareFromOne(p1, p2, 0, n);
    forall k: nat | GreaterAt(p1, p2, 0, k) ensures k < n {
    }
  }

  lemma CompareReflexive(v: string)
    ensures CompareVersions(v, v) == 0
  {
    CompareZeroIffPaddedEqual(v, v);
  }

  lemma CompareAntisymmetric(v1: string, v2: string)
    ensures CompareVersions(v1, v2) == -CompareVersions(v2, v1)
  {
    var p1, p2 := Parts(v1), Parts(v2);
    CompareFromAntisymmetric(p1, p2, 0, Max(|p1|, |p2|));
    assert Max(|p1|, |p2|) == Max(|p2|, |p1|);
  }

  lemma CompareTransitive(v1: string, v2: string, v3: string)
    requires CompareVersions(v1, v2) <= 0 && CompareVersions(v2, v3) <= 0
    ensures CompareVersions(v1, v3) <= 0
  {
    var p1, p2, p3 := Parts(v1), Parts(v2), Parts(v3);
    var n := Max(Max(|p1|, |p2|), |p3|);
    CompareFromPastEnd(p1, p2, 0, n);
    CompareFromPastEnd(p2, p3, 0, n);
    CompareFromPastEnd(p1, p3, 0, n);
    CompareFromTransitive(p1, p2, p3, 0, n);
  }

  /** Versions whose padded segments agree compare equal. */
  lemma CompareAgreeingParts(v1: string, v2: string, p1: seq<JsNum>, p2: seq<JsNum>)
    requires Parts(v1) == p1 && Parts(v2) == p2
    requires AgreeBetween(p1, p2, 0, Max(|p1|, |p2|))
    ensures CompareVersions(v1, v2) == 0
  {
    CompareFromZero(p1, p2, 0, Max(|p1|, |p2|));
  }

  /** Shorter versions are padded with zeros. */
  lemma ComparePadsWithZeros()
    ensures CompareVersions("1.0", "1") == 0
  {
    DigitVersion2('1', '0');
    assert Parts("1") == [Num(1)] by {
      SplitNoSeparator("1", '.');
      DigitNumber('1');
    }
    assert AgreeBetween([Num(1), Num(0)], [Num(1)], 0, 2) by {
      assert PartValue([Num(1)], 1) == 0;
    }
    CompareAgreeingParts("1.0", "1", [Num(1), Num(0)], [Num(1)]);
  }

  /** A non-numeric segment counts as zero. */
  lemma CompareNaNIsZero()
    ensures CompareVersions("2.x", "2.0") == 0
  {
    assert Parts("2.x") == [Num(2), NaN] by {
      assert "2" + "." + "x" == "2.x";
      PartsOfTwo("2", "x");
      DigitNumber('2');
      assert !IsDigit("x"[0]);
    }
    DigitVersion2('2', '0');
    assert AgreeBetween([Num(2), NaN], [Num(2), Num(0)], 0, 2) by {
      assert PartValue([Num(2), NaN], 1) == 0;
    }
    CompareAgreeingParts("2.x", "2.0", [Num(2), NaN], [Num(2), Num(0)]);
  }

  /** An empty segment is zero. */
  lemma CompareEmptySegmentIsZero()
    ensures CompareVersions("1..2", "1.0.2") == 0
  {
    assert Parts("1..2") == [Num(1), Num(0), Num(2)] by {
      assert "1" + "." + "" + "." + "2" == "1..2";
      PartsOfThree("1", "", "2");
      DigitNumber('1');
      DigitNumber('2');
    }
    DigitVersion3('1', '0', '2');
    CompareReflexive("1..2");
  }

  /** Segments compare as numbers, not as strings. */
  lemma CompareNumerically()
    ensures CompareVersions("1.10", "1.9") == 1
  {
    assert Parts("1.10") == [Num(1), Num(10)] by {
      assert "1" + "." + "10" == "1.10";
      PartsOfTwo("1", "10");
      DigitNumber('1');
      TwoDigitNumber('1', '0');
    }
    assert Parts("1.9") == [Num(1), Num(9)] by {
      DigitVersion2('1', '9');
    }
    assert GreaterAt([Num(1), Num(10)], [Num(1), Num(9)], 0, 1);
    CompareOneIffFirstDifferenceGreater("1.10", "1.9");
  }

  /** `checkCompatibleVersion(installedVersion, requiredVersion)`: the `~=` rule. */
  function CheckCompatibleVersion(installed: string, required: string): (r: bool)
    ensures |Parts(installed)| >= 2 && |Parts(required)| >= 2 && r ==> StrictEquals(PartAt(Parts(installed), 0), PartAt(Parts(required), 0))
    ensures var ip, rp := Parts(installed), Parts(required);
            |ip| >= 2 && |rp| >= 2 && StrictEquals(PartAt(ip, 0), PartAt(rp, 0)) && ip[1].Num? && rp[1].Num? && ip[1].n > rp[1].n ==> r
    ensures var ip, rp := Parts(installed), Parts(required);
            |ip| >= 2 && |rp| >= 2 && StrictEquals(PartAt(ip, 0), PartAt(rp, 0)) && ip[1].Num? && rp[1].Num? && ip[1].n < rp[1].n ==> !r
    ensures var ip, rp := Parts(installed), Parts(required);
            |ip| < 2 || |rp| < 2 ==> (r <==> !exists k: nat :: GreaterAt(rp, ip, 0, k))
    ensures var ip, rp := Parts(installed), Parts(required);
            |ip| >= 2 && |rp| >= 2 && StrictEquals(PartAt(ip, 0), PartAt(rp, 0)) && !(ip[1].Num? && rp[1].Num? && ip[1].n != rp[1].n)
            ==> (r <==> !exists k: nat :: GreaterAt(rp, ip, 0, k))
  {
    var ip := Parts(installed);
    var rp := Parts(required);
    if |ip| < 2 || |rp| < 2 then CompareVersions(installed, required) >= 0
    else if !StrictEquals(PartAt(ip, 0), PartAt(rp, 0)) then false
    else if ip[1].Num? && rp[1].Num? && ip[1].n < rp[1].n then false
    else if ip[1].Num? && rp[1].Num? && ip[1].n > rp[1].n then true
    else CompareVersions(installed, required) >= 0
  }

  /** `checkVersionMatch(installedVersion, requiredVersion)`: operator prefixes tested in source order. */
  function CheckVersionMatch(installed: string, required: string): (r: bool)
    ensures StartsWith(required, "==") ==> (r <==> installed == required[2..])
    ensures StartsWith(required, ">=") ==> (r <==> !exists k: nat :: GreaterAt(Parts(required[2..]), Parts(installed), 0, k))
    ensures !StartsWith(required, "=") && !StartsWith(required, ">") && !StartsWith(required, "<") && !StartsWith(required, "~")
            ==> (r <==> installed == required)
  {
    if StartsWith(required, "==") then installed == required[2..]
    else if StartsWith(required, ">=") then CompareVersions(installed, required[2..]) >= 0
    else if StartsWith(required, "<=") then CompareVersions(installed, required[2..]) <= 0
    else if StartsWith(required, ">") then CompareVersions(installed, required[1..]) > 0
    else if StartsWith(required, "<") then CompareVersions(installed, required[1..]) < 0
    else if StartsWith(required, "~=") then CheckCompatibleVersion(installed, required[2..])
    else installed == required
  }

  lemma PrefixedRest(op: string, v: string)
    ensures StartsWith(op + v, op) && (op + v)[|op|..] == v
  {
    assert (op + v)[..|op|] == op;
  }

  /** `==X` is string equality with `X`. */
  lemma MatchEquals(installed: string, v: string)
    ensures CheckVersionMatch(installed, "==" + v) <==> installed == v
  {
    PrefixedRest("==", v);
  }

  /** `>=X` and `<=X` compare with `X`. */
  lemma MatchAtLeastAtMost(installed: string, v: string)
    ensures CheckVersionMatch(installed, ">=" + v) <==> CompareVersions(installed, v) >= 0
    ensures CheckVersionMatch(installed, "<=" + v) <==> CompareVersions(installed, v) <= 0
  {
    PrefixedRest(">=", v);
    PrefixedRest("<=", v);
    assert !StartsWith("<=" + v, "==") && !StartsWith("<=" + v, ">=");
  }

  /** `>X` and `<X` compare strictly, when `X` does not itself start with `=`. */
  lemma MatchGreaterLess(installed: string, v: string)
    requires !StartsWith(v, "=")
    ensures CheckVersionMatch(installed, ">" + v) <==> CompareVersions(installed, v) > 0
    ensures CheckVersionMatch(installed, "<" + v) <==> CompareVersions(installed, v) < 0
  {
    PrefixedRest(">", v);
    PrefixedRest("<", v);
    assert !StartsWith(">" + v, "==") && !StartsWith("<" + v, "==");
    if |v| > 0 {
      assert (">" + v)[1] == v[0] && ("<" + v)[1] == v[0];
      assert v[..1] == [v[0]];
    }
  }

  /** `~=X` is the compatible-release rule. */
  lemma MatchCompatible(installed: string, v: string)
    ensures CheckVersionMatch(installed, "~=" + v) == CheckCompatibleVersion(installed, v)
  {
    PrefixedRest("~=", v);
  }

  /** `~=` followed by a version, as the matcher sees it. */
  lemma CompatibleMatch(installed: string, v: string, required: string)
    requires required == "~=" + v
    ensures CheckVersionMatch(installed, required) == CheckCompatibleVersion(installed, v)
  {
    MatchCompatible(installed, v);
  }

  /** `!=X` has no branch of its own: it is compared as a whole string, so no real version satisfies it. */
  lemma MatchNotEqualIsLiteral(installed: string, v: string)
    ensures CheckVersionMatch(installed, "!=" + v) <==> installed == "!=" + v
  {
    assert ("!=" + v)[0] == '!';
  }

  /** A version always satisfies `==` itself. */
  lemma MatchEqualsItself(v: string)
    ensures CheckVersionMatch(v, "==" + v)
  {
    MatchEquals(v, v);
  }

  /** The `~=` rule never accepts a version older than the one required. */
  lemma CompatibleIsNeverOlder(installed: string, required: string)
    ensures CheckCompatibleVersion(installed, required) ==> CompareVersions(installed, required) >= 0
  {
    var ip, rp := Parts(installed), Parts(required);
    if |ip| >= 2 && |rp| >= 2 && StrictEquals(PartAt(ip, 0), PartAt(rp, 0))
      && ip[1].Num? && rp[1].Num? && ip[1].n > rp[1].n
    {
      assert GreaterAt(ip, rp, 0, 1);
      CompareOneIffFirstDifferenceGreater(installed, required);
    }
  }

  /** The `~=` rule with a NaN major segment rejects even the identical string. */
  lemma CompatibleRejectsNaNMajor()
    ensures !CheckCompatibleVersion("x.1", "x.1")
    ensures !CheckVersionMatch("x.1", "~=x.1")
  {
    assert Parts("x.1") == [NaN, Num(1)] by {
      assert "x" + "." + "1" == "x.1";
      PartsOfTwo("x", "1");
      DigitNumber('1');
      assert !IsDigit("x"[0]);
    }
    CompatibleMatch("x.1", "x.1", "~=x.1");
  }

  /** Every segment is a run of decimal digits. */
  ghost predicate Numeric(v: string) {
    forall i :: 0 <= i < |Parts(v)| ==> Parts(v)[i].Num?
  }

  /**
   * The compatible-release clause of PEP 440: `~=V.N` means at least `V.N`
   * and the same release prefix `V`.
   */
  ghost predicate CompatibleRelease(installed: string, required: string) {
    var rp := Parts(required);
    && |rp| >= 2
    && CompareVersions(installed, required) >= 0
    && forall k :: 0 <= k < |rp| - 1 ==> PartValue(Parts(installed), k) == PartValue(rp, k)
  }

  /** On numeric versions, whatever PEP 440 calls compatible the source's `~=` accepts. */
  lemma CompatibleReleaseAccepted(installed: string, required: string)
    requires Numeric(installed) && Numeric(required)
    requires CompatibleRelease(installed, required)
    ensures CheckCompatibleVersion(installed, required)
  {
    var ip, rp := Parts(installed), Parts(required);
    if |ip| >= 2 {
      assert PartValue(ip, 0) == PartValue(rp, 0);
      assert StrictEquals(PartAt(ip, 0), PartAt(rp, 0));
      if |rp| >= 3 {
        assert PartValue(ip, 1) == PartValue(rp, 1);
      } else {
        CompareOneIffFirstDifferenceGreater(required, installed);
        CompareAntisymmetric(installed, required);
        assert AgreeBetween(rp, ip, 0, 1);
        assert !GreaterAt(rp, ip, 0, 1);
      }
    }
  }

  /**
   * The source's `~=` is looser than PEP 440: `~=1.4.2` accepts `1.9.0`, and a
   * one-segment installed version is only compared, so `~=1.4` accepts `2`.
   */
  lemma CompatibleLooserThanPep440()
    ensures CheckCompatibleVersion("1.9.0", "1.4.2") && !CompatibleRelease("1.9.0", "1.4.2")
    ensures CheckCompatibleVersion("2", "1.4") && !CompatibleRelease("2", "1.4")
  {
    LaterMinorAccepted();
    ShortInstalledAccepted();
  }

  /** `~=1.4.2` accepts `1.9.0`, whose minor PEP 440 would have to keep. */
  lemma LaterMinorAccepted()
    ensures CheckCompatibleVersion("1.9.0", "1.4.2") && !CompatibleRelease("1.9.0", "1.4.2")
  {
    DigitVersion3('1', '9', '0');
    DigitVersion3('1', '4', '2');
    assert PartValue(Parts("1.9.0"), 1) != PartValue(Parts("1.4.2"), 1);
  }

  /** `~=1.4` accepts `2`: a one-segment version is only compared. */
  lemma ShortInstalledAccepted()
    ensures CheckCompatibleVersion("2", "1.4") && !CompatibleRelease("2", "1.4")
  {
    assert Parts("2") == [Num(2)] by {
      SplitNoSeparator("2", '.');
      DigitNumber('2');
    }
    DigitVersion2('1', '4');
    assert PartValue(Parts("2"), 0) != PartValue(Parts("1.4"), 0);
    assert GreaterAt(Parts("2"), Parts("1.4"), 0, 0);
    CompareOneIffFirstDifferenceGreater("2", "1.4");
  }

  /** `~=1.4` accepts `1.4.0`: same major, equal minor, not older. */
  lemma CompatibleAcceptsSameMinor()
    ensures CheckVersionMatch("1.4.0", "~=1.4")
  {
    CompatibleMatch("1.4.0", "1.4", "~=1.4");
    DigitVersion2('1', '4');
    DigitVersion3('1', '4', '0');
    assert AgreeBetween([Num(1), Num(4), Num(0)], [Num(1), Num(4)], 0, 3) by {
      assert PartValue([Num(1), Num(4)], 2) == 0;
    }
    CompareAgreeingParts("1.4.0", "1.4", [Num(1), Num(4), Num(0)], [Num(1), Num(4)]);
  }

  /** `~=1.4` rejects `2.0.0`: the major differs. */
  lemma CompatibleRejectsOtherMajor()
    ensures !CheckVersionMatch("2.0.0", "~=1.4")
  {
    CompatibleMatch("2.0.0", "1.4", "~=1.4");
    DigitVersion2('1', '4');
    DigitVersion3('2', '0', '0');
  }

  /** `~=1.4` accepts `1.5.0`: same major, larger minor. */
  lemma CompatibleAcceptsLargerMinor()
    ensures CheckVersionMatch("1.5.0", "~=1.4")
  {
    CompatibleMatch("1.5.0", "1.4", "~=1.4");
    DigitVersion2('1', '4');
    DigitVersion3('1', '5', '0');
  }
}

=== FILE: wrappers.dfy ===
/** Failure-compatible wrappers shared by the whole model. */
module Wrappers {

  /** A value that may be absent: JavaScript's `undefined` / `null`. */
  datatype Option<+T> = None | Some(value: T) {

    /** The carried value, or `default` when absent (`x ?? default`). */
    function GetOr(default: T): T {
      match this
      case Some(v) => v
      case None => default
    }
  }

  /** `v || default` for an optional string: an absent and an empty string both give `default`. */
  function OrElse(v: Option<string>, default: string): (r: string)
    ensures v.Some? && v.value != "" ==> r == v.value
    ensures v.None? || v.value == "" ==> r == default
  {
    if v.Some? && v.value != "" then v.value else default
  }
}
